=== FILE: README.md ===
# Gecko corruption engine in Dafny

Gecko produces realistic test data for record linkage. It has two parts:

- Generators fill the columns of a data frame.
- Corruptors then damage those strings the way real data gets damaged: typos, phonetic misspellings, edit errors, swapped categories, missing values.

This project models the corruption engine (`gecko/corruptor.py`) and two parts of the generator module:

- the frame assembly `to_data_frame`;
- the column-argument checks of `from_multicolumn_frequency_table`.

Every corruptor is a function from a batch of strings (one pandas series, `seq<string>`) to a batch or an error. Randomness is an input: each value the source draws from numpy's generator is a parameter here.

- A unit draw is a real in [0, 1).
- A position in a string of length `n` is `floor(n * r)`, as in the source.
- An unweighted `rng.choice` is modelled the same way.
- A weighted choice is numpy's cumulative-sum search (`Probability.Choose`).

Errors are `Result` values that carry the source's messages. The exception type (`ValueError`, `IndexError`) is not kept; see "## Left out".

Modules, in dependency order:

| module | models |
|---|---|
| `Wrappers` | result and outcome types |
| `Probability` | unit draws, scaled indices, the weighted choice |
| `Text` | `str.find`, `startswith`, `endswith`, `replace(.., 1)`, `strip`, `join`, and the greedy regex `^(.+)P(.+)$` |
| `Sorting` | `Series.unique`, `sorted` over characters, `np.unique` over strings |
| `Rows` | boolean-mask selection `xs[mask]` and masked assignment `xs[mask] = ys` |
| `Edits` | `with_insert`, `with_delete`, `with_transpose`, `with_substitute` |
| `EditComposer` | `with_edit` |
| `Keyboard` | `with_cldr_keymap_file` |
| `Phonetic` | `with_phonetic_replacement_table` |
| `Replacement` | `with_replacement_table` |
| `Missing` | `with_missing_value` |
| `Categorical` | `with_categorical_values` |
| `Orchestrator` | `with_noop` and `corrupt_dataframe` |
| `Generation` | `to_data_frame` and the multicolumn argument checks |

Where the model follows the code rather than the documented intent:

- **Weight lists are not padded.** `corrupt_dataframe` rejects a weighted list whose weights do not sum to one. The message is "probabilities for column `c` must sum up to 1.0" (`gecko/corruptor.py:1013-1018`). The code neither pads a short list with a no-op corruptor nor uses the "may not be higher than 1.0" message that the repository's newer tests expect. The model follows the code; see `Orchestrator.WeightsMustSumToOne`.
- **Phonetic eligibility uses the first occurrence, application uses the current text.** Two consequences are proved:
  - A pattern that does not occur at all makes a rule eligible under `$`, because `-1 + len(pattern) == len(s)` can hold.
  - A row can be rewritten under a flag its eligibility did not include.
- **Entries of `corrupt_dataframe` are independent.** Every entry reads the input frame, never the output. The model therefore computes each entry's outcome first (`Orchestrator.Outcomes`) and then writes the outcomes back in dictionary order, stopping at the first error (`Orchestrator.WriteFrom`). This gives the same result and the same first error as the source's single loop.

## Model

| member | source | states |
|---|---|---|
| Probability.ScaledIndex | gecko/corruptor.py:620-623 | `floor(n * r)` for a unit draw `r` and `n >= 1` is a valid index below `n` |
| Probability.Choose | gecko/corruptor.py:1020-1023 | numpy's weighted choice returns the first index whose cumulative weight exceeds the draw, and that index has positive weight |
| Probability.ChooseIff | gecko/corruptor.py:1020-1023 | index `j` is chosen exactly when the draw falls in `j`'s half-open cumulative-weight interval (both directions) |
| Probability.ChooseFromDistribution | gecko/corruptor.py:845-849 | with weights that form a distribution, every unit draw picks an index of positive weight |
| Text.Find | gecko/corruptor.py:293 | `find` is -1 exactly when the pattern does not occur; otherwise it is the first occurrence |
| Text.ReplaceFirst | gecko/corruptor.py:514 | `replace(source, target, 1)` splices the target in at the first occurrence and leaves a string without `source` unchanged |
| Text.LastInterior | gecko/corruptor.py:370-378 | the match of `^(.+)P(.+)$` is the last occurrence with a non-empty prefix and a non-empty suffix, or none |
| Text.StripEmptyIff | gecko/corruptor.py:567 | `s.strip() == ""` holds exactly for strings made only of whitespace |
| Sorting.Unique | gecko/corruptor.py:436 | `unique()` holds every value of the input once and nothing else, in order of first appearance |
| Sorting.DedupOrder | gecko/corruptor.py:436 | skipping values already seen keeps the values in the order of their first occurrence in the whole input |
| Sorting.SortedChars | gecko/corruptor.py:146-148 | `"".join(sorted(cs))` is strictly increasing and holds exactly the characters of `cs` |
| Sorting.SortStrings | gecko/corruptor.py:943 | the `setdiff1d` result is sorted in code-point order and holds exactly the input's values |
| Rows.Select | gecko/corruptor.py:859-872 | `xs[mask]` has one element per selected row, and row `k` sits at its rank among the selected rows |
| Rows.Scatter | gecko/corruptor.py:859-872 | `xs[mask] = ys` writes `ys` into the selected rows in order and leaves every other row unchanged |
| Rows.SelectScatter | gecko/corruptor.py:859-872 | reading back the rows just written gives exactly the written values |
| Rows.ScatterSelect | gecko/corruptor.py:859-872 | writing a subset back unchanged restores the batch |
| Rows.SelectScatterOther | gecko/corruptor.py:859-872 | writing one label's rows leaves every other label's subset unchanged |
| Edits.InsertAt | gecko/corruptor.py:637-641 | insertion at `i` keeps the prefix, places the character at `i`, and shifts the suffix by one |
| Edits.DeleteAt | gecko/corruptor.py:683-685 | deletion at `i` keeps the prefix and shifts the suffix left by one |
| Edits.SwapAt | gecko/corruptor.py:729-734 | transposition swaps positions `i` and `i+1` and changes nothing else |
| Edits.SubstituteAt | gecko/corruptor.py:787-791 | substitution changes position `i` only |
| Edits.DeleteAfterInsert | gecko/corruptor.py:637-641 | deleting at the insertion point undoes an insertion |
| Edits.SwapInvolution | gecko/corruptor.py:729-734 | a transposition is its own inverse and permutes the characters |
| Edits.SubstituteRestore | gecko/corruptor.py:787-791 | substituting the old character back undoes a substitution; substituting a character by itself changes nothing |
| Edits.SelectedLongEnough | gecko/corruptor.py:661-663 | the rows selected for an edit all meet its minimum length |
| Edits.InsertBatch | gecko/corruptor.py:613-646 | every row gains one charset character at position `floor((len+1) * r)`; fails exactly when the charset is empty and the batch is not |
| Edits.DeleteBatch | gecko/corruptor.py:659-689 | empty strings are kept; every other row loses the character at `floor(len * r)` |
| Edits.TransposeBatch | gecko/corruptor.py:703-738 | strings shorter than two are kept; every other row is transposed (`Edits.SwapAt`) at `floor((len-1) * r)`, using the draw of its slot among the long-enough rows |
| Edits.SubstituteBatch | gecko/corruptor.py:757-795 | empty strings are kept; every other row gets a charset character at `floor(len * r)`; fails exactly when the charset is empty and some row is non-empty |
| EditComposer.CheckProbabilityInBounds | gecko/corruptor.py:39-41 | passes exactly for probabilities in [0, 1]; fails with the source's message otherwise |
| EditComposer.NewEdit | gecko/corruptor.py:825-834 | construction succeeds exactly when all four weights lie in [0, 1] and sum to one; the range error takes precedence over the sum error |
| EditComposer.LabelDrawn | gecko/corruptor.py:846-849 | row `k` draws operation `n` exactly when its unit draw lies in `n`'s half-open cumulative-weight interval over `[p_ins, p_del, p_sub, p_trs]` (both directions) |
| EditComposer.ZeroWeightNeverDrawn | gecko/corruptor.py:846-849 | an operation of weight zero is never assigned to any row |
| EditComposer.WriteGroup | gecko/corruptor.py:851-872 | writing one operation's output sets that operation's rows and leaves the other operations' rows as they were |
| EditComposer.EditCorrupt | gecko/corruptor.py:845-872 | the output keeps the row count, and each operation's subset of rows holds exactly that operation's output on its input subset; fails exactly when insert or substitute fails |
| EditComposer.EditRowFromGroup | gecko/corruptor.py:845-872 | each row's output is the output of the operation it drew, taken at the row's place in that operation's subset |
| Keyboard.Level | gecko/corruptor.py:98-105 | no modifier is level 0, `shift` is level 1, and any other modifier skips the key map |
| Keyboard.MaxRow | gecko/corruptor.py:75-82 | the grid's row bound is the largest row of any key of any key map (0 when there is none): every key is at or below it, and some key attains it |
| Keyboard.MaxCol | gecko/corruptor.py:75-82 | the grid's column bound is the largest column of any key (0 when there is none): every key is at or below it, and some key attains it |
| Keyboard.Writes | gecko/corruptor.py:97-116 | the writes are exactly traceable to keys: each lies within the bounds on level 0 or 1 with a permitted character, and every permitted key of a level-0 or shift key map yields its write |
| Keyboard.FillLast | gecko/corruptor.py:116 | a write that no later write to the same cell overrides leaves its character in that cell (last write wins) |
| Keyboard.FillKeeps | gecko/corruptor.py:116 | a cell that no write targets keeps its character |
| Keyboard.BuildGrid | gecko/corruptor.py:84-116 | every filled cell lies within the bounds, holds a permitted character and comes from a write of a key map; every write's cell is filled; a cell holds the character of its last write |
| Keyboard.KeysFilled | gecko/corruptor.py:97-116 | every key with a permitted character in a level-0 or shift key map fills its cell on that level |
| Keyboard.NeighborChars | gecko/corruptor.py:132-143 | the candidates of a cell are the characters on its neighbouring filled cells, excluding the cell's own character and whitespace, which a `chararray` cell reads back as empty |
| Keyboard.WriteEntrySound | gecko/corruptor.py:142-148 | overwriting the entry of a character with the sorted candidates of one of its cells keeps every entry traceable to a cell |
| Keyboard.NewKeyboard | gecko/corruptor.py:118-148 | every entry of the candidate map comes from a cell of its character, and every character on a cell with candidates has an entry |
| Keyboard.Visit | gecko/corruptor.py:129-148 | visiting a cell with candidates sets its character's entry to the sorted candidates; every other entry is kept |
| Keyboard.CollectSound | gecko/corruptor.py:127-148 | after any sequence of visits, every entry comes from a cell holding its character |
| Keyboard.CollectKeeps | gecko/corruptor.py:127-148 | cells that do not hold `c` with candidates leave `c`'s entry as it was |
| Keyboard.CollectLast | gecko/corruptor.py:127-148 | a character's entry comes from the last visited cell that holds it and has candidates |
| Keyboard.NewKeyboardLastCell | gecko/corruptor.py:127-148 | the entry of a character is the sorted candidates of its last cell in `np.nditer` order (row, column, shift) that has candidates |
| Keyboard.SoundAll | gecko/corruptor.py:118-148 | the candidate strings are non-empty, sorted, exclude their own character, pass the charset filter and lie on neighbouring cells |
| Keyboard.KeyboardCandidates | gecko/corruptor.py:111-148 | the constructed candidate map has the properties of `Keyboard.SoundAll` |
| Keyboard.TypoRow | gecko/corruptor.py:152-197 | a string keeps its length; only the drawn position `floor(len * r)` can change; it changes exactly when the drawn character has candidates, and then holds one of them |
| Keyboard.TypoBatchRow | gecko/corruptor.py:152-197 | each row, with its own position and candidate draws, keeps its length, can change only at its drawn position, and changes exactly when the character there has candidates |
| Keyboard.NoCandidateNoChange | gecko/corruptor.py:111-113 | a character without candidates, in particular one outside the charset, is never replaced |
| Phonetic.ValidateFlags | gecko/corruptor.py:235-244 | missing or empty flags mean all of `$^_`; other flags are accepted as given exactly when every character is a flag; otherwise the error names the first unknown character |
| Phonetic.BuildRules | gecko/corruptor.py:262-272 | construction succeeds exactly when every row's flags validate, giving one rule per row in table order; on failure the message is that of the first row whose flags do not validate |
| Phonetic.EligibleFlags | gecko/corruptor.py:293-313 | with `i = find(pattern)`: `^` is eligible exactly when the rule allows it and `i == 0` (the string starts with the pattern); `$` exactly when allowed and `i + len(pattern) == len(s)`; `_` exactly when allowed, `i > 0` and `i + len(pattern) < len(s)` |
| Phonetic.EligibleCount | gecko/corruptor.py:287-316 | the number of applicable rules is zero exactly when no rule is applicable |
| Phonetic.FirstMatch | gecko/corruptor.py:335-352 | the flag applied is the first flag of the shuffled order that matches the current text; none exists exactly when no flag matches |
| Phonetic.ApplyFlags | gecko/corruptor.py:335-385 | an already modified row is left alone; otherwise the first matching flag of a candidate row rewrites it and marks it |
| Phonetic.ApplyRulesNone | gecko/corruptor.py:354-385 | the rules from a given index on leave an unmodified row unmarked, and so unchanged, exactly when none of them fires on it |
| Phonetic.ApplyRulesSome | gecko/corruptor.py:354-385 | when those rules modify a row, the first of them that fires rewrites the input under the first matching flag of its shuffled order |
| Phonetic.PhoneticRow | gecko/corruptor.py:274-387 | a row is left unmarked exactly when no rule fires on it, and an unmarked row is unchanged; otherwise the first rule that fires marks it and rewrites it under its first matching flag (a rewrite can leave the text as it was) |
| Phonetic.PhoneticBatchRow | gecko/corruptor.py:274-387 | each row, with its own draws: unchanged when no rule fires on it; otherwise rewritten by the first rule that fires, under the first flag of that rule's shuffled order that matches |
| Phonetic.RewriteCases | gecko/corruptor.py:361-381 | `^` replaces the leading occurrence, `$` the trailing one, and `_` the last interior one, or leaves the text unchanged when there is none |
| Phonetic.AppliedFlagAllowed | gecko/corruptor.py:335-356 | a row is rewritten under one of its rule's flags |
| Phonetic.NoEligibleRuleUnchanged | gecko/corruptor.py:317-333 | a string to which no rule applies is returned unchanged and unmarked |
| Phonetic.AtMostOneRewrite | gecko/corruptor.py:354-385 | once a row is marked, no later rule touches it |
| Phonetic.PhantomEndEligibility | gecko/corruptor.py:300-305 | rule `ab` with flags `$_` counts as applicable to `c`, where `ab` does not occur; the row is marked under `_` but its text stays unchanged |
| Phonetic.SingleRuleFires | gecko/corruptor.py:354-385 | a one-rule table whose rule fires rewrites the row under the first matching flag and marks it with that rule and flag |
| Phonetic.RewriteUnderIneligibleFlag | gecko/corruptor.py:293-387 | on `abab`, rule `ab` with flags `^$` is eligible only under `^`, yet the shuffled order `$^` rewrites the end, giving `abx` |
| Replacement.Sources | gecko/corruptor.py:436 | the sources are distinct, are exactly the values of the source column, and come in order of first appearance in that column |
| Replacement.Targets | gecko/corruptor.py:482-485 | the options for a source are exactly the targets the table pairs with it |
| Replacement.SourceHasTargets | gecko/corruptor.py:482-485 | every source has at least one target |
| Replacement.ContainedCount | gecko/corruptor.py:446-453 | the count of contained sources is zero exactly when the string contains none |
| Replacement.Assign | gecko/corruptor.py:455-477 | a row is assigned the first source, in order of appearance, that it contains and whose draw falls below `1/k`; no source is assigned exactly when none hits |
| Replacement.TargetFor | gecko/corruptor.py:487-497 | the target is one the table lists for the source, and a single option is used directly |
| Replacement.ReplaceRow | gecko/corruptor.py:438-514 | a row with no assigned source is unchanged; otherwise the first occurrence of its source is replaced by a target of that source |
| Replacement.ReplacementBatchRow | gecko/corruptor.py:438-514 | each row, with its own draws: a row containing no source is kept; any other row is kept or has the first occurrence of a source it contains replaced by one of that source's targets |
| Replacement.NoSourceUnchanged | gecko/corruptor.py:446-461 | a string containing no source is not corrupted |
| Replacement.SingleSourceAlwaysReplaced | gecko/corruptor.py:446-467 | a string containing exactly one source has probability 1 and is always assigned that source |
| Replacement.SingleTargetDeterministic | gecko/corruptor.py:487-491 | a source with a single target always yields that target |
| Missing.ParseStrategy | gecko/corruptor.py:588-595 | exactly `all`, `blank` and `empty` are accepted; any other name fails with the source's message |
| Missing.WithMissingValueDefaults | gecko/corruptor.py:573-576 | with the default value `""` and strategy `blank`, every whitespace-only string becomes empty and every other string is kept |
| Missing.WithMissingValue | gecko/corruptor.py:521-595 | `all` replaces every row, `empty` the empty strings, and `blank` the whitespace-only strings; an unknown strategy fails |
| Missing.ParsedStrategy | gecko/corruptor.py:588-595 | a recognised strategy name yields the corruptor of that strategy |
| Missing.BlankIff | gecko/corruptor.py:567 | the `blank` strategy selects exactly the strings made of whitespace only |
| Missing.StrategiesNested | gecko/corruptor.py:548-567 | empty strings are blank, and blank strings are selected by `all` |
| Missing.MissingIdempotent | gecko/corruptor.py:521-570 | applying a missing-value corruptor twice gives the same batch as applying it once |
| Missing.Scenarios | gecko/corruptor.py:521-595 | on `["foo", "   ", ""]` with value `bar`: `all` gives three `bar`; `empty` replaces only the last row; `blank` replaces the last two |
| Categorical.Categories | gecko/corruptor.py:930 | the categories are distinct and are exactly the column's values |
| Categorical.Alternatives | gecko/corruptor.py:943 | the alternatives of a value are the other categories, sorted |
| Categorical.NoAlternativeIff | gecko/corruptor.py:943-956 | a category has no alternative exactly when it is the only category |
| Categorical.CategoricalBatch | gecko/corruptor.py:932-965 | non-category rows are kept; every category row becomes a different category; fails exactly when some row holds a category without alternatives |
| Categorical.CategoricalErrIff | gecko/corruptor.py:938-955 | the corruptor fails exactly when the table has a single category and the batch contains it |
| Orchestrator.Noop | gecko/corruptor.py:877-889 | `with_noop` returns its input |
| Orchestrator.Normalize | gecko/corruptor.py:1000-1011 | a single corruptor gets weight 1; a plain list gets equal weights summing to one; a weighted list is kept; an empty list fails with an index error |
| Orchestrator.RowLabels | gecko/corruptor.py:1020-1026 | every row draws a corruptor of positive weight, by the cumulative-weight rule |
| Orchestrator.ApplyGroups | gecko/corruptor.py:1028-1034 | every corruptor is called on the rows that drew it, reading the input column; each row holds its corruptor's output at its rank; fails exactly when some call fails |
| Orchestrator.CorruptColumn | gecko/corruptor.py:1000-1034 | a list with an empty spec fails with an index error; weights that are not a distribution fail with the column's message; with a valid distribution the column succeeds exactly when every drawn corruptor's call on its rows succeeds, and an error is the error of one of those calls; on success each row holds the output of the corruptor it drew |
| Orchestrator.EntryOutput | gecko/corruptor.py:994-1034 | an entry for a missing column fails with the message listing the frame's columns; an entry for an existing column is that column's corruption, read from the input frame |
| Orchestrator.Outcomes | gecko/corruptor.py:994-1034 | every entry's outcome fits the frame, and is the column's corruption or the missing-column error |
| Orchestrator.WriteFrom | gecko/corruptor.py:994-1036 | writing the outcomes in order succeeds exactly when all succeed; otherwise it fails with the first failing entry's error; success keeps the frame's shape |
| Orchestrator.WriteUntouched | gecko/corruptor.py:992-1036 | a column no later entry names keeps its value |
| Orchestrator.WriteColumn | gecko/corruptor.py:1031-1034 | a column named by an entry, and by no later one, holds that entry's outcome |
| Orchestrator.CorruptFrame | gecko/corruptor.py:970-1036 | success keeps the frame's shape, and every key names an existing column |
| Orchestrator.CorruptFrameFails | gecko/corruptor.py:994-1034 | the call fails exactly when some entry fails, and with the error of the first entry in dictionary order that does |
| Orchestrator.CorruptFrameColumns | gecko/corruptor.py:991-1034 | columns without an entry are copied; a column with an entry holds that entry's output computed on the input column |
| Orchestrator.SingleWholeColumn | gecko/corruptor.py:1000-1001 | a single corruptor is applied to the whole column |
| Orchestrator.NoopKeepsColumn | gecko/corruptor.py:877-889 | `with_noop` as a column's corruptor leaves the column as it is |
| Orchestrator.WeightsMustSumToOne | gecko/corruptor.py:1013-1018 | weights summing to 0.5 or to 1.1 are rejected with the column's message, not padded or clipped |
| Orchestrator.UnknownColumn | gecko/corruptor.py:995-998 | an entry for a column the frame lacks makes the whole call fail with the missing-column message |
| Orchestrator.UnknownColumnMessage | gecko/corruptor.py:995-998 | on a frame whose only column is `foo`, the message ends with "must be one of `foo`" |
| Generation.KeyNames | gecko/generator.py:263-264 | a single column name is wrapped into a one-element tuple |
| Generation.Put | gecko/generator.py:277-278 | assigning to an existing name keeps its position; a new name is appended; names stay distinct |
| Generation.PutLookup | gecko/generator.py:277-278 | after `d[k] = v`, `k` reads `v` and every other name reads what it did before |
| Generation.AssembleKeys | gecko/generator.py:259-281 | the resulting columns are the assigned names once each, in order of first assignment |
| Generation.AssembleLookup | gecko/generator.py:259-281 | a column holds the series of its last assignment; an unassigned name is unaffected |
| Generation.Produce | gecko/generator.py:261-278 | generators run in dictionary order; success exactly when every generator succeeds with one series per name; otherwise the first failure and its message |
| Generation.ProducePairs | gecko/generator.py:261-278 | the pair at the place of name `i` of entry `j'`, after the names of all earlier entries, binds that name to series `i` of entry `j'`'s generator |
| Generation.ToDataFrame | gecko/generator.py:236-281 | an empty dictionary and a non-positive count fail with the source's messages; on success the columns are the mentioned names, once each, in order of first mention |
| Generation.LastAssignment | gecko/generator.py:276-278 | a column holds the series of the last pair assigned to its name |
| Generation.ToDataFrameColumn | gecko/generator.py:259-281 | when name `i` of entry `j'` is the last mention of that name in dictionary order, its column holds series `i` of entry `j'`'s generator |
| Generation.ToDataFrameUnmentioned | gecko/generator.py:259-281 | a name has a column exactly when some key of the dictionary mentions it |
| Generation.SingleEntry | gecko/generator.py:261-281 | a single named generator fills one column with the series it returned |
| Generation.ReassignedColumn | gecko/generator.py:276-281 | a name assigned twice keeps the place of its first assignment and the series of its last |
| Generation.CheckValueColumns | gecko/generator.py:194-208 | an empty list fails; otherwise success exactly when the single reference, or the list's first entry, has the kind of the frequency column; a single reference is wrapped into a list |
| Generation.MixedColumnsAccepted | gecko/generator.py:198-203 | only the first list entry is compared, so a list mixing indices and names is accepted |

## Left out

- **File reading.** CSV and XML reading are left out: CLDR key-map parsing, `pd.read_csv`, encodings and delimiters. Each corruptor takes its table or key maps as an already parsed value.
- **Keyboard neighbours.** `decode_iso_kb_pos`, `unescape_kb_char` and `get_neighbor_kb_pos_for` live in `gecko/cldr.py`, which is not part of this model. Decoded positions are inputs. The neighbour function is a parameter of the keyboard corruptor.
- **Random number generator.** The generator's stream, `spawn` and seeding are left out. Every draw of an elementary corruptor is an explicit parameter, so the model does not say which draws a given seed produces. The draws that only serve as sanity checks, such as the `rng.choice` in `with_edit` and `corrupt_dataframe`, are replaced by the condition they check.
- **Floating point.** The probability tolerance numpy applies to "sums to one" is replaced by exact real arithmetic. `1/k` is exact.
- **Regular expressions.** Phonetic patterns, replacement-table sources and categorical values are treated as literal strings. The engine hands them to regular-expression functions: `str.contains`, `str.replace(..., regex=True)` and `str.fullmatch`. Metacharacters in table entries, and `.` not matching newlines, are not modelled.
- **Stateful corruptors.** In the source a corruptor is a closure over its generator, and every call advances that generator. `corrupt_dataframe` may call the same corruptor several times: once per list entry that names it, and once per column whose entry uses it. Each call draws fresh values. In the model a corruptor handed to `corrupt_dataframe` is a fixed function from batch to batch, with its draws already made, so calling it twice on the same rows gives the same result.
- **Exception types.** The model keeps only the message of an error. The source raises `IndexError` for an empty corruptor list (`gecko/corruptor.py:1005`) and `ValueError` for the other errors; that distinction is not modelled.
- **NaN and index alignment.** Missing cells (NaN) in inputs and tables are not modelled, nor is pandas index alignment: rows are identified by position.
- **Constructor column checks.** The `header`/column-type checks in `with_replacement_table` (`gecko/corruptor.py:421-425`) and `with_categorical_values` (`gecko/corruptor.py:916-917`) are left out. They only guard how the file is read.
- **Unused position map.** `kb_char_to_kb_pos_dict` in the keyboard constructor is written but never read, so it is not modelled.
- **Generators.** The generators themselves (`from_function`, the uniform and normal distributions, the frequency tables) are left out; only their column-argument checks are modelled. A generator is a parameter of `to_data_frame`.
- **Frame construction.** The final `pd.DataFrame(...)` step (`gecko/generator.py:281`) is not modelled. The result is the ordered list of named series. pandas aligns series of unequal length on their index and pads the shorter ones with NaN; the model neither pads nor checks lengths.
- **Corruptor specifications.** A corruptor specification list whose first element is a corruptor but whose later elements are weighted pairs (and the reverse) is not modelled. The model distinguishes a plain list from a weighted list as a whole.
- **Length preservation.** Corruptors that change the number of rows are outside the model. `corrupt_dataframe` relies on every corruptor returning one string per input row, and the model requires it of the corruptors it is given.
- Phonetic.Rewrite: the rewrite uses literal patterns and literal replacements. In the source the replacement is a regex template: `\1{replacement}\2` for `_` and the bare replacement for `^` and `$`. So a backslash in a replacement is an escape, and a replacement that starts with a digit changes the group reference of the `_` template. Neither is modelled. Also not modelled: `.+` not matching a newline, and `$` matching before a trailing newline.
- Keyboard.NeighborChars: a `to` value of several characters is modelled as one character. The source's one-character cells (`itemsize=1`) keep only its first character, and its charset test is then a substring test. The model takes the key's character as already decoded.
- Text.Join: its contract covers only the one-element case that the arity message relies on, not the general separator placement.

=== FILE: categorical.dfy ===
/** `with_categorical_values`: every string that equals one of the known
    categories is replaced with a different category, drawn uniformly from
    the sorted list of the others (`np.setdiff1d`).  Other strings are left
    alone.  Categories are compared as literal strings. */
module Categorical {
  import opened Wrappers
  import opened Probability
  import opened Sorting
  import opened Edits

  /** The category column with duplicates removed, in order of first
      appearance (missing cells are not modelled). */
  function Categories(column: seq<string>): (r: seq<string>)
    ensures Distinct(r)
    ensures forall x :: x in r <==> x in column
  {
    Unique(column)
  }

  /** `xs` without the value `v`. */
  function Without(xs: seq<string>, v: string): (r: seq<string>)
    ensures forall y :: y in r <==> y in xs && y != v
  {
    if |xs| == 0 then []
    else (if xs[0] == v then [] else [xs[0]]) + Without(xs[1..], v)
  }

  /** `np.setdiff1d(categories, v)`: the other categories, sorted. */
  function Alternatives(categories: seq<string>, v: string): (r: seq<string>)
    ensures SortedStrings(r)
    ensures forall y :: y in r <==> y in categories && y != v
  {
    SortStrings(Without(categories, v))
  }

  /** Two distinct entries cannot both equal `v`. */
  lemma TwoDistinct(xs: seq<string>, v: string) returns (y: string)
    requires Distinct(xs) && |xs| >= 2
    ensures y in xs && y != v
  {
    y := if xs[0] == v then xs[1] else xs[0];
  }

  /** A category has no alternative exactly when it is the only one. */
  lemma NoAlternativeIff(categories: seq<string>, v: string)
    requires Distinct(categories) && v in categories
    ensures |Alternatives(categories, v)| == 0 <==> categories == [v]
  {
    var alts := Alternatives(categories, v);
    if |categories| >= 2 {
      var y := TwoDistinct(categories, v);
      assert y in alts;
    }
    if |alts| > 0 {
      assert alts[0] in alts;
    }
  }

  /** Row `k` equals a category that has no alternative. */
  predicate Stuck(categories: seq<string>, b: Batch, k: nat)
    requires k < |b|
  {
    b[k] in categories && |Alternatives(categories, b[k])| == 0
  }

  /** The corruptor on a batch: `picks[k]` is row `k`'s draw among the
      alternatives of its category. */
  function CategoricalBatch(column: seq<string>, b: Batch, picks: seq<real>): (r: Result<Batch>)
    requires |picks| == |b| && AllUnit(picks)
    ensures r.Err? <==> exists k :: 0 <= k < |b| && Stuck(Categories(column), b, k)
    ensures r.Err? ==> r.msg == EmptyChoiceMessage
    ensures r.Ok? ==> |r.value| == |b|
    ensures r.Ok? ==> forall k :: 0 <= k < |b| && b[k] !in column ==> r.value[k] == b[k]
    ensures r.Ok? ==> forall k :: 0 <= k < |b| && b[k] in column ==>
      r.value[k] in column && r.value[k] != b[k]
    ensures r.Ok? ==> forall k :: 0 <= k < |b| && b[k] in column ==>
      r.value[k] == Pick(Alternatives(Categories(column), b[k]), picks[k])
  {
    var cats := Categories(column);
    if exists k :: 0 <= k < |b| && Stuck(cats, b, k) then Err(EmptyChoiceMessage)
    else
      Ok(seq(|b|, k requires 0 <= k < |b| =>
        if b[k] in cats then
          assert !Stuck(cats, b, k);
          Pick(Alternatives(cats, b[k]), picks[k])
        else b[k]))
  }

  /** The error case in the source's terms: the table holds a single
      category and some row equals it. */
  lemma CategoricalErrIff(column: seq<string>, b: Batch, picks: seq<real>)
    requires |picks| == |b| && AllUnit(picks)
    ensures CategoricalBatch(column, b, picks).Err? <==>
      |Categories(column)| == 1 && Categories(column)[0] in b
  {
    var cats := Categories(column);
    if CategoricalBatch(column, b, picks).Err? {
      var k :| 0 <= k < |b| && Stuck(cats, b, k);
      NoAlternativeIff(cats, b[k]);
    }
    if |cats| == 1 && cats[0] in b {
      var k :| 0 <= k < |b| && b[k] == cats[0];
      assert cats == [b[k]];
      NoAlternativeIff(cats, b[k]);
      assert Stuck(cats, b, k);
    }
  }
}

=== FILE: edit_composer.dfy ===
/** `with_edit`: four weights choose, per row, one of insert, delete,
    substitute and transpose.  Construction validates the weights; a call
    draws one operation per row and hands every operation the subset of rows
    that drew it.  Each elementary corruptor has its own draws (the source
    spawns an independent generator per child). */
module EditComposer {
  import opened Wrappers
  import opened Probability
  import opened Rows
  import opened Edits

  datatype EditOp = Ins | Del | Sub | Trs

  /** `["ins", "del", "sub", "trs"]`, the order the weights are given in. */
  const Ops: seq<EditOp> := [Ins, Del, Sub, Trs]

  const OutOfRangeMessage: string := "probability is out of range, must be between 0 and 1"
  const SumMessage: string := "probabilities must sum up to 1.0"

  /** A constructed edit corruptor: the weights of `Ops` and the charset
      handed to insert and substitute. */
  datatype EditConfig = EditConfig(weights: seq<real>, charset: string)

  predicate ValidConfig(cfg: EditConfig) {
    |cfg.weights| == 4 && IsDistribution(cfg.weights)
  }

  /** `_check_probability_in_bounds` */
  function CheckProbabilityInBounds(p: real): (o: Outcome)
    ensures o.Pass? <==> 0.0 <= p <= 1.0
    ensures o.Fail? ==> o.msg == OutOfRangeMessage
  {
    if p < 0.0 || p > 1.0 then Fail(OutOfRangeMessage) else Pass
  }

  predicate InUnitInterval(p: real) {
    0.0 <= p <= 1.0
  }

  predicate AllInUnitInterval(pIns: real, pDel: real, pSub: real, pTrs: real) {
    InUnitInterval(pIns) && InUnitInterval(pDel) && InUnitInterval(pSub) && InUnitInterval(pTrs)
  }

  /** Construction of `with_edit`: each weight must lie in [0, 1] (checked
      first), then the weights must sum to one. */
  function NewEdit(pIns: real, pDel: real, pSub: real, pTrs: real, charset: string): (r: Result<EditConfig>)
    ensures r.Ok? <==>
      AllInUnitInterval(pIns, pDel, pSub, pTrs) && pIns + pDel + pSub + pTrs == 1.0
    ensures r.Ok? ==>
      && ValidConfig(r.value)
      && r.value.weights == [pIns, pDel, pSub, pTrs]
      && r.value.charset == charset
    ensures r.Err? && !AllInUnitInterval(pIns, pDel, pSub, pTrs) ==> r.msg == OutOfRangeMessage
    ensures r.Err? && AllInUnitInterval(pIns, pDel, pSub, pTrs) ==> r.msg == SumMessage
  {
    var ws := [pIns, pDel, pSub, pTrs];
    assert Sum(ws) == pIns + pDel + pSub + pTrs by {
      assert ws[1..] == [pDel, pSub, pTrs];
      assert [pDel, pSub, pTrs][1..] == [pSub, pTrs];
      assert [pSub, pTrs][1..] == [pTrs];
      assert [pTrs][1..] == [];
      assert Sum([pTrs]) == pTrs;
      assert Sum([pSub, pTrs]) == pSub + pTrs;
      assert Sum([pDel, pSub, pTrs]) == pDel + pSub + pTrs;
    }
    if || CheckProbabilityInBounds(pIns).Fail?
       || CheckProbabilityInBounds(pDel).Fail?
       || CheckProbabilityInBounds(pSub).Fail?
       || CheckProbabilityInBounds(pTrs).Fail?
    then Err(OutOfRangeMessage)
    else if IsDistribution(ws) then Ok(EditConfig(ws, charset))
    else Err(SumMessage)
  }

  /** The draws one call consumes: one categorical draw per row from the
      parent generator, and the draws of each child corruptor. */
  datatype EditDraws = EditDraws(
    ops: seq<real>,
    insPos: seq<real>, insChars: seq<real>,
    del: seq<real>,
    subPos: seq<real>, subChars: seq<real>,
    trs: seq<real>)

  /** The operation drawn for each row. */
  function Labels(cfg: EditConfig, us: seq<real>): (labels: seq<EditOp>)
    requires ValidConfig(cfg) && AllUnit(us)
    ensures |labels| == |us|
    ensures forall k :: 0 <= k < |us| ==> labels[k] == Ops[Choose(cfg.weights, us[k])]
  {
    seq(|us|, k requires 0 <= k < |us| => Ops[Choose(cfg.weights, us[k])])
  }

  /** Row `k` draws operation `n` exactly when its unit draw falls into the
      half-open interval of cumulative weight that belongs to `n`
      (`rng.choice` with `p=[p_ins, p_del, p_sub, p_trs]`). */
  lemma LabelDrawn(cfg: EditConfig, us: seq<real>, k: nat, n: nat)
    requires ValidConfig(cfg) && AllUnit(us) && k < |us| && n < 4
    ensures Labels(cfg, us)[k] == Ops[n] <==>
      Sum(cfg.weights[..n]) <= us[k] < Sum(cfg.weights[..n + 1])
  {
    ChooseIff(cfg.weights, us[k], n);
  }

  /** An operation of weight zero is never drawn. */
  lemma ZeroWeightNeverDrawn(cfg: EditConfig, us: seq<real>, k: nat, n: nat)
    requires ValidConfig(cfg) && AllUnit(us) && k < |us| && n < 4 && cfg.weights[n] == 0.0
    ensures Labels(cfg, us)[k] != Ops[n]
  {
    ChooseFromDistribution(cfg.weights, us[k]);
  }

  /** Each child has exactly the draws its subset needs. */
  predicate DrawsFit(cfg: EditConfig, b: Batch, d: EditDraws)
    requires ValidConfig(cfg)
  {
    && |d.ops| == |b| && AllUnit(d.ops)
    && var labels := Labels(cfg, d.ops);
    && |d.insPos| == Count(labels, Ins) && |d.insChars| == Count(labels, Ins)
    && AllUnit(d.insPos) && AllUnit(d.insChars)
    && |d.del| == Eligible(Select(b, labels, Del), 1) && AllUnit(d.del)
    && |d.subPos| == Eligible(Select(b, labels, Sub), 1)
    && |d.subChars| == Eligible(Select(b, labels, Sub), 1)
    && AllUnit(d.subPos) && AllUnit(d.subChars)
    && |d.trs| == Eligible(Select(b, labels, Trs), 2) && AllUnit(d.trs)
  }

  // What each child makes of the rows that drew it.

  function InsOut(cfg: EditConfig, b: Batch, d: EditDraws): Result<Batch>
    requires ValidConfig(cfg) && DrawsFit(cfg, b, d)
  {
    InsertBatch(Select(b, Labels(cfg, d.ops), Ins), cfg.charset, d.insPos, d.insChars)
  }

  function DelOut(cfg: EditConfig, b: Batch, d: EditDraws): Batch
    requires ValidConfig(cfg) && DrawsFit(cfg, b, d)
  {
    DeleteBatch(Select(b, Labels(cfg, d.ops), Del), d.del)
  }

  function SubOut(cfg: EditConfig, b: Batch, d: EditDraws): Result<Batch>
    requires ValidConfig(cfg) && DrawsFit(cfg, b, d)
  {
    SubstituteBatch(Select(b, Labels(cfg, d.ops), Sub), cfg.charset, d.subPos, d.subChars)
  }

  function TrsOut(cfg: EditConfig, b: Batch, d: EditDraws): Batch
    requires ValidConfig(cfg) && DrawsFit(cfg, b, d)
  {
    TransposeBatch(Select(b, Labels(cfg, d.ops), Trs), d.trs)
  }

  /** `srs_out[msk] = corr(srs_out[msk])`, skipped when no row drew `op`:
      rows of `op` take `ys`, every other subset is left as it was. */
  function WriteGroup(out: Batch, labels: seq<EditOp>, op: EditOp, ys: Batch): (r: Batch)
    requires |out| == |labels| && |ys| == Count(labels, op)
    ensures |r| == |out|
    ensures Select(r, labels, op) == ys
    ensures forall h :: h != op ==> Select(r, labels, h) == Select(out, labels, h)
  {
    if Count(labels, op) == 0 then
      assert Select(out, labels, op) == [];
      out
    else
      SelectScatter(out, labels, op, ys);
      forall h | h != op
        ensures Select(Scatter(out, labels, op, ys), labels, h) == Select(out, labels, h)
      {
        SelectScatterOther(out, labels, op, ys, h);
      }
      Scatter(out, labels, op, ys)
  }

  /** One call of the edit corruptor.  Insert runs first, then delete,
      substitute and transpose, each on the rows that drew it. */
  function EditCorrupt(cfg: EditConfig, b: Batch, d: EditDraws): (r: Result<Batch>)
    requires ValidConfig(cfg) && DrawsFit(cfg, b, d)
    ensures r.Err? <==> InsOut(cfg, b, d).Err? || SubOut(cfg, b, d).Err?
    ensures r.Ok? ==> |r.value| == |b|
    ensures r.Ok? ==> InsOut(cfg, b, d).Ok? && SubOut(cfg, b, d).Ok?
    ensures r.Ok? ==>
      var labels := Labels(cfg, d.ops);
      && Select(r.value, labels, Ins) == InsOut(cfg, b, d).value
      && Select(r.value, labels, Del) == DelOut(cfg, b, d)
      && Select(r.value, labels, Sub) == SubOut(cfg, b, d).value
      && Select(r.value, labels, Trs) == TrsOut(cfg, b, d)
  {
    var labels := Labels(cfg, d.ops);
    var ins :- InsertBatch(Select(b, labels, Ins), cfg.charset, d.insPos, d.insChars);
    var out1 := WriteGroup(b, labels, Ins, ins);
    var del := DeleteBatch(Select(out1, labels, Del), d.del);
    var out2 := WriteGroup(out1, labels, Del, del);
    var sub :- SubstituteBatch(Select(out2, labels, Sub), cfg.charset, d.subPos, d.subChars);
    var out3 := WriteGroup(out2, labels, Sub, sub);
    var trs := TransposeBatch(Select(out3, labels, Trs), d.trs);
    Ok(WriteGroup(out3, labels, Trs, trs))
  }

  /** Each row receives exactly the operation it drew, applied to its own
      value: its output is the drawn child's output at the row's place in
      that child's subset. */
  lemma EditRowFromGroup(cfg: EditConfig, b: Batch, d: EditDraws, k: nat)
    requires ValidConfig(cfg) && DrawsFit(cfg, b, d) && k < |b|
    requires EditCorrupt(cfg, b, d).Ok?
    ensures var labels := Labels(cfg, d.ops);
      var r := EditCorrupt(cfg, b, d).value;
      var j := Rank(labels, k);
      && Select(b, labels, labels[k])[j] == b[k]
      && (labels[k] == Ins ==> r[k] == InsOut(cfg, b, d).value[j])
      && (labels[k] == Del ==> r[k] == DelOut(cfg, b, d)[j])
      && (labels[k] == Sub ==> r[k] == SubOut(cfg, b, d).value[j])
      && (labels[k] == Trs ==> r[k] == TrsOut(cfg, b, d)[j])
  {
  }
}

=== FILE: edits.dfy ===
/** The four elementary edit corruptors (`with_insert`, `with_delete`,
    `with_transpose`, `with_substitute`).  Each takes, per call, the unit
    draws the source takes from its generator: one position draw per
    affected row and, for insert and substitute, one character draw per
    affected row.  Insert affects every row; delete and substitute only rows
    with at least one character, transpose only rows with at least two, and
    those three draw only for the affected rows, in row order. */
module Edits {
  import opened Wrappers
  import opened Probability
  import opened Rows

  type Batch = seq<string>

  /** numpy's message when `rng.choice` is asked to sample from an empty
      list (an empty charset). */
  const EmptyChoiceMessage: string := "a cannot be empty unless no samples are taken"

  // ---------------------------------------------------------------------
  // Edits of one string
  // ---------------------------------------------------------------------

  /** `s[:i] + c + s[i:]` */
  function InsertAt(s: string, i: nat, c: char): (r: string)
    requires i <= |s|
    ensures |r| == |s| + 1
    ensures r[i] == c
    ensures forall j :: 0 <= j < i ==> r[j] == s[j]
    ensures forall j :: i < j < |r| ==> r[j] == s[j - 1]
  {
    s[..i] + [c] + s[i..]
  }

  /** `s[:i] + s[i + 1:]` */
  function DeleteAt(s: string, i: nat): (r: string)
    requires i < |s|
    ensures |r| == |s| - 1
    ensures forall j :: 0 <= j < i ==> r[j] == s[j]
    ensures forall j :: i <= j < |r| ==> r[j] == s[j + 1]
  {
    s[..i] + s[i + 1..]
  }

  /** `s[:i] + s[i + 1] + s[i] + s[i + 2:]` */
  function SwapAt(s: string, i: nat): (r: string)
    requires i + 1 < |s|
    ensures |r| == |s|
    ensures r[i] == s[i + 1] && r[i + 1] == s[i]
    ensures forall j :: 0 <= j < |s| && j != i && j != i + 1 ==> r[j] == s[j]
  {
    s[..i] + [s[i + 1]] + [s[i]] + s[i + 2..]
  }

  /** `s[:i] + c + s[i + 1:]` */
  function SubstituteAt(s: string, i: nat, c: char): (r: string)
    requires i < |s|
    ensures |r| == |s|
    ensures r[i] == c
    ensures forall j :: 0 <= j < |s| && j != i ==> r[j] == s[j]
  {
    s[..i] + [c] + s[i + 1..]
  }

  /** Deleting the inserted character restores the string. */
  lemma DeleteAfterInsert(s: string, i: nat, c: char)
    requires i <= |s|
    ensures DeleteAt(InsertAt(s, i, c), i) == s
  {
  }

  /** Transposition is an involution and keeps the characters. */
  lemma SwapInvolution(s: string, i: nat)
    requires i + 1 < |s|
    ensures SwapAt(SwapAt(s, i), i) == s
    ensures multiset(SwapAt(s, i)) == multiset(s)
  {
    var r := SwapAt(s, i);
    assert s == s[..i] + [s[i]] + [s[i + 1]] + s[i + 2..];
    assert r == s[..i] + [s[i + 1]] + [s[i]] + s[i + 2..];
  }

  /** Substituting the original character back restores the string. */
  lemma SubstituteRestore(s: string, i: nat, c: char)
    requires i < |s|
    ensures SubstituteAt(SubstituteAt(s, i, c), i, s[i]) == s
    ensures SubstituteAt(s, i, s[i]) == s
  {
  }

  // ---------------------------------------------------------------------
  // Rows an edit can touch
  // ---------------------------------------------------------------------

  /** `srs.str.len() >= m` */
  function MinLenMask(b: Batch, m: nat): (mask: seq<bool>)
    ensures |mask| == |b|
    ensures forall k :: 0 <= k < |b| ==> (mask[k] <==> |b[k]| >= m)
  {
    seq(|b|, k requires 0 <= k < |b| => |b[k]| >= m)
  }

  /** How many rows have at least `m` characters: the number of draws the
      length-restricted edits take. */
  function Eligible(b: Batch, m: nat): nat
  {
    Count(MinLenMask(b, m), true)
  }

  /** Position of row `k` among the rows with at least `m` characters, which
      is the index of the draw it receives. */
  function DrawSlot(b: Batch, m: nat, k: nat): (j: nat)
    requires k < |b| && |b[k]| >= m
    ensures j < Eligible(b, m)
  {
    Rank(MinLenMask(b, m), k)
  }

  lemma SelectedLongEnough(b: Batch, m: nat)
    ensures forall s :: s in Select(b, MinLenMask(b, m), true) ==> |s| >= m
  {
    SelectFrom(b, MinLenMask(b, m), true);
  }

  // ---------------------------------------------------------------------
  // Batch corruptors
  // ---------------------------------------------------------------------

  /** `with_insert(charset)`: every row gets one charset character inserted
      at a drawn position in `[0, len]`, so the end is a valid insertion
      point.  Fails as `rng.choice` does when the charset is empty and there
      is at least one row. */
  function InsertBatch(b: Batch, charset: string, rs: seq<real>, cs: seq<real>): (r: Result<Batch>)
    requires |rs| == |b| && |cs| == |b| && AllUnit(rs) && AllUnit(cs)
    ensures r.Err? <==> |charset| == 0 && |b| > 0
    ensures r.Ok? ==> |r.value| == |b|
    ensures r.Ok? ==> forall k :: 0 <= k < |b| ==>
      var i := ScaledIndex(|b[k]| + 1, rs[k]);
      && |r.value[k]| == |b[k]| + 1
      && i <= |b[k]|
      && r.value[k][i] in charset
      && r.value[k][..i] == b[k][..i]
      && r.value[k][i + 1..] == b[k][i..]
  {
    if |b| > 0 && |charset| == 0 then Err(EmptyChoiceMessage)
    else
      Ok(seq(|b|, k requires 0 <= k < |b| =>
        InsertAt(b[k], ScaledIndex(|b[k]| + 1, rs[k]), Pick(charset, cs[k]))))
  }

  /** `with_delete()`: a row with at least one character loses the character
      at a drawn position in `[0, len - 1]`; the empty string passes
      through. */
  function DeleteBatch(b: Batch, rs: seq<real>): (r: Batch)
    requires |rs| == Eligible(b, 1) && AllUnit(rs)
    ensures |r| == |b|
    ensures forall k :: 0 <= k < |b| && |b[k]| == 0 ==> r[k] == b[k]
    ensures forall k :: 0 <= k < |b| && |b[k]| >= 1 ==>
      var i := ScaledIndex(|b[k]|, rs[DrawSlot(b, 1, k)]);
      && |r[k]| == |b[k]| - 1
      && r[k][..i] == b[k][..i]
      && r[k][i..] == b[k][i + 1..]
  {
    var mask := MinLenMask(b, 1);
    if Count(mask, true) == 0 then b
    else
      var sub := Select(b, mask, true);
      SelectedLongEnough(b, 1);
      var out := seq(|sub|, j requires 0 <= j < |sub| =>
        DeleteAt(sub[j], ScaledIndex(|sub[j]|, rs[j])));
      Scatter(b, mask, true, out)
  }

  /** `with_transpose()`: a row with at least two characters has the
      characters at a drawn position `i` in `[0, len - 2]` and `i + 1`
      swapped; shorter strings pass through. */
  function TransposeBatch(b: Batch, rs: seq<real>): (r: Batch)
    requires |rs| == Eligible(b, 2) && AllUnit(rs)
    ensures |r| == |b|
    ensures forall k :: 0 <= k < |b| && |b[k]| < 2 ==> r[k] == b[k]
    ensures forall k :: 0 <= k < |b| && |b[k]| >= 2 ==>
      r[k] == SwapAt(b[k], ScaledIndex(|b[k]| - 1, rs[DrawSlot(b, 2, k)]))
  {
    var mask := MinLenMask(b, 2);
    if Count(mask, true) == 0 then b
    else
      var sub := Select(b, mask, true);
      SelectedLongEnough(b, 2);
      var out := seq(|sub|, j requires 0 <= j < |sub| =>
        SwapAt(sub[j], ScaledIndex(|sub[j]| - 1, rs[j])));
      TransposedRows(b, rs, out);
      Scatter(b, mask, true, out)
  }

  /** The rows with at least two characters, each transposed at its own
      draw and written back, are transposed at the draw of their slot. */
  lemma TransposedRows(b: Batch, rs: seq<real>, out: Batch)
    requires |rs| == Eligible(b, 2) && AllUnit(rs)
    requires forall s :: s in Select(b, MinLenMask(b, 2), true) ==> |s| >= 2
    requires |out| == |rs|
    requires forall j :: 0 <= j < |out| ==>
      var s := Select(b, MinLenMask(b, 2), true)[j];
      out[j] == SwapAt(s, ScaledIndex(|s| - 1, rs[j]))
    ensures forall k :: 0 <= k < |b| && |b[k]| >= 2 ==>
      Scatter(b, MinLenMask(b, 2), true, out)[k] == SwapAt(b[k], ScaledIndex(|b[k]| - 1, rs[DrawSlot(b, 2, k)]))
  {
    var mask := MinLenMask(b, 2);
    var sub := Select(b, mask, true);
    forall k | 0 <= k < |b| && |b[k]| >= 2
      ensures Scatter(b, mask, true, out)[k] == SwapAt(b[k], ScaledIndex(|b[k]| - 1, rs[DrawSlot(b, 2, k)]))
    {
      var j := DrawSlot(b, 2, k);
      assert j == Rank(mask, k) && mask[k];
      assert sub[j] == b[k];
      assert out[j] == SwapAt(b[k], ScaledIndex(|b[k]| - 1, rs[j]));
      assert Scatter(b, mask, true, out)[k] == out[j];
    }
  }

  /** `with_substitute(charset)`: a row with at least one character has the
      character at a drawn position replaced by a charset character (possibly
      the same one); the empty string passes through.  Fails as
      `rng.choice` does when the charset is empty and some row is
      affected. */
  function SubstituteBatch(b: Batch, charset: string, rs: seq<real>, cs: seq<real>): (r: Result<Batch>)
    requires |rs| == Eligible(b, 1) && |cs| == Eligible(b, 1) && AllUnit(rs) && AllUnit(cs)
    ensures r.Err? <==> |charset| == 0 && Eligible(b, 1) > 0
    ensures r.Ok? ==> |r.value| == |b|
    ensures r.Ok? ==> forall k :: 0 <= k < |b| && |b[k]| == 0 ==> r.value[k] == b[k]
    ensures r.Ok? ==> forall k :: 0 <= k < |b| && |b[k]| >= 1 ==>
      var i := ScaledIndex(|b[k]|, rs[DrawSlot(b, 1, k)]);
      && |r.value[k]| == |b[k]|
      && r.value[k][i] in charset
      && (forall j :: 0 <= j < |b[k]| && j != i ==> r.value[k][j] == b[k][j])
  {
    var mask := MinLenMask(b, 1);
    if Count(mask, true) == 0 then Ok(b)
    else if |charset| == 0 then Err(EmptyChoiceMessage)
    else
      var sub := Select(b, mask, true);
      SelectedLongEnough(b, 1);
      var out := seq(|sub|, j requires 0 <= j < |sub| =>
        SubstituteAt(sub[j], ScaledIndex(|sub[j]|, rs[j]), Pick(charset, cs[j])));
      Ok(Scatter(b, mask, true, out))
  }
}

=== FILE: generator.dfy ===
/** `to_data_frame`: run several generators for the same number of rows
    and collect their series under column names, and the argument checks of
    `from_multicolumn_frequency_table`.  The generators themselves (and
    their distributions) are parameters. */
module Generation {
  import opened Wrappers
  import opened Text
  import opened Sorting
  import opened Edits

  /** A generator returns a list of series for a row count, or fails with
      the message of the error it raises. */
  type Generator = nat -> Result<seq<Batch>>

  /** A dictionary key: one column name, or a tuple of names for a
      generator that returns several series. */
  datatype Key = Name(name: string) | Names(names: seq<string>)

  /** The names a key stands for; a single name is wrapped into a tuple. */
  function KeyNames(key: Key): (r: seq<string>)
    ensures key.Name? ==> r == [key.name]
  {
    match key
    case Name(n) => [n]
    case Names(ns) => ns
  }

  /** Every name the dictionary's keys mention, in dictionary order. */
  function AllNames(entries: seq<(Key, Generator)>): seq<string>
  {
    if |entries| == 0 then [] else KeyNames(entries[0].0) + AllNames(entries[1..])
  }

  // ---------------------------------------------------------------------
  // Columns in insertion order
  // ---------------------------------------------------------------------

  /** The named series collected so far, in insertion order
      (`col_to_srs_dict`). */
  type Columns = seq<(string, Batch)>

  /** Position of the first column named `k`. */
  function KeyIndex(d: Columns, k: string): (i: nat)
    requires k in Firsts(d)
    ensures i < |d| && d[i].0 == k
    ensures forall j :: 0 <= j < i ==> d[j].0 != k
  {
    if d[0].0 == k then 0
    else
      assert Firsts(d)[1..] == Firsts(d[1..]);
      1 + KeyIndex(d[1..], k)
  }

  /** `d.get(k)`. */
  function Lookup(d: Columns, k: string): (r: Option<Batch>)
    ensures r.None? <==> k !in Firsts(d)
    ensures r.Some? ==> exists i :: 0 <= i < |d| && d[i] == (k, r.value)
  {
    if k in Firsts(d) then Some(d[KeyIndex(d, k)].1) else None
  }

  /** With distinct keys, every column is found under its own name. */
  lemma LookupAt(d: Columns, i: nat)
    requires Distinct(Firsts(d)) && i < |d|
    ensures Lookup(d, d[i].0) == Some(d[i].1)
  {
    var k := d[i].0;
    assert Firsts(d)[i] == k;
    var j := KeyIndex(d, k);
    assert Firsts(d)[j] == k;
  }

  /** `d[k] = v` on an insertion-ordered dictionary: an existing key keeps
      its place and takes the new value, a new key goes last. */
  function Put(d: Columns, k: string, v: Batch): (r: Columns)
    requires Distinct(Firsts(d))
    ensures Firsts(r) == if k in Firsts(d) then Firsts(d) else Firsts(d) + [k]
    ensures Distinct(Firsts(r))
  {
    if k in Firsts(d) then
      var r := d[KeyIndex(d, k) := (k, v)];
      assert Firsts(r) == Firsts(d);
      r
    else
      var r := d + [(k, v)];
      assert Firsts(r) == Firsts(d) + [k];
      r
  }

  /** Reading back after `d[k] = v`: `k` gives `v`, every other key what it
      gave before. */
  lemma PutLookup(d: Columns, k: string, v: Batch, k': string)
    requires Distinct(Firsts(d))
    ensures Lookup(Put(d, k, v), k') == if k' == k then Some(v) else Lookup(d, k')
  {
    var r := Put(d, k, v);
    if k' in Firsts(r) {
      var i := KeyIndex(r, k');
      LookupAt(r, i);
      if k' != k {
        assert d[i] == r[i];
        LookupAt(d, i);
      }
    }
  }

  /** The pairs of one dictionary entry: name `i` receives series `i`. */
  function EntryPairs(names: seq<string>, values: seq<Batch>): (r: Columns)
    requires |names| == |values|
    ensures Firsts(r) == names
    ensures forall i :: 0 <= i < |r| ==> r[i].1 == values[i]
  {
    seq(|names|, i requires 0 <= i < |names| => (names[i], values[i]))
  }

  /** Assignments applied one after another to `d`. */
  function Assemble(d: Columns, pairs: Columns): (r: Columns)
    requires Distinct(Firsts(d))
    ensures Distinct(Firsts(r))
    decreases |pairs|
  {
    if |pairs| == 0 then d else Assemble(Put(d, pairs[0].0, pairs[0].1), pairs[1..])
  }

  /** The columns come out once each, in order of first assignment. */
  lemma {:induction false} AssembleKeys(d: Columns, pairs: Columns)
    requires Distinct(Firsts(d))
    ensures Firsts(Assemble(d, pairs)) == DedupInto(Firsts(d), Firsts(pairs))
    decreases |pairs|
  {
    if |pairs| > 0 {
      assert Firsts(pairs)[0] == pairs[0].0;
      assert Firsts(pairs)[1..] == Firsts(pairs[1..]);
      AssembleKeys(Put(d, pairs[0].0, pairs[0].1), pairs[1..]);
    }
  }

  /** A column holds the series of its last assignment; a column that is
      never assigned keeps its value in `d`. */
  lemma {:induction false} AssembleLookup(d: Columns, pairs: Columns, k: string)
    requires Distinct(Firsts(d))
    ensures k !in Firsts(pairs) ==> Lookup(Assemble(d, pairs), k) == Lookup(d, k)
    ensures k in Firsts(pairs) ==> exists i ::
      && 0 <= i < |pairs|
      && pairs[i].0 == k
      && Lookup(Assemble(d, pairs), k) == Some(pairs[i].1)
      && forall j :: i < j < |pairs| ==> pairs[j].0 != k
    decreases |pairs|
  {
    if |pairs| > 0 {
      var d' := Put(d, pairs[0].0, pairs[0].1);
      var rest := pairs[1..];
      assert Firsts(pairs)[1..] == Firsts(rest);
      assert forall j :: 1 <= j < |pairs| ==> pairs[j] == rest[j - 1];
      AssembleLookup(d', rest, k);
      PutLookup(d, pairs[0].0, pairs[0].1, k);
      if k in Firsts(rest) {
        var i :| 0 <= i < |rest| && rest[i].0 == k && Lookup(Assemble(d', rest), k) == Some(rest[i].1)
          && forall j :: i < j < |rest| ==> rest[j].0 != k;
        assert pairs[i + 1].0 == k && Lookup(Assemble(d, pairs), k) == Some(pairs[i + 1].1);
      } else if k in Firsts(pairs) {
        assert pairs[0].0 == k;
        assert Lookup(Assemble(d, pairs), k) == Some(pairs[0].1);
      }
    }
  }

  // ---------------------------------------------------------------------
  // to_data_frame
  // ---------------------------------------------------------------------

  const EmptyDictMessage: string := "generator dict may not be empty"

  function CountMessage(count: int): string {
    "amount of rows must be positive, is " + IntToString(count)
  }

  function ArityMessage(returned: nat, names: seq<string>): string {
    "generator returned " + NatToString(returned) + " columns, but requires "
    + NatToString(|names|) + " to fill column(s) for: " + Join(names, ",")
  }

  /** Entry `j`'s generator succeeds and returns one series per name. */
  predicate EntryOk(entries: seq<(Key, Generator)>, j: nat, count: nat)
    requires j < |entries|
  {
    var out := entries[j].1(count);
    out.Ok? && |out.value| == |KeyNames(entries[j].0)|
  }

  /** The generators of entries `j..`, called in dictionary order; the
      first one that fails or returns the wrong number of series aborts. */
  function Produce(entries: seq<(Key, Generator)>, count: nat, j: nat): (r: Result<Columns>)
    requires j <= |entries|
    ensures r.Ok? <==> forall j' :: j <= j' < |entries| ==> EntryOk(entries, j', count)
    ensures r.Ok? ==> Firsts(r.value) == AllNames(entries[j..])
    ensures r.Err? ==>
      exists j' ::
        && j <= j' < |entries|
        && !EntryOk(entries, j', count)
        && (forall i :: j <= i < j' ==> EntryOk(entries, i, count))
        && var out := entries[j'].1(count);
          r.msg == if out.Err? then out.msg else ArityMessage(|out.value|, KeyNames(entries[j'].0))
    decreases |entries| - j
  {
    if j == |entries| then Ok([])
    else
      var names := KeyNames(entries[j].0);
      assert entries[j..][1..] == entries[j + 1..];
      match entries[j].1(count)
      case Err(msg) =>
        assert !EntryOk(entries, j, count);
        Err(msg)
      case Ok(values) =>
        if |values| != |names| then
          assert !EntryOk(entries, j, count);
          Err(ArityMessage(|values|, names))
        else
          var rest :- Produce(entries, count, j + 1);
          var pairs := EntryPairs(names, values);
          assert Firsts(pairs + rest) == Firsts(pairs) + Firsts(rest);
          Ok(pairs + rest)
  }

  /** The names of a slice of the dictionary come first-entry first. */
  lemma AllNamesHead(entries: seq<(Key, Generator)>, j: nat, j': nat)
    requires j < j' <= |entries|
    ensures AllNames(entries[j..j']) == KeyNames(entries[j].0) + AllNames(entries[j + 1..j'])
  {
    assert entries[j..j'][1..] == entries[j + 1..j'];
  }

  /** One step of `Produce` on success: entry `j`'s pairs, then the rest. */
  lemma ProduceStep(entries: seq<(Key, Generator)>, count: nat, j: nat)
    requires j < |entries| && Produce(entries, count, j).Ok?
    ensures EntryOk(entries, j, count) && Produce(entries, count, j + 1).Ok?
    ensures Produce(entries, count, j).value
      == EntryPairs(KeyNames(entries[j].0), entries[j].1(count).value) + Produce(entries, count, j + 1).value
  {
    assert EntryOk(entries, j, count);
  }

  /** The first pairs `Produce` returns from entry `j` are entry `j`'s
      names bound to its series, in order. */
  lemma ProduceHead(entries: seq<(Key, Generator)>, count: nat, j: nat, i: nat)
    requires j < |entries| && Produce(entries, count, j).Ok?
    requires i < |KeyNames(entries[j].0)|
    ensures EntryOk(entries, j, count)
    ensures i < |Produce(entries, count, j).value|
    ensures Produce(entries, count, j).value[i] == (KeyNames(entries[j].0)[i], entries[j].1(count).value[i])
  {
    ProduceStep(entries, count, j);
    var pairs := EntryPairs(KeyNames(entries[j].0), entries[j].1(count).value);
    assert |pairs| == |KeyNames(entries[j].0)| by {
      assert |Firsts(pairs)| == |pairs|;
    }
    assert Produce(entries, count, j).value[i] == pairs[i];
  }

  /** After entry `j`'s pairs come the pairs produced from entry `j + 1`. */
  lemma ProduceShift(entries: seq<(Key, Generator)>, count: nat, j: nat, o: nat)
    requires j < |entries| && Produce(entries, count, j).Ok?
    requires Produce(entries, count, j + 1).Ok? && o < |Produce(entries, count, j + 1).value|
    ensures |KeyNames(entries[j].0)| + o < |Produce(entries, count, j).value|
    ensures Produce(entries, count, j).value[|KeyNames(entries[j].0)| + o] == Produce(entries, count, j + 1).value[o]
  {
    ProduceStep(entries, count, j);
    var pairs := EntryPairs(KeyNames(entries[j].0), entries[j].1(count).value);
    assert |pairs| == |KeyNames(entries[j].0)| by {
      assert |Firsts(pairs)| == |pairs|;
    }
  }

  /** How many names entries `j..j'` mention: the place of entry `j'`'s
      first pair among those `Produce` returns from entry `j`. */
  function Offset(entries: seq<(Key, Generator)>, j: nat, j': nat): nat
    requires j <= j' <= |entries|
    decreases j' - j
  {
    if j == j' then 0 else |KeyNames(entries[j].0)| + Offset(entries, j + 1, j')
  }

  /** `Offset` counts the names of the slice `j..j'`. */
  lemma {:induction false} OffsetNames(entries: seq<(Key, Generator)>, j: nat, j': nat)
    requires j <= j' <= |entries|
    ensures Offset(entries, j, j') == |AllNames(entries[j..j'])|
    decreases j' - j
  {
    if j == j' {
      assert entries[j..j'] == [];
    } else {
      AllNamesHead(entries, j, j');
      OffsetNames(entries, j + 1, j');
    }
  }

  /** What `Produce` assigns: the pair at the place of name `i` of entry
      `j'` (after all names of the entries before it) binds that name to
      the `i`-th series entry `j'`'s generator returned. */
  lemma {:induction false} ProducePairs(entries: seq<(Key, Generator)>, count: nat, j: nat, j': nat, i: nat)
    requires j <= j' < |entries| && Produce(entries, count, j).Ok?
    requires i < |KeyNames(entries[j'].0)|
    ensures EntryOk(entries, j', count)
    ensures Offset(entries, j, j') + i < |Produce(entries, count, j).value|
    ensures Produce(entries, count, j).value[Offset(entries, j, j') + i]
      == (KeyNames(entries[j'].0)[i], entries[j'].1(count).value[i])
    decreases j' - j, 1
  {
    if j == j' {
      ProduceHead(entries, count, j, i);
    } else {
      ProducePairsLater(entries, count, j, j', i);
    }
  }

  /** `ProducePairs` for an entry after the first: skip entry `j`'s pairs. */
  lemma {:induction false} ProducePairsLater(entries: seq<(Key, Generator)>, count: nat, j: nat, j': nat, i: nat)
    requires j < j' < |entries| && Produce(entries, count, j).Ok?
    requires i < |KeyNames(entries[j'].0)|
    ensures EntryOk(entries, j', count)
    ensures Offset(entries, j, j') + i < |Produce(entries, count, j).value|
    ensures Produce(entries, count, j).value[Offset(entries, j, j') + i]
      == (KeyNames(entries[j'].0)[i], entries[j'].1(count).value[i])
    decreases j' - j, 0
  {
    assert Produce(entries, count, j + 1).Ok? by {
      ProduceStep(entries, count, j);
    }
    var o := Offset(entries, j + 1, j') + i;
    assert Offset(entries, j, j') + i == |KeyNames(entries[j].0)| + o;
    ProducePairs(entries, count, j + 1, j', i);
    ProduceShift(entries, count, j, o);
    assert Produce(entries, count, j + 1).value[o] == (KeyNames(entries[j'].0)[i], entries[j'].1(count).value[i]);
    assert Produce(entries, count, j).value[|KeyNames(entries[j].0)| + o] == Produce(entries, count, j + 1).value[o];
    assert Produce(entries, count, j).value[Offset(entries, j, j') + i] == Produce(entries, count, j).value[|KeyNames(entries[j].0)| + o];
  }

  /** `to_data_frame(entries, count)`: the named columns in dictionary
      order of first assignment. */
  function ToDataFrame(entries: seq<(Key, Generator)>, count: int): (r: Result<Columns>)
    ensures |entries| == 0 ==> r == Err(EmptyDictMessage)
    ensures |entries| > 0 && count <= 0 ==> r == Err(CountMessage(count))
    ensures r.Ok? <==>
      && |entries| > 0
      && count > 0
      && forall j :: 0 <= j < |entries| ==> EntryOk(entries, j, count)
    ensures r.Ok? ==> Firsts(r.value) == Unique(AllNames(entries))
  {
    if |entries| == 0 then Err(EmptyDictMessage)
    else if count <= 0 then Err(CountMessage(count))
    else
      var pairs :- Produce(entries, count, 0);
      assert entries[0..] == entries;
      AssembleKeys([], pairs);
      Ok(Assemble([], pairs))
  }

  /** What a column of the result holds: when the last mention of a name,
      in the dictionary's names taken in order, is name `i` of entry `j'`,
      the column holds the `i`-th series of entry `j'`'s generator
      (`col_to_srs_dict[col_names[i]] = generated_srs_list[i]`, later
      entries overwriting earlier ones). */
  lemma ToDataFrameColumn(entries: seq<(Key, Generator)>, count: int, j': nat, i: nat)
    requires ToDataFrame(entries, count).Ok?
    requires j' < |entries| && i < |KeyNames(entries[j'].0)|
    requires forall q :: |AllNames(entries[..j'])| + i < q < |AllNames(entries)| ==>
      AllNames(entries)[q] != KeyNames(entries[j'].0)[i]
    ensures count > 0 && EntryOk(entries, j', count)
    ensures Lookup(ToDataFrame(entries, count).value, KeyNames(entries[j'].0)[i])
      == Some(entries[j'].1(count).value[i])
  {
    ToDataFrameAssembles(entries, count);
    ProducedColumn(entries, count, j', i);
  }

  /** `ToDataFrameColumn` on the pairs `Produce` returns. */
  lemma ProducedColumn(entries: seq<(Key, Generator)>, count: nat, j': nat, i: nat)
    requires Produce(entries, count, 0).Ok? && Firsts(Produce(entries, count, 0).value) == AllNames(entries)
    requires j' < |entries| && i < |KeyNames(entries[j'].0)|
    requires forall q :: |AllNames(entries[..j'])| + i < q < |AllNames(entries)| ==>
      AllNames(entries)[q] != KeyNames(entries[j'].0)[i]
    ensures EntryOk(entries, j', count)
    ensures Lookup(Assemble([], Produce(entries, count, 0).value), KeyNames(entries[j'].0)[i])
      == Some(entries[j'].1(count).value[i])
  {
    var pairs := Produce(entries, count, 0).value;
    var k := KeyNames(entries[j'].0)[i];
    ProducePairs(entries, count, 0, j', i);
    var p := Offset(entries, 0, j') + i;
    assert p == |AllNames(entries[..j'])| + i by {
      OffsetNames(entries, 0, j');
      assert entries[0..j'] == entries[..j'];
    }
    assert pairs[p] == (k, entries[j'].1(count).value[i]);
    LastAssignment(pairs, k, p);
  }

  /** On success, `to_data_frame` assembles the pairs `Produce` returns,
      whose names are all names of the dictionary in order. */
  lemma ToDataFrameAssembles(entries: seq<(Key, Generator)>, count: int)
    requires ToDataFrame(entries, count).Ok?
    ensures count > 0 && Produce(entries, count, 0).Ok?
    ensures Firsts(Produce(entries, count, 0).value) == AllNames(entries)
    ensures ToDataFrame(entries, count).value == Assemble([], Produce(entries, count, 0).value)
  {
    assert entries[0..] == entries;
  }

  /** The column of `k` holds the last pair assigned to `k`. */
  lemma LastAssignment(pairs: Columns, k: string, p: nat)
    requires p < |pairs| && pairs[p].0 == k
    requires forall q :: p < q < |pairs| ==> Firsts(pairs)[q] != k
    ensures Lookup(Assemble([], pairs), k) == Some(pairs[p].1)
  {
    assert Firsts(pairs)[p] == k;
    AssembleLookup([], pairs, k);
    var idx :| 0 <= idx < |pairs| && pairs[idx].0 == k && Lookup(Assemble([], pairs), k) == Some(pairs[idx].1)
      && forall q :: idx < q < |pairs| ==> pairs[q].0 != k;
    assert idx == p;
  }

  /** A name the dictionary never mentions has no column. */
  lemma ToDataFrameUnmentioned(entries: seq<(Key, Generator)>, count: int, k: string)
    requires ToDataFrame(entries, count).Ok?
    ensures Lookup(ToDataFrame(entries, count).value, k).None? <==> k !in AllNames(entries)
  {
  }

  // ---------------------------------------------------------------------
  // from_multicolumn_frequency_table: argument checks
  // ---------------------------------------------------------------------

  /** A column reference: an index for a table without header, a name for
      one with header. */
  datatype ColumnRef = Index(i: int) | Label(s: string)

  predicate SameKind(a: ColumnRef, b: ColumnRef) {
    a.Index? == b.Index?
  }

  /** The value columns argument: one reference or a list of them. */
  datatype ValueColumns = One(c: ColumnRef) | Many(cs: seq<ColumnRef>)

  const EmptyColumnsMessage: string := "value column list cannot be empty"
  const KindMessage: string := "value and frequency column must both be of the same type"

  /** The checks made before the table is read: a list must not be empty,
      its FIRST entry must be of the frequency column's kind, and a single
      reference is wrapped into a list. */
  function CheckValueColumns(values: ValueColumns, freq: ColumnRef): (r: Result<seq<ColumnRef>>)
    ensures values == Many([]) ==> r == Err(EmptyColumnsMessage)
    ensures r.Ok? <==> match values
      case One(c) => SameKind(c, freq)
      case Many(cs) => |cs| > 0 && SameKind(cs[0], freq)
    ensures r.Err? && values != Many([]) ==> r.msg == KindMessage
    ensures r.Ok? ==> r.value == match values case One(c) => [c] case Many(cs) => cs
  {
    match values
    case One(c) => if SameKind(c, freq) then Ok([c]) else Err(KindMessage)
    case Many(cs) =>
      if |cs| == 0 then Err(EmptyColumnsMessage)
      else if SameKind(cs[0], freq) then Ok(cs)
      else Err(KindMessage)
  }

  /** Only the first list entry is compared: a list that mixes indices and
      names passes when it starts with the right kind. */
  lemma MixedColumnsAccepted(a: ColumnRef, b: ColumnRef, freq: ColumnRef)
    requires SameKind(a, freq) && !SameKind(b, freq)
    ensures CheckValueColumns(Many([a, b]), freq) == Ok([a, b])
  {
  }

  /** One named generator fills one column, with the series it returned. */
  lemma SingleEntry(name: string, gen: Generator, count: int)
    requires count > 0 && gen(count).Ok? && |gen(count).value| == 1
    ensures ToDataFrame([(Name(name), gen)], count) == Ok([(name, gen(count).value[0])])
  {
    var entries := [(Name(name), gen)];
    assert EntryOk(entries, 0, count);
    assert entries[1..] == [];
    var pairs := Produce(entries, count, 0).value;
    assert Produce(entries, count, 1) == Ok([]);
    assert pairs == [(name, gen(count).value[0])];
    assert Put([], name, gen(count).value[0]) == pairs;
    assert Assemble([], pairs) == Assemble(pairs, []);
  }

  lemma ReassignedPairs(entries: seq<(Key, Generator)>, a: string, b: string, g1: Generator, g2: Generator, g3: Generator, count: nat)
    requires entries == [(Name(a), g1), (Name(b), g2), (Name(a), g3)]
    requires g1(count).Ok? && |g1(count).value| == 1
    requires g2(count).Ok? && |g2(count).value| == 1
    requires g3(count).Ok? && |g3(count).value| == 1
    ensures Produce(entries, count, 0)
      == Ok([(a, g1(count).value[0]), (b, g2(count).value[0]), (a, g3(count).value[0])])
  {
    var v1, v2, v3 := g1(count).value[0], g2(count).value[0], g3(count).value[0];
    assert g3(count).value == [v3];
    assert g2(count).value == [v2];
    assert g1(count).value == [v1];
    assert Produce(entries, count, 3) == Ok([]);
    assert KeyNames(entries[2].0) == [a] && entries[2].1 == g3;
    assert EntryPairs([a], g3(count).value) == [(a, v3)];
    assert [(a, v3)] + [] == [(a, v3)];
    assert Produce(entries, count, 2) == Ok([(a, v3)]);
    assert KeyNames(entries[1].0) == [b] && entries[1].1 == g2;
    assert EntryPairs([b], g2(count).value) == [(b, v2)];
    assert [(b, v2)] + [(a, v3)] == [(b, v2), (a, v3)];
    assert Produce(entries, count, 1) == Ok([(b, v2), (a, v3)]);
    assert KeyNames(entries[0].0) == [a] && entries[0].1 == g1;
    assert EntryPairs([a], g1(count).value) == [(a, v1)];
    assert [(a, v1)] + [(b, v2), (a, v3)] == [(a, v1), (b, v2), (a, v3)];
  }

  lemma ReassignedAssembly(pairs: Columns, a: string, b: string, v1: Batch, v2: Batch, v3: Batch)
    requires a != b && pairs == [(a, v1), (b, v2), (a, v3)]
    ensures Assemble([], pairs) == [(a, v3), (b, v2)]
  {
    var d1 := [(a, v1)];
    var d2 := [(a, v1), (b, v2)];
    var d3 := [(a, v3), (b, v2)];
    assert Put([], a, v1) == d1;
    assert Put(d1, b, v2) == d2 by {
      assert Firsts(d1) == [a];
    }
    assert Put(d2, a, v3) == d3 by {
      assert Firsts(d2) == [a, b];
      assert KeyIndex(d2, a) == 0;
    }
    assert Assemble(d2, [(a, v3)]) == d3 by {
      assert [(a, v3)][1..] == [];
    }
    assert Assemble(d1, [(b, v2), (a, v3)]) == d3 by {
      assert [(b, v2), (a, v3)][1..] == [(a, v3)];
    }
    assert pairs[1..] == [(b, v2), (a, v3)];
    assert Assemble([], pairs) == Assemble(Put([], a, v1), pairs[1..]);
  }

  /** A name assigned twice keeps the place of its first assignment and
      the series of its last. */
  lemma ReassignedColumn(a: string, b: string, g1: Generator, g2: Generator, g3: Generator, count: int)
    requires a != b && count > 0
    requires g1(count).Ok? && |g1(count).value| == 1
    requires g2(count).Ok? && |g2(count).value| == 1
    requires g3(count).Ok? && |g3(count).value| == 1
    ensures ToDataFrame([(Name(a), g1), (Name(b), g2), (Name(a), g3)], count)
      == Ok([(a, g3(count).value[0]), (b, g2(count).value[0])])
  {
    var entries: seq<(Key, Generator)> := [(Name(a), g1), (Name(b), g2), (Name(a), g3)];
    ReassignedPairs(entries, a, b, g1, g2, g3, count);
    ReassignedAssembly(Produce(entries, count, 0).value, a, b, g1(count).value[0], g2(count).value[0], g3(count).value[0]);
  }
}

=== FILE: keyboard.dfy ===
/** `with_cldr_keymap_file`: keyboard typos.  Construction lays the keys of
    a keyboard layout out on a grid of (row, column, shift level) and maps
    every character to the sorted characters one key step or one shift
    toggle away; a call picks one position per string and replaces its
    character by a drawn candidate, if it has any.

    Reading the layout file and decoding ISO key positions are not modelled:
    a layout arrives as its `keyMap` elements with decoded positions.  The
    neighbour positions of a key (`get_neighbor_kb_pos_for`) are a parameter. */
module Keyboard {
  import opened Wrappers
  import opened Probability
  import opened Text
  import opened Sorting
  import opened Edits

  /** A cell of the key grid; `shift` is 0 (no modifier) or 1 (shift). */
  datatype Pos = Pos(row: nat, col: nat, shift: nat)

  /** One `<map iso=".." to=".."/>`, position decoded. */
  datatype KeyMapping = KeyMapping(row: nat, col: nat, ch: char)

  /** One `<keyMap modifiers="..">` element with its mappings. */
  datatype KeyMap = KeyMap(modifiers: Option<string>, keys: seq<KeyMapping>)

  /** The key grid: positions without a character are absent. */
  type Grid = map<Pos, char>

  /** `get_neighbor_kb_pos_for(pos, max_row, max_col)` */
  type NeighborFn = (Pos, nat, nat) -> set<Pos>

  /** Candidate replacements per character, each a sorted string. */
  type CandidateMap = map<char, seq<char>>

  // ---------------------------------------------------------------------
  // Grid dimensions and contents
  // ---------------------------------------------------------------------

  /** The largest row of the keys, 0 without keys. */
  function MaxRowOf(keys: seq<KeyMapping>): (m: nat)
    ensures forall i :: 0 <= i < |keys| ==> keys[i].row <= m
    ensures m == 0 || exists i :: 0 <= i < |keys| && keys[i].row == m
  {
    if |keys| == 0 then 0
    else
      var rest := MaxRowOf(keys[1..]);
      if keys[0].row > rest then keys[0].row
      else
        assert rest != 0 ==> exists i :: 1 <= i < |keys| && keys[i].row == rest by {
          if rest != 0 {
            var i :| 0 <= i < |keys| - 1 && keys[1..][i].row == rest;
            assert keys[i + 1].row == rest;
          }
        }
        rest
  }

  /** The largest column of the keys, 0 without keys. */
  function MaxColOf(keys: seq<KeyMapping>): (m: nat)
    ensures forall i :: 0 <= i < |keys| ==> keys[i].col <= m
    ensures m == 0 || exists i :: 0 <= i < |keys| && keys[i].col == m
  {
    if |keys| == 0 then 0
    else
      var rest := MaxColOf(keys[1..]);
      if keys[0].col > rest then keys[0].col
      else
        assert rest != 0 ==> exists i :: 1 <= i < |keys| && keys[i].col == rest by {
          if rest != 0 {
            var i :| 0 <= i < |keys| - 1 && keys[1..][i].col == rest;
            assert keys[i + 1].col == rest;
          }
        }
        rest
  }

  /** The largest row of any key of any key map, whatever its modifiers;
      `max_row` starts at 0. */
  function MaxRow(kms: seq<KeyMap>): (m: nat)
    ensures forall i, j :: 0 <= i < |kms| && 0 <= j < |kms[i].keys| ==> kms[i].keys[j].row <= m
    ensures m == 0 || exists i, j :: 0 <= i < |kms| && 0 <= j < |kms[i].keys| && kms[i].keys[j].row == m
  {
    if |kms| == 0 then 0
    else
      var head := MaxRowOf(kms[0].keys);
      var rest := MaxRow(kms[1..]);
      assert forall i :: 1 <= i < |kms| ==> kms[i] == kms[1..][i - 1];
      if head > rest then head
      else
        assert rest != 0 ==> exists i, j :: 1 <= i < |kms| && 0 <= j < |kms[i].keys| && kms[i].keys[j].row == rest by {
          if rest != 0 {
            var i, j :| 0 <= i < |kms| - 1 && 0 <= j < |kms[1..][i].keys| && kms[1..][i].keys[j].row == rest;
            assert kms[i + 1].keys[j].row == rest;
          }
        }
        rest
  }

  /** The largest column of any key of any key map; `max_col` starts at 0. */
  function MaxCol(kms: seq<KeyMap>): (m: nat)
    ensures forall i, j :: 0 <= i < |kms| && 0 <= j < |kms[i].keys| ==> kms[i].keys[j].col <= m
    ensures m == 0 || exists i, j :: 0 <= i < |kms| && 0 <= j < |kms[i].keys| && kms[i].keys[j].col == m
  {
    if |kms| == 0 then 0
    else
      var head := MaxColOf(kms[0].keys);
      var rest := MaxCol(kms[1..]);
      assert forall i :: 1 <= i < |kms| ==> kms[i] == kms[1..][i - 1];
      if head > rest then head
      else
        assert rest != 0 ==> exists i, j :: 1 <= i < |kms| && 0 <= j < |kms[i].keys| && kms[i].keys[j].col == rest by {
          if rest != 0 {
            var i, j :| 0 <= i < |kms| - 1 && 0 <= j < |kms[1..][i].keys| && kms[1..][i].keys[j].col == rest;
            assert kms[i + 1].keys[j].col == rest;
          }
        }
        rest
  }

  /** Shift level of a key map: none for no modifier, one for `shift`; key
      maps with any other modifier are skipped. */
  function Level(modifiers: Option<string>): (l: Option<nat>)
    ensures l.Some? ==> l.value < 2
    ensures l == Some(0) <==> modifiers.None?
    ensures l == Some(1) <==> modifiers == Some("shift")
  {
    match modifiers
    case None => Some(0)
    case Some(m) => if m == "shift" then Some(1) else None
  }

  /** The character passes the optional charset filter. */
  predicate Permitted(charset: Option<string>, c: char) {
    charset.None? || c in charset.value
  }

  /** The cell writes one key map performs, in document order. */
  function KeyWrites(keys: seq<KeyMapping>, level: nat, charset: Option<string>): (ws: seq<(Pos, char)>)
    requires level < 2
    ensures forall w :: w in ws ==>
      && w.0.shift == level
      && Permitted(charset, w.1)
      && exists j :: 0 <= j < |keys| && keys[j].row == w.0.row && keys[j].col == w.0.col && keys[j].ch == w.1
    ensures forall j :: 0 <= j < |keys| && Permitted(charset, keys[j].ch) ==>
      (Pos(keys[j].row, keys[j].col, level), keys[j].ch) in ws
  {
    if |keys| == 0 then []
    else
      var rest := KeyWrites(keys[1..], level, charset);
      assert forall w :: w in rest ==>
        exists j :: 1 <= j < |keys| && keys[j].row == w.0.row && keys[j].col == w.0.col && keys[j].ch == w.1
      by {
        forall w | w in rest
          ensures exists j :: 1 <= j < |keys| && keys[j].row == w.0.row && keys[j].col == w.0.col && keys[j].ch == w.1
        {
          var j' :| 0 <= j' < |keys| - 1 && keys[1..][j'].row == w.0.row
            && keys[1..][j'].col == w.0.col && keys[1..][j'].ch == w.1;
          assert keys[j' + 1] == keys[1..][j'];
        }
      }
      assert forall j :: 1 <= j < |keys| ==> keys[j] == keys[1..][j - 1];
      if Permitted(charset, keys[0].ch) then
        [(Pos(keys[0].row, keys[0].col, level), keys[0].ch)] + rest
      else rest
  }

  /** All cell writes of the layout, in document order. */
  function Writes(kms: seq<KeyMap>, charset: Option<string>): (ws: seq<(Pos, char)>)
    ensures forall w :: w in ws ==>
      && w.0.shift < 2
      && Permitted(charset, w.1)
      && w.0.row <= MaxRow(kms)
      && w.0.col <= MaxCol(kms)
    ensures forall i, j :: 0 <= i < |kms| && Level(kms[i].modifiers).Some? && 0 <= j < |kms[i].keys|
                           && Permitted(charset, kms[i].keys[j].ch) ==>
      (Pos(kms[i].keys[j].row, kms[i].keys[j].col, Level(kms[i].modifiers).value), kms[i].keys[j].ch) in ws
  {
    if |kms| == 0 then []
    else
      var rest := Writes(kms[1..], charset);
      assert forall i :: 1 <= i < |kms| ==> kms[i] == kms[1..][i - 1];
      match Level(kms[0].modifiers)
      case None => rest
      case Some(l) => KeyWrites(kms[0].keys, l, charset) + rest
  }

  /** Apply cell writes in order; a later write to a cell wins. */
  function Fill(g: Grid, ws: seq<(Pos, char)>): (r: Grid)
    ensures forall p :: p in r ==> (p in g && r[p] == g[p]) || (p, r[p]) in ws
    ensures forall w :: w in ws ==> w.0 in r
    ensures forall p :: p in g ==> p in r
    decreases |ws|
  {
    if |ws| == 0 then g else Fill(g[ws[0].0 := ws[0].1], ws[1..])
  }

  /** A cell no write touches keeps its character. */
  lemma {:induction false} FillKeeps(g: Grid, ws: seq<(Pos, char)>, p: Pos)
    requires p in g && forall j :: 0 <= j < |ws| ==> ws[j].0 != p
    ensures Fill(g, ws)[p] == g[p]
    decreases |ws|
  {
    if |ws| > 0 {
      assert ws[0].0 != p;
      assert forall j :: 0 <= j < |ws| - 1 ==> ws[1..][j] == ws[j + 1];
      FillKeeps(g[ws[0].0 := ws[0].1], ws[1..], p);
    }
  }

  /** A cell holds the character of the last write to it. */
  lemma {:induction false} FillLast(g: Grid, ws: seq<(Pos, char)>, i: nat)
    requires i < |ws| && forall j :: i < j < |ws| ==> ws[j].0 != ws[i].0
    ensures ws[i].0 in Fill(g, ws) && Fill(g, ws)[ws[i].0] == ws[i].1
    decreases |ws|
  {
    assert forall j :: 0 <= j < |ws| - 1 ==> ws[1..][j] == ws[j + 1];
    if i == 0 {
      FillKeeps(g[ws[0].0 := ws[0].1], ws[1..], ws[0].0);
    } else {
      FillLast(g[ws[0].0 := ws[0].1], ws[1..], i - 1);
    }
  }

  /** The grid `kb_map` after construction: exactly the cells some write
      fills, each holding the character of the last write to it in
      document order. */
  function BuildGrid(kms: seq<KeyMap>, charset: Option<string>): (g: Grid)
    ensures forall p :: p in g ==>
      && p.shift < 2 && p.row <= MaxRow(kms) && p.col <= MaxCol(kms)
      && Permitted(charset, g[p])
      && (p, g[p]) in Writes(kms, charset)
    ensures forall w :: w in Writes(kms, charset) ==> w.0 in g
    ensures var ws := Writes(kms, charset);
      forall i :: 0 <= i < |ws| && (forall j :: i < j < |ws| ==> ws[j].0 != ws[i].0) ==>
        ws[i].0 in g && g[ws[i].0] == ws[i].1
  {
    var ws := Writes(kms, charset);
    forall i | 0 <= i < |ws| && (forall j :: i < j < |ws| ==> ws[j].0 != ws[i].0)
      ensures ws[i].0 in Fill(map[], ws) && Fill(map[], ws)[ws[i].0] == ws[i].1
    {
      FillLast(map[], ws, i);
    }
    Fill(map[], ws)
  }

  /** Every key of a key map without modifier or with `shift` whose
      character passes the charset fills its cell. */
  lemma KeysFilled(kms: seq<KeyMap>, charset: Option<string>, i: nat, j: nat)
    requires i < |kms| && Level(kms[i].modifiers).Some? && j < |kms[i].keys|
    requires Permitted(charset, kms[i].keys[j].ch)
    ensures Pos(kms[i].keys[j].row, kms[i].keys[j].col, Level(kms[i].modifiers).value) in BuildGrid(kms, charset)
  {
    var k := kms[i].keys[j];
    assert (Pos(k.row, k.col, Level(kms[i].modifiers).value), k.ch) in Writes(kms, charset);
  }

  // ---------------------------------------------------------------------
  // Candidates
  // ---------------------------------------------------------------------

  /** Characters on the neighbouring cells of `p` that are assigned and
      differ from the character on `p`.  Indexing a `np.chararray` strips
      trailing whitespace, so a neighbour cell holding a whitespace
      character reads as empty and is skipped like an unassigned one. */
  function NeighborChars(g: Grid, nb: NeighborFn, mr: nat, mc: nat, p: Pos): (cs: set<char>)
    requires p in g
    ensures g[p] !in cs
    ensures forall d :: d in cs ==> !IsSpace(d)
    ensures forall d :: d in cs <==>
      exists q :: q in nb(p, mr, mc) && q in g && g[q] == d && d != g[p] && !IsSpace(d)
  {
    set q | q in nb(p, mr, mc) && q in g && g[q] != g[p] && !IsSpace(g[q]) :: g[q]
  }

  function RowCells(r: nat, c: nat, mc: nat): (ps: seq<Pos>)
    ensures forall p :: p in ps <==> p.row == r && c <= p.col <= mc && p.shift < 2
    decreases mc + 1 - c
  {
    if c > mc then [] else [Pos(r, c, 0), Pos(r, c, 1)] + RowCells(r, c + 1, mc)
  }

  function CellsFrom(r: nat, mr: nat, mc: nat): (ps: seq<Pos>)
    ensures forall p :: p in ps <==> r <= p.row <= mr && p.col <= mc && p.shift < 2
    decreases mr + 1 - r
  {
    if r > mr then [] else RowCells(r, 0, mc) + CellsFrom(r + 1, mr, mc)
  }

  /** Every cell of the grid, in the order `np.nditer` visits them. */
  function AllCells(mr: nat, mc: nat): (ps: seq<Pos>)
    ensures forall p :: p in ps <==> p.row <= mr && p.col <= mc && p.shift < 2
  {
    CellsFrom(0, mr, mc)
  }

  /** The entry of `c` comes from a cell holding `c`: its sorted
      non-empty neighbour characters. */
  ghost predicate EntryFromCell(g: Grid, nb: NeighborFn, mr: nat, mc: nat, m: CandidateMap, c: char)
    requires c in m
  {
    exists p :: p in g && g[p] == c && NeighborChars(g, nb, mr, mc, p) != {}
      && m[c] == SortedChars(NeighborChars(g, nb, mr, mc, p))
  }

  ghost predicate Sound(g: Grid, nb: NeighborFn, mr: nat, mc: nat, m: CandidateMap) {
    forall c :: c in m ==> EntryFromCell(g, nb, mr, mc, m, c)
  }

  /** Cell `p` holds `c` and has candidates, so visiting it writes the
      entry of `c`. */
  ghost predicate Supplies(g: Grid, nb: NeighborFn, mr: nat, mc: nat, p: Pos, c: char) {
    p in g && g[p] == c && NeighborChars(g, nb, mr, mc, p) != {}
  }

  /** Visit one cell: a cell with candidates (re)writes the entry of its
      character, a cell without candidates leaves the map alone. */
  function Visit(g: Grid, nb: NeighborFn, mr: nat, mc: nat, acc: CandidateMap, p: Pos): (m: CandidateMap)
    ensures p in g && NeighborChars(g, nb, mr, mc, p) != {} ==>
      g[p] in m && m[g[p]] == SortedChars(NeighborChars(g, nb, mr, mc, p))
    ensures forall c :: c in acc && !Supplies(g, nb, mr, mc, p, c) ==> c in m && m[c] == acc[c]
    ensures forall c :: c in acc ==> c in m
  {
    if p in g && NeighborChars(g, nb, mr, mc, p) != {} then
      acc[g[p] := SortedChars(NeighborChars(g, nb, mr, mc, p))]
    else acc
  }

  /** Visit cells in order. */
  function CollectCandidates(g: Grid, nb: NeighborFn, mr: nat, mc: nat, ps: seq<Pos>, acc: CandidateMap): (m: CandidateMap)
    ensures forall c :: c in acc ==> c in m
    ensures forall p :: p in ps && p in g && NeighborChars(g, nb, mr, mc, p) != {} ==> g[p] in m
  {
    if |ps| == 0 then acc
    else
      var m := CollectCandidates(g, nb, mr, mc, ps[1..], Visit(g, nb, mr, mc, acc, ps[0]));
      assert forall q :: q in ps ==> q == ps[0] || q in ps[1..];
      m
  }

  /** Every visit keeps the map sound: each entry comes from a cell holding
      its character. */
  lemma {:induction false} CollectSound(g: Grid, nb: NeighborFn, mr: nat, mc: nat, ps: seq<Pos>, acc: CandidateMap)
    requires Sound(g, nb, mr, mc, acc)
    ensures Sound(g, nb, mr, mc, CollectCandidates(g, nb, mr, mc, ps, acc))
  {
    if |ps| > 0 {
      var p := ps[0];
      if p in g && NeighborChars(g, nb, mr, mc, p) != {} {
        WriteEntrySound(g, nb, mr, mc, acc, p);
      }
      CollectSound(g, nb, mr, mc, ps[1..], Visit(g, nb, mr, mc, acc, p));
    }
  }

  /** Writing the entry of a cell with candidates keeps the map sound. */
  lemma WriteEntrySound(g: Grid, nb: NeighborFn, mr: nat, mc: nat, acc: CandidateMap, p: Pos)
    requires Sound(g, nb, mr, mc, acc) && p in g && NeighborChars(g, nb, mr, mc, p) != {}
    ensures Sound(g, nb, mr, mc, acc[g[p] := SortedChars(NeighborChars(g, nb, mr, mc, p))])
  {
    var m' := acc[g[p] := SortedChars(NeighborChars(g, nb, mr, mc, p))];
    forall c | c in m'
      ensures EntryFromCell(g, nb, mr, mc, m', c)
    {
      if c == g[p] {
        assert EntryFromCell(g, nb, mr, mc, m', c);
      } else {
        assert EntryFromCell(g, nb, mr, mc, acc, c);
        var q :| q in g && g[q] == c && NeighborChars(g, nb, mr, mc, q) != {}
          && acc[c] == SortedChars(NeighborChars(g, nb, mr, mc, q));
        assert m'[c] == acc[c];
      }
    }
  }

  /** Cells that do not supply `c` leave its entry alone. */
  lemma {:induction false} CollectKeeps(g: Grid, nb: NeighborFn, mr: nat, mc: nat, ps: seq<Pos>, acc: CandidateMap, c: char)
    requires c in acc
    requires forall j :: 0 <= j < |ps| ==> !Supplies(g, nb, mr, mc, ps[j], c)
    ensures c in CollectCandidates(g, nb, mr, mc, ps, acc)
    ensures CollectCandidates(g, nb, mr, mc, ps, acc)[c] == acc[c]
  {
    if |ps| > 0 {
      var next := Visit(g, nb, mr, mc, acc, ps[0]);
      assert !Supplies(g, nb, mr, mc, ps[0], c);
      forall j | 0 <= j < |ps| - 1
        ensures !Supplies(g, nb, mr, mc, ps[1..][j], c)
      {
        assert ps[1..][j] == ps[j + 1];
      }
      CollectKeeps(g, nb, mr, mc, ps[1..], next, c);
    }
  }

  /** The entry of a character comes from the last visited cell that
      supplies it: later cells overwrite earlier ones. */
  lemma {:induction false} CollectLast(g: Grid, nb: NeighborFn, mr: nat, mc: nat, ps: seq<Pos>, acc: CandidateMap, i: nat)
    requires i < |ps| && ps[i] in g
    requires Supplies(g, nb, mr, mc, ps[i], g[ps[i]])
    requires forall j :: i < j < |ps| ==> !Supplies(g, nb, mr, mc, ps[j], g[ps[i]])
    ensures g[ps[i]] in CollectCandidates(g, nb, mr, mc, ps, acc)
    ensures CollectCandidates(g, nb, mr, mc, ps, acc)[g[ps[i]]] == SortedChars(NeighborChars(g, nb, mr, mc, ps[i]))
  {
    var next := Visit(g, nb, mr, mc, acc, ps[0]);
    forall j | 0 <= j < |ps| - 1 && i < j + 1
      ensures !Supplies(g, nb, mr, mc, ps[1..][j], g[ps[i]])
    {
      assert ps[1..][j] == ps[j + 1];
    }
    if i == 0 {
      CollectKeeps(g, nb, mr, mc, ps[1..], next, g[ps[0]]);
    } else {
      assert ps[1..][i - 1] == ps[i];
      CollectLast(g, nb, mr, mc, ps[1..], next, i - 1);
    }
  }

  /** Construction of the typo corruptor: the candidate map
      `kb_char_to_candidates_dict`.  Every entry comes from a cell holding
      its character, and every character on a cell with candidates has an
      entry. */
  function NewKeyboard(kms: seq<KeyMap>, charset: Option<string>, nb: NeighborFn): (m: CandidateMap)
    ensures Sound(BuildGrid(kms, charset), nb, MaxRow(kms), MaxCol(kms), m)
    ensures var g := BuildGrid(kms, charset);
      forall p :: p in g && NeighborChars(g, nb, MaxRow(kms), MaxCol(kms), p) != {} ==> g[p] in m
  {
    var g := BuildGrid(kms, charset);
    var mr, mc := MaxRow(kms), MaxCol(kms);
    CollectSound(g, nb, mr, mc, AllCells(mr, mc), map[]);
    CollectCandidates(g, nb, mr, mc, AllCells(mr, mc), map[])
  }

  /** The entry of a character is the sorted neighbour characters of the
      last cell, in `np.nditer` order, that holds it and has candidates:
      `kb_char_to_candidates_dict[kb_char]` is overwritten by later cells. */
  lemma NewKeyboardLastCell(kms: seq<KeyMap>, charset: Option<string>, nb: NeighborFn, i: nat)
    requires var cells := AllCells(MaxRow(kms), MaxCol(kms));
      var g := BuildGrid(kms, charset);
      && i < |cells| && cells[i] in g
      && Supplies(g, nb, MaxRow(kms), MaxCol(kms), cells[i], g[cells[i]])
      && forall j :: i < j < |cells| ==> !Supplies(g, nb, MaxRow(kms), MaxCol(kms), cells[j], g[cells[i]])
    ensures var cells := AllCells(MaxRow(kms), MaxCol(kms));
      var g := BuildGrid(kms, charset);
      && g[cells[i]] in NewKeyboard(kms, charset, nb)
      && NewKeyboard(kms, charset, nb)[g[cells[i]]] == SortedChars(NeighborChars(g, nb, MaxRow(kms), MaxCol(kms), cells[i]))
  {
    var g := BuildGrid(kms, charset);
    var mr, mc := MaxRow(kms), MaxCol(kms);
    CollectLast(g, nb, mr, mc, AllCells(mr, mc), map[], i);
  }

  /** Every candidate entry is a non-empty sorted string that does not
      contain its own character. */
  predicate WellFormedCandidates(m: CandidateMap) {
    forall c :: c in m ==> |m[c]| > 0 && IncreasingChars(m[c]) && c !in m[c]
  }

  /** The cell an entry of the candidate map comes from. */
  lemma EntryCell(g: Grid, nb: NeighborFn, mr: nat, mc: nat, m: CandidateMap, c: char) returns (p: Pos)
    requires Sound(g, nb, mr, mc, m) && c in m
    ensures p in g && g[p] == c
    ensures NeighborChars(g, nb, mr, mc, p) != {}
    ensures m[c] == SortedChars(NeighborChars(g, nb, mr, mc, p))
  {
    assert EntryFromCell(g, nb, mr, mc, m, c);
    p :| p in g && g[p] == c && NeighborChars(g, nb, mr, mc, p) != {}
      && m[c] == SortedChars(NeighborChars(g, nb, mr, mc, p));
  }

  lemma {:induction false} SoundEntry(g: Grid, nb: NeighborFn, mr: nat, mc: nat, m: CandidateMap,
                                      charset: Option<string>, c: char)
    requires Sound(g, nb, mr, mc, m) && c in m
    requires forall p :: p in g ==> Permitted(charset, g[p])
    ensures |m[c]| > 0 && IncreasingChars(m[c]) && c !in m[c]
    ensures Permitted(charset, c)
    ensures forall d :: d in m[c] ==>
      && Permitted(charset, d)
      && exists p, q :: p in g && g[p] == c && q in nb(p, mr, mc) && q in g && g[q] == d
  {
    var p := EntryCell(g, nb, mr, mc, m, c);
    var cs := NeighborChars(g, nb, mr, mc, p);
    assert forall d :: d in m[c] <==> d in cs;
    forall d | d in m[c]
      ensures Permitted(charset, d)
      ensures exists q :: q in nb(p, mr, mc) && q in g && g[q] == d
    {
      var q :| q in nb(p, mr, mc) && q in g && g[q] == d && d != g[p];
    }
  }

  /** Every character of the map, and every candidate, passes the charset
      filter. */
  predicate CandidatesPermitted(m: CandidateMap, charset: Option<string>) {
    forall c :: c in m ==> Permitted(charset, c) && forall d :: d in m[c] ==> Permitted(charset, d)
  }

  /** Every candidate of `c` sits on a cell neighbouring a cell of `c`. */
  ghost predicate CandidatesAdjacent(g: Grid, nb: NeighborFn, mr: nat, mc: nat, m: CandidateMap) {
    forall c, d :: c in m && d in m[c] ==>
      exists p, q :: p in g && g[p] == c && q in nb(p, mr, mc) && q in g && g[q] == d
  }

  lemma SoundAll(g: Grid, nb: NeighborFn, mr: nat, mc: nat, m: CandidateMap, charset: Option<string>)
    requires Sound(g, nb, mr, mc, m)
    requires forall p :: p in g ==> Permitted(charset, g[p])
    ensures WellFormedCandidates(m)
    ensures CandidatesPermitted(m, charset)
    ensures CandidatesAdjacent(g, nb, mr, mc, m)
  {
    forall c | c in m
      ensures |m[c]| > 0 && IncreasingChars(m[c]) && c !in m[c]
      ensures Permitted(charset, c)
      ensures forall d :: d in m[c] ==>
        && Permitted(charset, d)
        && exists p, q :: p in g && g[p] == c && q in nb(p, mr, mc) && q in g && g[q] == d
    {
      SoundEntry(g, nb, mr, mc, m, charset, c);
    }
  }

  /** The candidates of a character: characters on cells neighbouring a cell
      of that character, other than the character itself, all within the
      charset, sorted. */
  lemma KeyboardCandidates(kms: seq<KeyMap>, charset: Option<string>, nb: NeighborFn)
    ensures WellFormedCandidates(NewKeyboard(kms, charset, nb))
    ensures CandidatesPermitted(NewKeyboard(kms, charset, nb), charset)
    ensures CandidatesAdjacent(BuildGrid(kms, charset), nb, MaxRow(kms), MaxCol(kms), NewKeyboard(kms, charset, nb))
  {
    SoundAll(BuildGrid(kms, charset), nb, MaxRow(kms), MaxCol(kms), NewKeyboard(kms, charset, nb), charset);
  }

  // ---------------------------------------------------------------------
  // Corruption
  // ---------------------------------------------------------------------

  /** One string: the character at the drawn position is replaced by a
      drawn candidate when it has candidates. */
  function TypoRow(m: CandidateMap, s: string, r: real, pick: real): (t: string)
    requires WellFormedCandidates(m) && IsUnit(r) && IsUnit(pick)
    ensures |t| == |s|
    ensures forall j :: 0 <= j < |s| && t[j] != s[j] ==>
      && s[j] in m && t[j] in m[s[j]]
      && forall j' :: 0 <= j' < |s| && j' != j ==> t[j'] == s[j']
    ensures t != s <==> |s| > 0 && s[ScaledIndex(|s|, r)] in m
    ensures |s| > 0 ==> forall j :: 0 <= j < |s| && j != ScaledIndex(|s|, r) ==> t[j] == s[j]
  {
    if |s| == 0 then s
    else
      var i := ScaledIndex(|s|, r);
      if s[i] in m then
        var t := SubstituteAt(s, i, Pick(m[s[i]], pick));
        assert t[i] != s[i];
        t
      else s
  }

  /** The typo corruptor on a batch: one position draw and one candidate
      draw per row. */
  function TypoBatch(m: CandidateMap, b: Batch, rs: seq<real>, picks: seq<real>): (r: Batch)
    requires WellFormedCandidates(m) && |rs| == |b| && |picks| == |b| && AllUnit(rs) && AllUnit(picks)
    ensures |r| == |b|
    ensures forall k :: 0 <= k < |b| ==> r[k] == TypoRow(m, b[k], rs[k], picks[k])
  {
    seq(|b|, k requires 0 <= k < |b| => TypoRow(m, b[k], rs[k], picks[k]))
  }

  /** Each row of a batch is corrupted on its own, with its own two draws:
      only its drawn position may change, into one of the candidates of
      the character there, and it changes exactly when that character has
      candidates. */
  lemma TypoBatchRow(m: CandidateMap, b: Batch, rs: seq<real>, picks: seq<real>, k: nat)
    requires WellFormedCandidates(m) && |rs| == |b| && |picks| == |b| && AllUnit(rs) && AllUnit(picks)
    requires k < |b|
    ensures |TypoBatch(m, b, rs, picks)[k]| == |b[k]|
    ensures TypoBatch(m, b, rs, picks)[k] != b[k] <==> |b[k]| > 0 && b[k][ScaledIndex(|b[k]|, rs[k])] in m
    ensures forall j :: 0 <= j < |b[k]| && TypoBatch(m, b, rs, picks)[k][j] != b[k][j] ==>
      && j == ScaledIndex(|b[k]|, rs[k])
      && b[k][j] in m && TypoBatch(m, b, rs, picks)[k][j] in m[b[k][j]]
  {
    var t := TypoBatch(m, b, rs, picks)[k];
    assert t == TypoRow(m, b[k], rs[k], picks[k]);
  }

  /** Characters without candidates, among them every character outside the
      charset, are never changed. */
  lemma NoCandidateNoChange(kms: seq<KeyMap>, charset: Option<string>, nb: NeighborFn,
                            s: string, r: real, pick: real, j: nat)
    requires IsUnit(r) && IsUnit(pick) && j < |s|
    requires s[j] !in NewKeyboard(kms, charset, nb) || !Permitted(charset, s[j])
    ensures WellFormedCandidates(NewKeyboard(kms, charset, nb))
    ensures TypoRow(NewKeyboard(kms, charset, nb), s, r, pick)[j] == s[j]
  {
    KeyboardCandidates(kms, charset, nb);
  }
}

=== FILE: missing.dfy ===
/** `with_missing_value`: replace selected strings of a batch with a fixed
    "missing" value.  The strategy decides which strings are selected:
    `all` of them, the `empty` ones, or the `blank` ones (empty after
    stripping whitespace). */
module Missing {
  import opened Wrappers
  import opened Text
  import opened Edits

  datatype Strategy = All | Blank | Empty

  /** Defaults of `with_missing_value`. */
  const DefaultValue: string := ""
  const DefaultStrategy: string := "blank"

  /** The strategy names the factory accepts; anything else is an error. */
  function ParseStrategy(name: string): (r: Result<Strategy>)
    ensures r.Ok? <==> name in {"all", "blank", "empty"}
    ensures r == Ok(All) <==> name == "all"
    ensures r == Ok(Blank) <==> name == "blank"
    ensures r == Ok(Empty) <==> name == "empty"
    ensures r.Err? ==> r.msg == "unrecognized replacement strategy: " + name
  {
    if name == "all" then Ok(All)
    else if name == "blank" then Ok(Blank)
    else if name == "empty" then Ok(Empty)
    else Err("unrecognized replacement strategy: " + name)
  }

  /** Whether a string is replaced under a strategy. */
  predicate Selected(strategy: Strategy, s: string) {
    match strategy
    case All => true
    case Empty => s == ""
    case Blank => Strip(s) == ""
  }

  /** The corruptor a strategy yields, applied to a batch. */
  function MissingBatch(strategy: Strategy, value: string, b: Batch): (r: Batch)
    ensures |r| == |b|
    ensures forall k :: 0 <= k < |b| ==> r[k] == (if Selected(strategy, b[k]) then value else b[k])
  {
    seq(|b|, k requires 0 <= k < |b| => if Selected(strategy, b[k]) then value else b[k])
  }

  /** `with_missing_value(value, strategy)` applied to a batch. */
  function WithMissingValue(value: string, strategy: string, b: Batch): (r: Result<Batch>)
    ensures r.Err? <==> ParseStrategy(strategy).Err?
    ensures r.Err? ==> r.msg == "unrecognized replacement strategy: " + strategy
    ensures strategy == "all" ==> r == Ok(seq(|b|, k => value))
    ensures strategy == "empty" ==>
      && r.Ok? && |r.value| == |b|
      && forall k :: 0 <= k < |b| ==> r.value[k] == (if b[k] == "" then value else b[k])
    ensures strategy == "blank" ==>
      && r.Ok? && |r.value| == |b|
      && forall k :: 0 <= k < |b| ==> r.value[k] == (if AllSpace(b[k]) then value else b[k])
  {
    var st :- ParseStrategy(strategy);
    var r := MissingBatch(st, value, b);
    assert st == All ==> r == seq(|b|, k => value);
    assert forall k :: 0 <= k < |b| ==> (Strip(b[k]) == "" <==> AllSpace(b[k])) by {
      forall k | 0 <= k < |b| {
        StripEmptyIff(b[k]);
      }
    }
    Ok(r)
  }

  /** `with_missing_value()` with both defaults: every string made of
      whitespace only becomes the empty string, and the others are kept. */
  function WithMissingValueDefaults(b: Batch): (r: Result<Batch>)
    ensures r.Ok? && |r.value| == |b|
    ensures forall k :: 0 <= k < |b| ==> r.value[k] == (if AllSpace(b[k]) then "" else b[k])
    ensures forall k :: 0 <= k < |b| ==> AllSpace(r.value[k]) == AllSpace(b[k])
  {
    WithMissingValue(DefaultValue, DefaultStrategy, b)
  }

  /** A recognised strategy name yields the corruptor of its strategy. */
  lemma ParsedStrategy(value: string, name: string, strategy: Strategy, b: Batch)
    requires ParseStrategy(name) == Ok(strategy)
    ensures WithMissingValue(value, name, b) == Ok(MissingBatch(strategy, value, b))
  {
  }

  /** Each strategy selects a subset of what the next broader one selects:
      empty strings are blank, and `all` selects everything. */
  lemma StrategiesNested(s: string)
    ensures Selected(Empty, s) ==> Selected(Blank, s)
    ensures Selected(Blank, s) ==> Selected(All, s)
  {
    StripEmptyIff(s);
  }

  /** A string that holds the missing value is left as it is by every
      strategy: applying the corruptor twice is the same as once. */
  lemma MissingIdempotent(strategy: Strategy, value: string, b: Batch)
    ensures MissingBatch(strategy, value, MissingBatch(strategy, value, b)) == MissingBatch(strategy, value, b)
  {
  }

  /** The example batch `["foo", "   ", ""]`: only the first string has a
      non-whitespace character. */
  lemma ScenarioBatch(b: Batch)
    requires b == ["foo", "   ", ""]
    ensures |b| == 3 && !AllSpace(b[0]) && AllSpace(b[1]) && AllSpace(b[2])
    ensures b[0] != "" && b[1] != "" && b[2] == ""
  {
    assert !IsSpace(b[0][0]);
    assert |b[1]| == 3;
  }

  lemma ScenarioEmpty(b: Batch, value: string, empty: string)
    requires b == ["foo", "   ", ""] && value == "bar" && empty == "empty"
    ensures WithMissingValue(value, empty, b) == Ok([b[0], b[1], value])
  {
    ScenarioBatch(b);
    var e := WithMissingValue(value, empty, b).value;
    assert |e| == 3 && e[0] == b[0] && e[1] == b[1] && e[2] == value;
    assert e == [b[0], b[1], value];
  }

  /** A string is blank exactly when it is made of whitespace only. */
  lemma BlankIff(s: string)
    ensures Selected(Blank, s) <==> AllSpace(s)
  {
    StripEmptyIff(s);
  }

  /** A three-row batch whose first row is not selected and whose other
      rows are. */
  lemma ScenarioBlank(strategy: Strategy, b: Batch, value: string)
    requires |b| == 3 && !Selected(strategy, b[0]) && Selected(strategy, b[1]) && Selected(strategy, b[2])
    ensures MissingBatch(strategy, value, b) == [b[0], value, value]
  {
    var r := MissingBatch(strategy, value, b);
    assert r[0] == b[0] && r[1] == value && r[2] == value;
  }

  /** The three strategies on the batch `["foo", "   ", ""]` with the
      missing value `"bar"`. */
  lemma Scenarios(b: Batch, value: string, all: string, empty: string, blank: string)
    requires b == ["foo", "   ", ""] && value == "bar"
    requires all == "all" && empty == "empty" && blank == "blank"
    ensures WithMissingValue(value, all, b) == Ok([value, value, value])
    ensures WithMissingValue(value, empty, b) == Ok([b[0], b[1], value])
    ensures WithMissingValue(value, blank, b) == Ok([b[0], value, value])
  {
    assert |b| == 3;
    assert seq(|b|, k => value) == [value, value, value];
    ScenarioEmpty(b, value, empty);
    ScenarioBatch(b);
    BlankIff(b[0]);
    BlankIff(b[1]);
    BlankIff(b[2]);
    ScenarioBlank(Blank, b, value);
    assert ParseStrategy(blank) == Ok(Blank);
    ParsedStrategy(value, blank, Blank, b);
  }
}

=== FILE: orchestrator.dfy ===
/** `corrupt_dataframe`: apply corruptors to selected columns of a data
    frame.  A column is given one corruptor, a list of corruptors applied
    with equal probability, or a list of weighted corruptors.  Every row of
    the column draws one corruptor; each corruptor is then called once, on
    the rows that drew it, and its output is written back into those rows. */
module Orchestrator {
  import opened Wrappers
  import opened Probability
  import opened Text
  import opened Sorting
  import opened Rows
  import opened Edits

  /** A corruptor maps a batch of strings to a batch, or fails with the
      message of the error it raises. */
  type Corruptor = Batch -> Result<Batch>

  /** Corruptors keep one output per input row. */
  ghost predicate LengthPreserving(f: Corruptor) {
    forall b: Batch {:trigger f(b)} :: f(b).Ok? ==> |f(b).value| == |b|
  }

  ghost predicate AllLengthPreserving(fs: seq<Corruptor>) {
    forall i :: 0 <= i < |fs| ==> LengthPreserving(fs[i])
  }

  /** `with_noop()`: the batch as it is. */
  function Noop(b: Batch): (r: Result<Batch>)
    ensures r.Ok? && r.value == b
  {
    Ok(b)
  }

  /** What a column of the specification dictionary may hold. */
  datatype Spec =
    | Single(f: Corruptor)
    | Uniform(fs: seq<Corruptor>)
    | Weighted(entries: seq<(real, Corruptor)>)

  const IndexErrorMessage: string := "list index out of range"

  /** Every specification as a list of weighted corruptors: a single one
      gets weight 1, a plain list `1 / n` each, an empty list fails on its
      first element. */
  function Normalize(spec: Spec): (r: Result<seq<(real, Corruptor)>>)
    ensures r.Err? <==> (spec.Uniform? && |spec.fs| == 0) || (spec.Weighted? && |spec.entries| == 0)
    ensures r.Err? ==> r.msg == IndexErrorMessage
    ensures spec.Single? ==> r == Ok([(1.0, spec.f)])
    ensures spec.Uniform? && r.Ok? ==>
      && |r.value| == |spec.fs|
      && (forall i :: 0 <= i < |r.value| ==> r.value[i].1 == spec.fs[i])
      && IsDistribution(Firsts(r.value))
    ensures spec.Weighted? && r.Ok? ==> r.value == spec.entries
  {
    match spec
    case Single(f) => Ok([(1.0, f)])
    case Uniform(fs) =>
      if |fs| == 0 then Err(IndexErrorMessage)
      else
        var w := 1.0 / |fs| as real;
        var entries := seq(|fs|, i requires 0 <= i < |fs| => (w, fs[i]));
        assert Firsts(entries) == seq(|fs|, i => w);
        SumConstant(|fs|, w);
        Ok(entries)
    case Weighted(entries) =>
      if |entries| == 0 then Err(IndexErrorMessage) else Ok(entries)
  }

  function Funcs(entries: seq<(real, Corruptor)>): (fs: seq<Corruptor>)
    ensures |fs| == |entries|
    ensures forall i :: 0 <= i < |entries| ==> fs[i] == entries[i].1
  {
    seq(|entries|, i requires 0 <= i < |entries| => entries[i].1)
  }

  /** `n` equal weights `x` add up to `n * x`. */
  lemma {:induction false} SumConstant(n: nat, x: real)
    ensures Sum(seq(n, i => x)) == n as real * x
  {
    if n > 0 {
      assert seq(n, i => x)[1..] == seq(n - 1, i => x);
      SumConstant(n - 1, x);
    }
  }

  /** Corruptor `h`, called on the rows that drew it. */
  function GroupOutput(col: Batch, labels: seq<nat>, fs: seq<Corruptor>, h: nat): Result<Batch>
    requires |col| == |labels| && h < |fs|
  {
    fs[h](Select(col, labels, h))
  }

  /** The calls of corruptors `g..` all succeed. */
  predicate GroupsOk(col: Batch, labels: seq<nat>, fs: seq<Corruptor>, g: nat)
    requires |col| == |labels|
  {
    forall h :: g <= h < |fs| ==> GroupOutput(col, labels, fs, h).Ok?
  }

  /** The corruptors from index `g` on, each applied to the rows that drew
      it, written back into `out`.  The first call that fails aborts. */
  function ApplyGroups(col: Batch, labels: seq<nat>, fs: seq<Corruptor>, g: nat, out: Batch): (r: Result<Batch>)
    requires |col| == |labels| == |out| && g <= |fs|
    requires AllLengthPreserving(fs)
    ensures r.Ok? <==> GroupsOk(col, labels, fs, g)
    ensures r.Err? ==> exists h :: g <= h < |fs| && GroupOutput(col, labels, fs, h) == Err(r.msg)
    ensures r.Ok? ==>
      && |r.value| == |col|
      && forall k :: 0 <= k < |col| ==>
        r.value[k] == (if g <= labels[k] < |fs| then GroupOutput(col, labels, fs, labels[k]).value[Rank(labels, k)] else out[k])
    decreases |fs| - g
  {
    if g == |fs| then Ok(out)
    else
      match GroupOutput(col, labels, fs, g)
      case Err(msg) => Err(msg)
      case Ok(ys) =>
        assert LengthPreserving(fs[g]);
        assert |ys| == Count(labels, g);
        ApplyGroups(col, labels, fs, g + 1, Scatter(out, labels, g, ys))
  }

  function ColumnError(name: string): string {
    "probabilities for column `" + name + "` must sum up to 1.0"
  }

  /** The corruptor each row draws: `rng.choice(arange(n), p=ps)`. */
  function RowLabels(ps: seq<real>, us: seq<real>): (labels: seq<nat>)
    requires IsDistribution(ps) && AllUnit(us)
    ensures |labels| == |us|
    ensures forall k :: 0 <= k < |us| ==> labels[k] < |ps| && ps[labels[k]] > 0.0
    ensures forall k :: 0 <= k < |us| ==> Sum(ps[..labels[k]]) <= us[k] < Sum(ps[..labels[k] + 1])
  {
    seq(|us|, k requires 0 <= k < |us| => Choose(ps, us[k]))
  }

  /** Every corruptor a specification may call keeps row counts. */
  ghost predicate SpecPreservesLength(spec: Spec) {
    match spec
    case Single(f) => LengthPreserving(f)
    case Uniform(fs) => AllLengthPreserving(fs)
    case Weighted(entries) => forall i :: 0 <= i < |entries| ==> LengthPreserving(entries[i].1)
  }

  /** Normalisation keeps the corruptors of a specification. */
  lemma NormalizedPreserveLength(spec: Spec)
    requires SpecPreservesLength(spec) && Normalize(spec).Ok?
    ensures AllLengthPreserving(Funcs(Normalize(spec).value))
  {
  }

  /** One column of `corrupt_dataframe`: `us[k]` is row `k`'s draw of its
      corruptor.  Each row's value is the output its corruptor produced for
      it, called on exactly the rows that drew that corruptor. */
  function CorruptColumn(name: string, col: Batch, spec: Spec, us: seq<real>): (r: Result<Batch>)
    requires |us| == |col| && AllUnit(us) && SpecPreservesLength(spec)
    ensures Normalize(spec).Err? ==> r == Err(IndexErrorMessage)
    ensures Normalize(spec).Ok? && !IsDistribution(Firsts(Normalize(spec).value)) ==> r == Err(ColumnError(name))
    ensures r.Ok? ==>
      var fs := Funcs(Normalize(spec).value);
      var labels := RowLabels(Firsts(Normalize(spec).value), us);
      && |r.value| == |col|
      && GroupsOk(col, labels, fs, 0)
      && forall k :: 0 <= k < |col| ==>
        r.value[k] == GroupOutput(col, labels, fs, labels[k]).value[Rank(labels, k)]
    ensures Normalize(spec).Ok? && IsDistribution(Firsts(Normalize(spec).value)) ==>
      var fs := Funcs(Normalize(spec).value);
      var labels := RowLabels(Firsts(Normalize(spec).value), us);
      && (r.Ok? <==> GroupsOk(col, labels, fs, 0))
      && (r.Err? ==> exists h :: 0 <= h < |fs| && GroupOutput(col, labels, fs, h) == Err(r.msg))
  {
    var entries :- Normalize(spec);
    NormalizedPreserveLength(spec);
    var ps := Firsts(entries);
    if !IsDistribution(ps) then Err(ColumnError(name))
    else
      var labels := RowLabels(ps, us);
      ApplyGroups(col, labels, Funcs(entries), 0, col)
  }

  /** A data frame: column names and one batch per column, all of the same
      length. */
  datatype Frame = Frame(names: seq<string>, columns: seq<Batch>)

  predicate WellFormed(f: Frame, rows: nat) {
    && |f.names| == |f.columns|
    && Distinct(f.names)
    && forall i :: 0 <= i < |f.columns| ==> |f.columns[i]| == rows
  }

  function IndexOf(xs: seq<string>, x: string): (i: nat)
    requires x in xs
    ensures i < |xs| && xs[i] == x
  {
    if xs[0] == x then 0 else 1 + IndexOf(xs[1..], x)
  }

  function MissingColumnError(name: string, names: seq<string>): string {
    "column `" + name + "` does not exist, must be one of `" + Join(names, ",") + "`"
  }

  /** Every corruptor a specification list may call keeps row counts. */
  ghost predicate SpecsPreserveLength(specs: seq<(string, Spec)>) {
    forall j :: 0 <= j < |specs| ==> SpecPreservesLength(specs[j].1)
  }

  /** The keys of a dictionary are distinct. */
  predicate DistinctKeys(specs: seq<(string, Spec)>) {
    forall j, j' :: 0 <= j < j' < |specs| ==> specs[j].0 != specs[j'].0
  }

  /** Some entry from index `j` on names column `name`. */
  predicate Mentioned(specs: seq<(string, Spec)>, j: nat, name: string) {
    exists j' :: j <= j' < |specs| && specs[j'].0 == name
  }

  /** The preconditions of `corrupt_dataframe` on its arguments. */
  ghost predicate FrameReady(input: Frame, rows: nat, specs: seq<(string, Spec)>, us: seq<seq<real>>) {
    && WellFormed(input, rows)
    && |us| == |specs| && SpecsPreserveLength(specs)
    && forall j :: 0 <= j < |us| ==> |us[j]| == rows && AllUnit(us[j])
  }

  /** One entry of the dictionary on its own: an unknown column fails, a
      known column is corrupted as read from the input frame. */
  function EntryOutput(input: Frame, rows: nat, entry: (string, Spec), us: seq<real>): (r: Result<Batch>)
    requires WellFormed(input, rows) && |us| == rows && AllUnit(us) && SpecPreservesLength(entry.1)
    ensures entry.0 !in input.names ==> r == Err(MissingColumnError(entry.0, input.names))
    ensures r.Ok? ==> entry.0 in input.names && |r.value| == rows
    ensures forall i :: 0 <= i < |input.names| && input.names[i] == entry.0 ==>
      r == CorruptColumn(entry.0, input.columns[i], entry.1, us)
  {
    var (name, spec) := entry;
    if name !in input.names then Err(MissingColumnError(name, input.names))
    else
      var i := IndexOf(input.names, name);
      assert forall i' :: 0 <= i' < |input.names| && input.names[i'] == name ==> i' == i;
      CorruptColumn(name, input.columns[i], spec, us)
  }

  /** What an entry's outcome may be written into: a column of the frame,
      of the frame's length. */
  predicate OutcomesFit(names: seq<string>, rows: nat, specs: seq<(string, Spec)>, os: seq<Result<Batch>>) {
    && |os| == |specs|
    && forall j :: 0 <= j < |os| && os[j].Ok? ==> specs[j].0 in names && |os[j].value| == rows
  }

  /** The outcome of every entry, in dictionary order.  Every entry reads
      the input frame, never the output, so the outcomes do not depend on
      one another. */
  function Outcomes(input: Frame, rows: nat, specs: seq<(string, Spec)>, us: seq<seq<real>>): (os: seq<Result<Batch>>)
    requires FrameReady(input, rows, specs, us)
    ensures OutcomesFit(input.names, rows, specs, os)
    ensures forall j :: 0 <= j < |specs| && specs[j].0 !in input.names ==>
      os[j] == Err(MissingColumnError(specs[j].0, input.names))
    ensures forall i, j :: 0 <= i < |input.names| && 0 <= j < |specs| && specs[j].0 == input.names[i] ==>
      os[j] == CorruptColumn(input.names[i], input.columns[i], specs[j].1, us[j])
  {
    seq(|specs|, j requires 0 <= j < |specs| => EntryOutput(input, rows, specs[j], us[j]))
  }

  /** The outcomes of entries `j..` written into `out` in order; the first
      failing entry aborts with its error. */
  function WriteFrom(rows: nat, specs: seq<(string, Spec)>, os: seq<Result<Batch>>, j: nat, out: Frame): (r: Result<Frame>)
    requires WellFormed(out, rows) && OutcomesFit(out.names, rows, specs, os) && j <= |specs|
    ensures r.Ok? <==> forall j' :: j <= j' < |os| ==> os[j'].Ok?
    ensures r.Err? ==> exists j' :: j <= j' < |os| && os[j'] == Err(r.msg) && forall j'' :: j <= j'' < j' ==> os[j''].Ok?
    ensures r.Ok? ==> WellFormed(r.value, rows) && r.value.names == out.names
    decreases |specs| - j
  {
    if j == |specs| then Ok(out)
    else
      match os[j]
      case Err(msg) => Err(msg)
      case Ok(col) =>
        var i := IndexOf(out.names, specs[j].0);
        var out' := Frame(out.names, out.columns[i := col]);
        assert WellFormed(out', rows);
        WriteFrom(rows, specs, os, j + 1, out')
  }

  /** Columns that no entry from `j` on names keep their value in `out`. */
  lemma {:induction false} WriteUntouched(rows: nat, specs: seq<(string, Spec)>, os: seq<Result<Batch>>, j: nat, out: Frame, i: nat)
    requires WellFormed(out, rows) && OutcomesFit(out.names, rows, specs, os) && j <= |specs|
    requires i < |out.names| && !Mentioned(specs, j, out.names[i])
    requires WriteFrom(rows, specs, os, j, out).Ok?
    ensures WriteFrom(rows, specs, os, j, out).value.columns[i] == out.columns[i]
    decreases |specs| - j
  {
    if j < |specs| {
      var k := IndexOf(out.names, specs[j].0);
      var out' := Frame(out.names, out.columns[k := os[j].value]);
      assert WellFormed(out', rows);
      assert WriteFrom(rows, specs, os, j, out) == WriteFrom(rows, specs, os, j + 1, out');
      assert !Mentioned(specs, j + 1, out.names[i]);
      WriteUntouched(rows, specs, os, j + 1, out', i);
    }
  }

  /** A column named by entry `j'`, and by no later entry, holds that
      entry's outcome. */
  lemma {:induction false} WriteColumn(rows: nat, specs: seq<(string, Spec)>, os: seq<Result<Batch>>, j: nat, out: Frame, i: nat, j': nat)
    requires WellFormed(out, rows) && OutcomesFit(out.names, rows, specs, os) && j <= j' < |specs|
    requires i < |out.names| && specs[j'].0 == out.names[i] && !Mentioned(specs, j' + 1, out.names[i])
    requires WriteFrom(rows, specs, os, j, out).Ok?
    ensures os[j'] == Ok(WriteFrom(rows, specs, os, j, out).value.columns[i])
    decreases |specs| - j
  {
    var k := IndexOf(out.names, specs[j].0);
    var out' := Frame(out.names, out.columns[k := os[j].value]);
    assert WellFormed(out', rows);
    assert WriteFrom(rows, specs, os, j, out) == WriteFrom(rows, specs, os, j + 1, out');
    if j == j' {
      assert k == i;
      WriteUntouched(rows, specs, os, j + 1, out', i);
    } else {
      WriteColumn(rows, specs, os, j + 1, out', i, j');
    }
  }

  /** `corrupt_dataframe(df, specs)`: `us[j][k]` is row `k`'s draw for the
      `j`-th entry of the dictionary. */
  function CorruptFrame(input: Frame, rows: nat, specs: seq<(string, Spec)>, us: seq<seq<real>>): (r: Result<Frame>)
    requires FrameReady(input, rows, specs, us)
    ensures r.Ok? ==> WellFormed(r.value, rows) && r.value.names == input.names
    ensures r.Ok? ==> forall j :: 0 <= j < |specs| ==> specs[j].0 in input.names
  {
    WriteFrom(rows, specs, Outcomes(input, rows, specs, us), 0, input)
  }

  /** What `corrupt_dataframe` promises: columns the dictionary does not
      name are copied, and every named column is the output of its own
      specification applied to the input column. */
  lemma CorruptFrameColumns(input: Frame, rows: nat, specs: seq<(string, Spec)>, us: seq<seq<real>>)
    requires FrameReady(input, rows, specs, us) && DistinctKeys(specs)
    requires CorruptFrame(input, rows, specs, us).Ok?
    ensures forall i :: 0 <= i < |input.names| && !Mentioned(specs, 0, input.names[i]) ==>
      CorruptFrame(input, rows, specs, us).value.columns[i] == input.columns[i]
    ensures forall i, j :: 0 <= i < |input.names| && 0 <= j < |specs| && specs[j].0 == input.names[i] ==>
      CorruptColumn(input.names[i], input.columns[i], specs[j].1, us[j]) == Ok(CorruptFrame(input, rows, specs, us).value.columns[i])
  {
    var os := Outcomes(input, rows, specs, us);
    forall i | 0 <= i < |input.names| && !Mentioned(specs, 0, input.names[i])
      ensures CorruptFrame(input, rows, specs, us).value.columns[i] == input.columns[i]
    {
      WriteUntouched(rows, specs, os, 0, input, i);
    }
    forall i, j | 0 <= i < |input.names| && 0 <= j < |specs| && specs[j].0 == input.names[i]
      ensures CorruptColumn(input.names[i], input.columns[i], specs[j].1, us[j]) == Ok(CorruptFrame(input, rows, specs, us).value.columns[i])
    {
      assert !Mentioned(specs, j + 1, input.names[i]);
      WriteColumn(rows, specs, os, 0, input, i, j);
    }
  }

  /** `corrupt_dataframe` fails exactly when some entry fails, and with the
      error of the first entry that does. */
  lemma CorruptFrameFails(input: Frame, rows: nat, specs: seq<(string, Spec)>, us: seq<seq<real>>)
    requires FrameReady(input, rows, specs, us)
    ensures CorruptFrame(input, rows, specs, us).Err? <==>
      exists j :: 0 <= j < |specs| && EntryOutput(input, rows, specs[j], us[j]).Err?
    ensures CorruptFrame(input, rows, specs, us).Err? ==>
      exists j :: 0 <= j < |specs|
        && EntryOutput(input, rows, specs[j], us[j]) == Err(CorruptFrame(input, rows, specs, us).msg)
        && forall j' :: 0 <= j' < j ==> EntryOutput(input, rows, specs[j'], us[j']).Ok?
  {
  }

  /** A single corruptor is called once, on the whole column: the column
      becomes its output. */
  lemma SingleWholeColumn(name: string, col: Batch, f: Corruptor, us: seq<real>)
    requires |us| == |col| && AllUnit(us) && LengthPreserving(f)
    ensures CorruptColumn(name, col, Single(f), us) == f(col)
  {
    var spec := Single(f);
    assert Funcs(Normalize(spec).value) == [f];
    assert Firsts(Normalize(spec).value) == [1.0];
    var labels := RowLabels([1.0], us);
    assert forall k :: 0 <= k < |labels| ==> labels[k] == 0;
    SelectAll(col, labels, 0);
    RankAll(labels, 0);
    var r := CorruptColumn(name, col, spec, us);
    if r.Ok? {
      assert r.value == f(col).value;
    }
  }

  /** `with_noop()` as the only corruptor leaves a column as it is. */
  lemma NoopKeepsColumn(name: string, col: Batch, us: seq<real>)
    requires |us| == |col| && AllUnit(us)
    ensures CorruptColumn(name, col, Single(Noop), us) == Ok(col)
  {
    SingleWholeColumn(name, col, Noop, us);
  }

  /** A weighted list is not padded: weights that fall short of 1 are
      rejected like weights that exceed it. */
  lemma WeightsMustSumToOne(name: string, col: Batch, f: Corruptor, g: Corruptor, us: seq<real>)
    requires |us| == |col| && AllUnit(us) && LengthPreserving(f) && LengthPreserving(g)
    ensures CorruptColumn(name, col, Weighted([(0.5, f)]), us) == Err(ColumnError(name))
    ensures CorruptColumn(name, col, Weighted([(0.8, f), (0.3, g)]), us) == Err(ColumnError(name))
  {
    assert Firsts([(0.5, f)]) == [0.5];
    assert Sum([0.5]) == 0.5 by {
      assert [0.5][1..] == [];
    }
    assert Firsts([(0.8, f), (0.3, g)]) == [0.8, 0.3];
    assert Sum([0.8, 0.3]) == 1.1 by {
      assert [0.8, 0.3][1..] == [0.3];
      assert [0.3][1..] == [];
    }
  }

  /** An entry for a column the frame does not have fails with a message
      that lists the frame's columns. */
  lemma UnknownColumn(input: Frame, rows: nat, name: string, spec: Spec, us: seq<real>)
    requires name !in input.names && WellFormed(input, rows)
    requires |us| == rows && AllUnit(us) && SpecPreservesLength(spec)
    ensures CorruptFrame(input, rows, [(name, spec)], [us]) == Err(MissingColumnError(name, input.names))
  {
    var os := Outcomes(input, rows, [(name, spec)], [us]);
    assert os[0] == Err(MissingColumnError(name, input.names));
  }

  /** With a single column `foo`, the message lists just that column. */
  lemma UnknownColumnMessage(names: seq<string>, name: string)
    requires names == ["foo"]
    ensures MissingColumnError(name, names) == "column `" + name + "` does not exist, must be one of `foo`"
  {
    assert Join(names, ",") == "foo";
  }
}

=== FILE: phonetic.dfy ===
/** `with_phonetic_replacement_table`: position-constrained rewrites of
    similar-sounding spellings.  A rule is a pattern, its replacement and the
    positions it may be applied at: `^` start, `$` end, `_` middle.  Each
    string is rewritten by at most one rule at one position.

    Eligibility is decided once, on the input, from the FIRST occurrence of
    the pattern (`str.find`); application tests `startswith` / `endswith` on
    the current string.  Patterns are literal strings. */
module Phonetic {
  import opened Wrappers
  import opened Probability
  import opened Text
  import opened Edits

  /** `"".join(sorted("^$_"))` */
  const AllFlags: string := "$^_"

  datatype Rule = Rule(pattern: string, replacement: string, flags: string)

  /** A row of the rule table before its flags are validated; an absent or
      NaN flag cell is `None`. */
  datatype RawRule = RawRule(pattern: string, replacement: string, flags: Option<string>)

  predicate IsFlag(c: char) {
    c == '^' || c == '$' || c == '_'
  }

  predicate ValidFlags(flags: string) {
    forall k :: 0 <= k < |flags| ==> IsFlag(flags[k])
  }

  predicate ValidRules(rules: seq<Rule>) {
    forall j :: 0 <= j < |rules| ==> ValidFlags(rules[j].flags)
  }

  /** Index of the first character that is not a flag, if any. */
  function FirstUnknown(flags: string, from: nat): (i: nat)
    requires from <= |flags|
    ensures from <= i <= |flags|
    ensures i < |flags| ==> !IsFlag(flags[i])
    ensures forall k :: from <= k < i ==> IsFlag(flags[k])
    decreases |flags| - from
  {
    if from == |flags| || !IsFlag(flags[from]) then from else FirstUnknown(flags, from + 1)
  }

  /** `_validate_flags`: missing or empty flags mean every position; any
      other character than `^`, `$`, `_` is reported, the first one first. */
  function ValidateFlags(flags: Option<string>): (r: Result<string>)
    ensures flags.None? || flags == Some("") ==> r == Ok(AllFlags)
    ensures flags.Some? && flags.value != "" ==>
      (r.Ok? <==> ValidFlags(flags.value))
    ensures r.Ok? && flags.Some? && flags.value != "" ==> r.value == flags.value
    ensures r.Ok? ==> ValidFlags(r.value) && |r.value| > 0
    ensures r.Err? ==>
      exists i :: 0 <= i < |flags.value| && !IsFlag(flags.value[i]) && r.msg == "unknown flag: " + [flags.value[i]]
  {
    match flags
    case None => Ok(AllFlags)
    case Some(f) =>
      if f == "" then Ok(AllFlags)
      else
        var i := FirstUnknown(f, 0);
        if i < |f| then Err("unknown flag: " + [f[i]]) else Ok(f)
  }

  /** Construction: every row of the table becomes a rule, in table order;
      the first row with an unknown flag aborts construction. */
  function BuildRules(raws: seq<RawRule>): (r: Result<seq<Rule>>)
    ensures r.Ok? <==> forall j :: 0 <= j < |raws| ==> ValidateFlags(raws[j].flags).Ok?
    ensures r.Ok? ==> |r.value| == |raws| && ValidRules(r.value)
    ensures r.Ok? ==> forall j :: 0 <= j < |raws| ==>
      r.value[j] == Rule(raws[j].pattern, raws[j].replacement, ValidateFlags(raws[j].flags).value)
    ensures r.Err? ==> exists j ::
      && 0 <= j < |raws|
      && (forall i :: 0 <= i < j ==> ValidateFlags(raws[i].flags).Ok?)
      && ValidateFlags(raws[j].flags) == Err(r.msg)
  {
    if |raws| == 0 then Ok([])
    else
      var flags :- ValidateFlags(raws[0].flags);
      assert forall j :: 1 <= j < |raws| ==> raws[j] == raws[1..][j - 1];
      match BuildRules(raws[1..])
      case Err(msg) =>
        var j :| 0 <= j < |raws| - 1
          && (forall i :: 0 <= i < j ==> ValidateFlags(raws[1..][i].flags).Ok?)
          && ValidateFlags(raws[1..][j].flags) == Err(msg);
        assert ValidateFlags(raws[j + 1].flags) == Err(msg);
        Err(msg)
      case Ok(rest) =>
        Ok([Rule(raws[0].pattern, raws[0].replacement, flags)] + rest)
  }

  // ---------------------------------------------------------------------
  // Eligibility, decided on the input string
  // ---------------------------------------------------------------------

  /** Flags under which the rule counts as applicable, computed from the
      first occurrence of the pattern (`-1` when it does not occur). */
  function EligibleFlags(rule: Rule, s: string): (e: string)
    ensures forall k :: 0 <= k < |e| ==> e[k] in rule.flags
    ensures '^' in e <==> '^' in rule.flags && Find(s, rule.pattern) == 0
    ensures '^' in e <==> '^' in rule.flags && StartsWith(s, rule.pattern)
    ensures '$' in e <==> '$' in rule.flags && Find(s, rule.pattern) + |rule.pattern| == |s|
    ensures '_' in e <==> '_' in rule.flags && 0 < Find(s, rule.pattern) && Find(s, rule.pattern) + |rule.pattern| < |s|
  {
    StartsWithOccurs(s, rule.pattern);
    var idx := Find(s, rule.pattern);
    var n := |rule.pattern|;
    (if '^' in rule.flags && idx == 0 then "^" else "")
    + (if '$' in rule.flags && idx + n == |s| then "$" else "")
    + (if '_' in rule.flags && idx > 0 && idx + n < |s| then "_" else "")
  }

  predicate Eligible(rule: Rule, s: string) {
    EligibleFlags(rule, s) != ""
  }

  /** How many rules are applicable to `s`. */
  function EligibleCount(rules: seq<Rule>, s: string): (k: nat)
    ensures k <= |rules|
    ensures k == 0 <==> forall j :: 0 <= j < |rules| ==> !Eligible(rules[j], s)
  {
    if |rules| == 0 then 0
    else
      assert forall j :: 1 <= j < |rules| ==> rules[j] == rules[1..][j - 1];
      (if Eligible(rules[0], s) then 1 else 0) + EligibleCount(rules[1..], s)
  }

  /** The probability with which each applicable rule is tried on `s`:
      `1 / k` for `k` applicable rules, zero without any. */
  function Threshold(rules: seq<Rule>, s: string): real
  {
    Reciprocal(EligibleCount(rules, s))
  }

  // ---------------------------------------------------------------------
  // Application
  // ---------------------------------------------------------------------

  /** The row mask a flag selects on the current string. */
  predicate FlagMatches(flag: char, s: string, p: string) {
    if flag == '^' then StartsWith(s, p)
    else if flag == '$' then EndsWith(s, p)
    else !StartsWith(s, p) && !EndsWith(s, p)
  }

  /** The rewrite a flag performs: `^P` and `P$` replace the leading and the
      trailing pattern, `^(.+)P(.+)$` the last occurrence with a non-empty
      prefix and suffix, and leaves the string alone when there is none. */
  function Rewrite(flag: char, s: string, rule: Rule): (t: string)
    requires IsFlag(flag) && FlagMatches(flag, s, rule.pattern)
  {
    var p := rule.pattern;
    if flag == '^' then rule.replacement + s[|p|..]
    else if flag == '$' then s[..|s| - |p|] + rule.replacement
    else match LastInterior(s, p)
      case None => s
      case Some(j) => s[..j] + rule.replacement + s[j + |p|..]
  }

  /** The first flag of a shuffled order that matches `s`. */
  function FirstMatch(order: string, s: string, p: string): (f: Option<char>)
    ensures f.Some? ==> f.value in order && FlagMatches(f.value, s, p)
    ensures f.Some? ==> exists i :: 0 <= i < |order| && order[i] == f.value
                                   && (forall k :: 0 <= k < i ==> !FlagMatches(order[k], s, p))
    ensures f.None? <==> forall k :: 0 <= k < |order| ==> !FlagMatches(order[k], s, p)
  {
    if |order| == 0 then None
    else if FlagMatches(order[0], s, p) then Some(order[0])
    else
      assert forall k :: 1 <= k < |order| ==> order[k] == order[1..][k - 1];
      var f := FirstMatch(order[1..], s, p);
      if f.Some? then
        var i :| 0 <= i < |order| - 1 && order[1..][i] == f.value &&
          forall k :: 0 <= k < i ==> !FlagMatches(order[1..][k], s, p);
        assert order[i + 1] == f.value;
        assert forall k :: 0 <= k < i + 1 ==> !FlagMatches(order[k], s, p);
        f
      else f
  }

  /** The text of a row and, once it has been marked as modified, the rule
      and flag that marked it (the source keeps only the mark). */
  datatype RowState = RowState(text: string, applied: Option<(nat, char)>)

  /** The flags of rule `j`, in shuffled order, on one row.  `candidate` is
      the row's membership of `mask_candidate_rows`. */
  function ApplyFlags(rule: Rule, j: nat, candidate: bool, order: string, st: RowState): (r: RowState)
    requires ValidFlags(order)
    ensures st.applied.Some? ==> r == st
    ensures st.applied.None? && candidate && FirstMatch(order, st.text, rule.pattern).Some? ==>
      var f := FirstMatch(order, st.text, rule.pattern).value;
      r == RowState(Rewrite(f, st.text, rule), Some((j, f)))
    ensures st.applied.None? && !(candidate && FirstMatch(order, st.text, rule.pattern).Some?) ==> r == st
  {
    if |order| == 0 then st
    else
      var f := order[0];
      var next :=
        if candidate && FlagMatches(f, st.text, rule.pattern) && st.applied.None? then
          RowState(Rewrite(f, st.text, rule), Some((j, f)))
        else st;
      assert forall k :: 1 <= k < |order| ==> order[k] == order[1..][k - 1];
      ApplyFlags(rule, j, candidate, order[1..], next)
  }

  /** `mask_candidate_rows` for rule `j` on a row with input `s`. */
  predicate Candidate(rules: seq<Rule>, j: nat, s: string, u: real)
    requires j < |rules|
  {
    u < Threshold(rules, s) && Eligible(rules[j], s)
  }

  /** Rule `j` rewrites an unmodified row with input `s`. */
  predicate Fires(rules: seq<Rule>, j: nat, s: string, u: real, order: string)
    requires j < |rules|
  {
    Candidate(rules, j, s, u) && FirstMatch(order, s, rules[j].pattern).Some?
  }

  /** One shuffled flag order per rule, each a permutation of the rule's
      flags (`rng.shuffle(list(rule.flags))`). */
  predicate OrdersFit(rules: seq<Rule>, orders: seq<string>) {
    |orders| == |rules| && forall j :: 0 <= j < |rules| ==> multiset(orders[j]) == multiset(rules[j].flags)
  }

  lemma OrderValid(rules: seq<Rule>, orders: seq<string>, j: nat)
    requires ValidRules(rules) && OrdersFit(rules, orders) && j < |rules|
    ensures ValidFlags(orders[j])
  {
    forall k | 0 <= k < |orders[j]|
      ensures IsFlag(orders[j][k])
    {
      assert orders[j][k] in multiset(orders[j]);
    }
  }

  /** Rules `j..` on one row, in table order.  A row marked as modified is
      excluded from every later rule's mask. */
  function ApplyRules(rules: seq<Rule>, s: string, us: seq<real>, orders: seq<string>, j: nat, st: RowState): (r: RowState)
    requires ValidRules(rules) && OrdersFit(rules, orders) && |us| == |rules| && j <= |rules|
    ensures st.applied.Some? ==> r == st
    decreases |rules| - j
  {
    if j == |rules| then st
    else
      OrderValid(rules, orders, j);
      var next := ApplyFlags(rules[j], j, Candidate(rules, j, s, us[j]), orders[j], st);
      ApplyRules(rules, s, us, orders, j + 1, next)
  }

  /** Rules `j..` leave an unmodified row alone exactly when none of them
      fires on it. */
  lemma {:induction false} ApplyRulesNone(rules: seq<Rule>, s: string, us: seq<real>, orders: seq<string>, j: nat)
    requires ValidRules(rules) && OrdersFit(rules, orders) && |us| == |rules| && j <= |rules|
    ensures var r := ApplyRules(rules, s, us, orders, j, RowState(s, None));
      && (r.applied.None? <==> forall i :: j <= i < |rules| ==> !Fires(rules, i, s, us[i], orders[i]))
      && (r.applied.None? ==> r.text == s)
    decreases |rules| - j
  {
    if j < |rules| {
      OrderValid(rules, orders, j);
      var st := RowState(s, None);
      var next := ApplyFlags(rules[j], j, Candidate(rules, j, s, us[j]), orders[j], st);
      assert ApplyRules(rules, s, us, orders, j, st) == ApplyRules(rules, s, us, orders, j + 1, next);
      if Fires(rules, j, s, us[j], orders[j]) {
        assert next.applied.Some?;
        assert ApplyRules(rules, s, us, orders, j, st).applied.Some?;
        assert !(forall i :: j <= i < |rules| ==> !Fires(rules, i, s, us[i], orders[i]));
      } else {
        assert next == st;
        ApplyRulesNone(rules, s, us, orders, j + 1);
        assert (forall i :: j + 1 <= i < |rules| ==> !Fires(rules, i, s, us[i], orders[i])) <==>
          (forall i :: j <= i < |rules| ==> !Fires(rules, i, s, us[i], orders[i]));
      }
    } else {
      assert ApplyRules(rules, s, us, orders, j, RowState(s, None)) == RowState(s, None);
    }
  }

  /** When rules `j..` modify a row, the first of them that fires rewrites
      the input under the first flag of its order that matches. */
  lemma {:induction false} ApplyRulesSome(rules: seq<Rule>, s: string, us: seq<real>, orders: seq<string>, j: nat)
    requires ValidRules(rules) && OrdersFit(rules, orders) && |us| == |rules| && j <= |rules|
    requires ApplyRules(rules, s, us, orders, j, RowState(s, None)).applied.Some?
    ensures var r := ApplyRules(rules, s, us, orders, j, RowState(s, None));
      var (i, f) := r.applied.value;
      && j <= i < |rules|
      && Fires(rules, i, s, us[i], orders[i])
      && (forall i' :: j <= i' < i ==> !Fires(rules, i', s, us[i'], orders[i']))
      && Some(f) == FirstMatch(orders[i], s, rules[i].pattern)
      && IsFlag(f)
      && r.text == Rewrite(f, s, rules[i])
    decreases |rules| - j
  {
    OrderValid(rules, orders, j);
    var st := RowState(s, None);
    var next := ApplyFlags(rules[j], j, Candidate(rules, j, s, us[j]), orders[j], st);
    assert ApplyRules(rules, s, us, orders, j, st) == ApplyRules(rules, s, us, orders, j + 1, next);
    if Fires(rules, j, s, us[j], orders[j]) {
      var f := FirstMatch(orders[j], s, rules[j].pattern).value;
      assert f in orders[j];
      assert next == RowState(Rewrite(f, s, rules[j]), Some((j, f)));
      assert ApplyRules(rules, s, us, orders, j, st) == next;
    } else {
      assert next == st;
      ApplyRulesSome(rules, s, us, orders, j + 1);
      var r := ApplyRules(rules, s, us, orders, j + 1, st);
      var i := r.applied.value.0;
      assert forall i' :: j + 1 <= i' < i ==> !Fires(rules, i', s, us[i'], orders[i']);
      forall i' | j <= i' < i
        ensures !Fires(rules, i', s, us[i'], orders[i'])
      {
        if i' == j {
          assert !Fires(rules, j, s, us[j], orders[j]);
        }
      }
    }
  }

  /** One row of the phonetic corruptor.  `us[j]` is the row's draw for
      rule `j`. */
  function PhoneticRow(rules: seq<Rule>, s: string, us: seq<real>, orders: seq<string>): (r: RowState)
    requires ValidRules(rules) && OrdersFit(rules, orders) && |us| == |rules|
    ensures r.applied.None? ==> r.text == s
    ensures r.applied.None? <==> forall i :: 0 <= i < |rules| ==> !Fires(rules, i, s, us[i], orders[i])
    ensures r.applied.Some? ==>
      var (i, f) := r.applied.value;
      && i < |rules|
      && Fires(rules, i, s, us[i], orders[i])
      && (forall i' :: 0 <= i' < i ==> !Fires(rules, i', s, us[i'], orders[i']))
      && Some(f) == FirstMatch(orders[i], s, rules[i].pattern)
      && IsFlag(f)
      && r.text == Rewrite(f, s, rules[i])
  {
    ApplyRulesNone(rules, s, us, orders, 0);
    var r := ApplyRules(rules, s, us, orders, 0, RowState(s, None));
    if r.applied.Some? then
      ApplyRulesSome(rules, s, us, orders, 0);
      r
    else r
  }

  /** The draws of one row: column `k` of the per-rule draw arrays. */
  function RowDraws(us: seq<seq<real>>, k: nat): (d: seq<real>)
    requires forall j :: 0 <= j < |us| ==> k < |us[j]|
    ensures |d| == |us|
  {
    seq(|us|, j requires 0 <= j < |us| => us[j][k])
  }

  /** The phonetic corruptor on a batch: `us[j]` holds one draw per row for
      rule `j`, `orders[j]` the shuffled flags of rule `j`. */
  function PhoneticBatch(rules: seq<Rule>, b: Batch, us: seq<seq<real>>, orders: seq<string>): (r: Batch)
    requires ValidRules(rules) && OrdersFit(rules, orders)
    requires |us| == |rules| && forall j :: 0 <= j < |us| ==> |us[j]| == |b|
    ensures |r| == |b|
    ensures forall k :: 0 <= k < |b| ==> r[k] == PhoneticRow(rules, b[k], RowDraws(us, k), orders).text
  {
    seq(|b|, k requires 0 <= k < |b| => PhoneticRow(rules, b[k], RowDraws(us, k), orders).text)
  }

  // ---------------------------------------------------------------------
  // Properties
  // ---------------------------------------------------------------------

  /** Each row of a batch is corrupted on its own, with its own draws: a
      row no rule fires on is kept, and otherwise the first rule that fires
      rewrites it under the first flag of its shuffled order that matches. */
  lemma PhoneticBatchRow(rules: seq<Rule>, b: Batch, us: seq<seq<real>>, orders: seq<string>, k: nat)
    requires ValidRules(rules) && OrdersFit(rules, orders)
    requires |us| == |rules| && forall j :: 0 <= j < |us| ==> |us[j]| == |b|
    requires k < |b|
    ensures (forall i :: 0 <= i < |rules| ==> !Fires(rules, i, b[k], RowDraws(us, k)[i], orders[i])) ==>
      PhoneticBatch(rules, b, us, orders)[k] == b[k]
    ensures forall i :: 0 <= i < |rules| && Fires(rules, i, b[k], RowDraws(us, k)[i], orders[i])
                        && (forall i' :: 0 <= i' < i ==> !Fires(rules, i', b[k], RowDraws(us, k)[i'], orders[i'])) ==>
      var f := FirstMatch(orders[i], b[k], rules[i].pattern);
      && f.Some? && IsFlag(f.value)
      && PhoneticBatch(rules, b, us, orders)[k] == Rewrite(f.value, b[k], rules[i])
  {
    var d := RowDraws(us, k);
    var row := PhoneticRow(rules, b[k], d, orders);
    assert PhoneticBatch(rules, b, us, orders)[k] == row.text;
    forall i | 0 <= i < |rules| && Fires(rules, i, b[k], d[i], orders[i])
               && (forall i' :: 0 <= i' < i ==> !Fires(rules, i', b[k], d[i'], orders[i']))
      ensures var f := FirstMatch(orders[i], b[k], rules[i].pattern);
        && f.Some? && IsFlag(f.value)
        && row.text == Rewrite(f.value, b[k], rules[i])
    {
      assert row.applied.Some?;
      var (i0, f0) := row.applied.value;
      assert i0 == i;
    }
  }

  /** A string no rule applies to is never rewritten. */
  lemma NoEligibleRuleUnchanged(rules: seq<Rule>, s: string, us: seq<real>, orders: seq<string>)
    requires ValidRules(rules) && OrdersFit(rules, orders) && |us| == |rules|
    requires EligibleCount(rules, s) == 0
    ensures PhoneticRow(rules, s, us, orders) == RowState(s, None)
  {
  }

  /** What each flag's rewrite does to a string it matches: `^` and `$`
      replace the leading and the trailing pattern; `_` keeps a non-empty
      prefix and suffix around the replacement, or changes nothing. */
  lemma RewriteCases(f: char, s: string, rule: Rule)
    requires IsFlag(f) && FlagMatches(f, s, rule.pattern)
    ensures var p, rep, t := rule.pattern, rule.replacement, Rewrite(f, s, rule);
      && (f == '^' ==> StartsWith(s, p) && t == rep + s[|p|..])
      && (f == '$' ==> EndsWith(s, p) && t == s[..|s| - |p|] + rep)
      && (f == '_' ==> !StartsWith(s, p) && !EndsWith(s, p))
      && (f == '_' ==> t == s || exists j: nat :: InteriorAt(s, p, j) && t == s[..j] + rep + s[j + |p|..])
  {
    if f == '_' {
      match LastInterior(s, rule.pattern)
      case None =>
      case Some(j) =>
        assert InteriorAt(s, rule.pattern, j);
    }
  }

  /** The flag a row was rewritten under is one of its rule's flags. */
  lemma AppliedFlagAllowed(rules: seq<Rule>, s: string, us: seq<real>, orders: seq<string>)
    requires ValidRules(rules) && OrdersFit(rules, orders) && |us| == |rules|
    requires PhoneticRow(rules, s, us, orders).applied.Some?
    ensures var (i, f) := PhoneticRow(rules, s, us, orders).applied.value;
      i < |rules| && f in rules[i].flags
  {
    var (i, f) := PhoneticRow(rules, s, us, orders).applied.value;
    assert f in orders[i];
    assert f in multiset(orders[i]);
  }

  /** The `$` test compares `find(...) + len(pattern)` with the length, so a
      string that lacks the pattern but is one character shorter than it
      counts as eligible at the end.  With `_` allowed as well, such a row
      is marked as modified although its text does not change. */
  lemma PhantomEndEligibility()
    ensures var rule := Rule("ab", "x", "$_");
      && !Contains("c", "ab")
      && Eligible(rule, "c")
      && PhoneticRow([rule], "c", [0.0], ["$_"]) == RowState("c", Some((0, '_')))
  {
    var rule := Rule("ab", "x", "$_");
    assert !OccursAt("c", "ab", 0);
    assert Find("c", "ab") == -1;
    assert EligibleFlags(rule, "c") == "$";
    assert EligibleCount([rule], "c") == 1;
    assert FirstMatch("$_", "c", "ab") == Some('_');
    assert LastInterior("c", "ab").None?;
  }

  /** A row that is not modified takes part in every later rule's candidate
      count: no string is rewritten twice, because the rewrite marks it. */
  lemma AtMostOneRewrite(rules: seq<Rule>, s: string, us: seq<real>, orders: seq<string>)
    requires ValidRules(rules) && OrdersFit(rules, orders) && |us| == |rules|
    ensures var r := PhoneticRow(rules, s, us, orders);
      || r.text == s
      || exists i, f :: 0 <= i < |rules| && IsFlag(f) && FlagMatches(f, s, rules[i].pattern) && r.text == Rewrite(f, s, rules[i])
  {
    var r := PhoneticRow(rules, s, us, orders);
    if r.applied.Some? {
      var (i, f) := r.applied.value;
      assert FlagMatches(f, s, rules[i].pattern);
    }
  }

  /** The pieces of the example below: `ab` first occurs at 0 in `abab`,
      so only `^` qualifies, yet the string also ends with `ab`. */
  lemma IneligibleExampleFacts(rule: Rule, s: string)
    requires rule == Rule("ab", "x", "^$") && s == "abab"
    ensures EligibleFlags(rule, s) == "^"
    ensures Threshold([rule], s) == 1.0
    ensures FirstMatch("$^", s, "ab") == Some('$')
    ensures Rewrite('$', s, rule) == "abx"
  {
    assert OccursAt(s, "ab", 0);
    assert Find(s, "ab") == 0;
    assert EligibleFlags(rule, s) == "^";
    assert [rule][1..] == [];
    assert EligibleCount([rule], s) == 1;
    assert s[2..] == "ab";
    assert s[..2] + "x" == "abx";
  }

  /** A one-rule table whose rule fires on `s` rewrites it under the first
      matching flag of its order. */
  lemma SingleRuleFires(rules: seq<Rule>, s: string, us: seq<real>, orders: seq<string>, f: char)
    requires ValidRules(rules) && OrdersFit(rules, orders) && |us| == |rules| == 1
    requires Fires(rules, 0, s, us[0], orders[0]) && FirstMatch(orders[0], s, rules[0].pattern) == Some(f)
    ensures IsFlag(f) && FlagMatches(f, s, rules[0].pattern)
    ensures PhoneticRow(rules, s, us, orders) == RowState(Rewrite(f, s, rules[0]), Some((0, f)))
  {
    OrderValid(rules, orders, 0);
    assert f in orders[0];
  }

  /** The table of the example below is valid, and its order is a
      shuffle of its flags. */
  lemma IneligibleExampleTable(rules: seq<Rule>, orders: seq<string>)
    requires rules == [Rule("ab", "x", "^$")] && orders == ["$^"]
    ensures ValidRules(rules) && OrdersFit(rules, orders)
  {
    var rule := rules[0];
    assert IsFlag(rule.flags[0]) && IsFlag(rule.flags[1]);
    assert multiset(orders[0]) == multiset(rule.flags) by {
      assert orders[0] == ['$'] + ['^'];
      assert rule.flags == ['^'] + ['$'];
    }
  }

  /** Eligibility looks at the first occurrence only, application at the
      current string: a rule that qualifies at the start can still rewrite
      the end when its shuffled order tries `$` first. */
  lemma RewriteUnderIneligibleFlag(rules: seq<Rule>, s: string, us: seq<real>, orders: seq<string>)
    requires rules == [Rule("ab", "x", "^$")] && s == "abab" && us == [0.5] && orders == ["$^"]
    ensures EligibleFlags(rules[0], s) == "^"
    ensures ValidRules(rules) && OrdersFit(rules, orders)
    ensures PhoneticRow(rules, s, us, orders) == RowState("abx", Some((0, '$')))
  {
    IneligibleExampleFacts(rules[0], s);
    IneligibleExampleTable(rules, orders);
    assert Candidate(rules, 0, s, us[0]);
    SingleRuleFires(rules, s, us, orders, '$');
  }
}

=== FILE: probability.dfy ===
/** Random draws made explicit.  Every value the engine takes from numpy's
    generator is an input here: a "unit draw" is a real in [0, 1), the range of
    `rng.random()`.  An index into a collection of `n` elements is obtained as
    `floor(n * r)`, which is how the corruptors compute their positions; an
    unweighted `rng.choice` over a list is modelled the same way.  Weighted
    `rng.choice(..., p=ps)` is modelled as numpy's cumulative-sum search. */
module Probability {

  /** `r` can be returned by `rng.random()`. */
  predicate IsUnit(r: real) {
    0.0 <= r < 1.0
  }

  predicate AllUnit(rs: seq<real>) {
    forall k :: 0 <= k < |rs| ==> IsUnit(rs[k])
  }

  /** The index lemma: scaling a unit draw by `n >= 1` and flooring gives a
      valid index into a collection of `n` elements. */
  lemma ScaledIndexInRange(n: nat, r: real)
    requires n >= 1 && IsUnit(r)
    ensures 0 <= (n as real * r).Floor < n
  {
    var x := n as real * r;
    assert 0.0 <= x by {
      assert 0.0 <= n as real && 0.0 <= r;
    }
    assert x < n as real by {
      assert n as real * r < n as real * 1.0;
    }
    assert x.Floor as real <= x;
  }

  /** `floor(n * r)`: the position drawn in a string of length `n`. */
  function ScaledIndex(n: nat, r: real): (i: nat)
    requires n >= 1 && IsUnit(r)
    ensures i < n
  {
    ScaledIndexInRange(n, r);
    (n as real * r).Floor
  }

  /** Uniform choice of one element of a non-empty list. */
  function Pick<T>(xs: seq<T>, r: real): (x: T)
    requires |xs| >= 1 && IsUnit(r)
    ensures x in xs
  {
    xs[ScaledIndex(|xs|, r)]
  }

  /** The per-row probability the table-driven corruptors use when `k`
      alternatives apply to a row: `1 / k`, and zero for `k == 0`. */
  function Reciprocal(k: nat): (t: real)
    ensures k == 0 ==> t == 0.0
    ensures k > 0 ==> t * k as real == 1.0
  {
    if k == 0 then 0.0 else 1.0 / k as real
  }

  function Sum(ps: seq<real>): real
  {
    if |ps| == 0 then 0.0 else ps[0] + Sum(ps[1..])
  }

  predicate NonNegative(ps: seq<real>) {
    forall k :: 0 <= k < |ps| ==> ps[k] >= 0.0
  }

  /** What numpy accepts as the `p` argument of `choice`: non-negative weights
      summing to one.  numpy compares the sum with a floating-point tolerance;
      the model compares exactly. */
  predicate IsDistribution(ps: seq<real>) {
    NonNegative(ps) && Sum(ps) == 1.0
  }

  lemma {:induction false} SumNonNegative(ps: seq<real>)
    requires NonNegative(ps)
    ensures Sum(ps) >= 0.0
  {
    if |ps| > 0 {
      SumNonNegative(ps[1..]);
    }
  }

  /** Prefix sums grow by the next weight. */
  lemma {:induction false} SumPrefixStep(ps: seq<real>, i: nat)
    requires i < |ps|
    ensures Sum(ps[..i + 1]) == Sum(ps[..i]) + ps[i]
  {
    if i == 0 {
      assert ps[..1][1..] == [];
    } else {
      assert ps[..i + 1][1..] == ps[1..][..i];
      assert ps[..i][1..] == ps[1..][..i - 1];
      SumPrefixStep(ps[1..], i - 1);
    }
  }

  /** numpy's categorical draw: the result is the first index whose cumulative
      weight exceeds the unit draw `u`. */
  function Choose(ps: seq<real>, u: real): (i: nat)
    requires NonNegative(ps) && 0.0 <= u < Sum(ps)
    ensures i < |ps|
    ensures Sum(ps[..i]) <= u < Sum(ps[..i + 1])
    ensures ps[i] > 0.0
    decreases |ps|
  {
    if u < ps[0] then
      assert ps[..1] == [ps[0]];
      assert ps[..0] == [];
      0
    else
      var j := Choose(ps[1..], u - ps[0]);
      assert ps[..j + 2][1..] == ps[1..][..j + 1];
      assert ps[..j + 1][1..] == ps[1..][..j];
      assert ps[1..][j] == ps[j + 1];
      SumPrefixStep(ps, j + 1);
      j + 1
  }

  /** The categorical draw with a distribution: every unit draw selects an
      index, and an index of weight zero is never selected. */
  lemma ChooseFromDistribution(ps: seq<real>, u: real)
    requires IsDistribution(ps) && IsUnit(u)
    ensures Choose(ps, u) < |ps| && ps[Choose(ps, u)] > 0.0
  {
  }

  /** Prefix sums of non-negative weights are monotone. */
  lemma {:induction false} SumPrefixMonotone(ps: seq<real>, i: nat, j: nat)
    requires NonNegative(ps) && i <= j <= |ps|
    ensures Sum(ps[..i]) <= Sum(ps[..j])
    decreases j - i
  {
    if i < j {
      SumPrefixStep(ps, j - 1);
      SumPrefixMonotone(ps, i, j - 1);
    }
  }

  /** The categorical draw selects index `j` exactly when `u` falls into the
      half-open interval of cumulative weight belonging to `j`. */
  lemma ChooseIff(ps: seq<real>, u: real, j: nat)
    requires NonNegative(ps) && 0.0 <= u < Sum(ps) && j < |ps|
    ensures Choose(ps, u) == j <==> Sum(ps[..j]) <= u < Sum(ps[..j + 1])
  {
    var i := Choose(ps, u);
    if Sum(ps[..j]) <= u < Sum(ps[..j + 1]) && i != j {
      if i < j {
        SumPrefixMonotone(ps, i + 1, j);
      } else {
        SumPrefixMonotone(ps, j + 1, i);
      }
    }
  }
}

=== FILE: replacement.dfy ===
/** `with_replacement_table`: each string that contains at least one source
    value of the table is assigned at most one source, and its first
    occurrence of that source is replaced with one of the source's targets.
    A string containing `k` distinct sources tries each of them, in table
    order, with probability `1 / k`.  Sources are literal strings. */
module Replacement {
  import opened Wrappers
  import opened Probability
  import opened Text
  import opened Sorting
  import opened Edits

  /** One row of the replacement table. */
  datatype Entry = Entry(source: string, target: string)

  /** `df[source_column]`: the source of every table row, in table order. */
  function SourceColumn(table: seq<Entry>): (c: seq<string>)
    ensures |c| == |table|
    ensures forall i :: 0 <= i < |table| ==> c[i] == table[i].source
  {
    seq(|table|, i requires 0 <= i < |table| => table[i].source)
  }

  /** `df[source_column].unique()`: the sources in order of first appearance. */
  function Sources(table: seq<Entry>): (r: seq<string>)
    ensures Distinct(r)
    ensures forall x :: x in r <==> exists i :: 0 <= i < |table| && table[i].source == x
    ensures InFirstAppearanceOrder(r, SourceColumn(table))
  {
    var all := SourceColumn(table);
    assert forall x :: x in all <==> exists i :: 0 <= i < |table| && table[i].source == x by {
      forall x | x in all
        ensures exists i :: 0 <= i < |table| && table[i].source == x
      {
        var i :| 0 <= i < |all| && all[i] == x;
      }
      forall i | 0 <= i < |table|
        ensures table[i].source in all
      {
        assert all[i] == table[i].source;
      }
    }
    Unique(all)
  }

  /** Every target the table lists for `source`, in table order, duplicates
      kept. */
  function Targets(table: seq<Entry>, source: string): (r: seq<string>)
    ensures forall t :: t in r <==> Entry(source, t) in table
  {
    if |table| == 0 then []
    else
      (if table[0].source == source then [table[0].target] else [])
      + Targets(table[1..], source)
  }

  /** A source that occurs in the table has at least one target. */
  lemma SourceHasTargets(table: seq<Entry>, source: string)
    requires source in Sources(table)
    ensures |Targets(table, source)| >= 1
  {
    var i :| 0 <= i < |table| && table[i].source == source;
    assert table[i] == Entry(source, table[i].target);
  }

  /** How many of the sources `s` contains. */
  function ContainedCount(sources: seq<string>, s: string): (k: nat)
    ensures k <= |sources|
    ensures k == 0 <==> forall j :: 0 <= j < |sources| ==> !Contains(s, sources[j])
  {
    if |sources| == 0 then 0
    else
      assert forall j :: 1 <= j < |sources| ==> sources[j] == sources[1..][j - 1];
      (if Contains(s, sources[0]) then 1 else 0) + ContainedCount(sources[1..], s)
  }

  /** Source `j` is tried on `s` with draw `u` and succeeds. */
  predicate Hits(sources: seq<string>, j: nat, s: string, u: real)
    requires j < |sources|
  {
    Contains(s, sources[j]) && u < Reciprocal(ContainedCount(sources, s))
  }

  /** The source assigned to a row from index `j` on: the first one (in
      table order) that the string contains and whose draw is below the
      row's probability. */
  function AssignFrom(sources: seq<string>, s: string, us: seq<real>, j: nat): (a: Option<nat>)
    requires |us| == |sources| && j <= |sources|
    ensures a.None? <==> forall i :: j <= i < |sources| ==> !Hits(sources, i, s, us[i])
    ensures a.Some? ==>
      && j <= a.value < |sources|
      && Hits(sources, a.value, s, us[a.value])
      && forall i :: j <= i < a.value ==> !Hits(sources, i, s, us[i])
    decreases |sources| - j
  {
    if j == |sources| then None
    else if Hits(sources, j, s, us[j]) then Some(j)
    else AssignFrom(sources, s, us, j + 1)
  }

  function Assign(sources: seq<string>, s: string, us: seq<real>): (a: Option<nat>)
    requires |us| == |sources|
    ensures a.None? <==> forall i :: 0 <= i < |sources| ==> !Hits(sources, i, s, us[i])
    ensures a.Some? ==>
      && a.value < |sources|
      && Hits(sources, a.value, s, us[a.value])
      && forall i :: 0 <= i < a.value ==> !Hits(sources, i, s, us[i])
  {
    AssignFrom(sources, s, us, 0)
  }

  /** The target a row assigned to `source` receives: the only target, or
      a uniform pick among all of them (`rng.choice(replacement_options)`). */
  function TargetFor(table: seq<Entry>, source: string, pick: real): (t: string)
    requires source in Sources(table) && IsUnit(pick)
    ensures Entry(source, t) in table
    ensures |Targets(table, source)| == 1 ==> t == Targets(table, source)[0]
  {
    SourceHasTargets(table, source);
    var ts := Targets(table, source);
    if |ts| == 1 then ts[0] else Pick(ts, pick)
  }

  /** One row of the corruptor: `us[j]` is the row's draw for source `j`,
      `pick` its draw for the target. */
  function ReplaceRow(table: seq<Entry>, s: string, us: seq<real>, pick: real): (r: string)
    requires |us| == |Sources(table)| && IsUnit(pick)
    ensures Assign(Sources(table), s, us).None? ==> r == s
    ensures Assign(Sources(table), s, us).Some? ==>
      var source := Sources(table)[Assign(Sources(table), s, us).value];
      && Contains(s, source)
      && exists t :: Entry(source, t) in table && r == ReplaceFirst(s, source, t)
  {
    var sources := Sources(table);
    match Assign(sources, s, us)
    case None => s
    case Some(j) => ReplaceFirst(s, sources[j], TargetFor(table, sources[j], pick))
  }

  /** The corruptor on a batch: `us[j][k]` is row `k`'s draw for source `j`,
      `picks[k]` its draw for the target. */
  function ReplacementBatch(table: seq<Entry>, b: Batch, us: seq<seq<real>>, picks: seq<real>): (r: Batch)
    requires |us| == |Sources(table)| && forall j :: 0 <= j < |us| ==> |us[j]| == |b|
    requires |picks| == |b| && AllUnit(picks)
    ensures |r| == |b|
    ensures forall k :: 0 <= k < |b| ==>
      r[k] == ReplaceRow(table, b[k], seq(|us|, j requires 0 <= j < |us| => us[j][k]), picks[k])
  {
    seq(|b|, k requires 0 <= k < |b| =>
      ReplaceRow(table, b[k], seq(|us|, j requires 0 <= j < |us| => us[j][k]), picks[k]))
  }

  // ---------------------------------------------------------------------
  // Properties
  // ---------------------------------------------------------------------

  /** Strings without any source value are not corrupted. */
  lemma NoSourceUnchanged(table: seq<Entry>, s: string, us: seq<real>, pick: real)
    requires |us| == |Sources(table)| && IsUnit(pick)
    requires forall x :: x in Sources(table) ==> !Contains(s, x)
    ensures ReplaceRow(table, s, us, pick) == s
  {

  }

  /** Each row of a batch is corrupted on its own: a row without any
      source is kept, and any other row is either kept or has the first
      occurrence of one source it contains replaced by one of that
      source's targets. */
  lemma ReplacementBatchRow(table: seq<Entry>, b: Batch, us: seq<seq<real>>, picks: seq<real>, k: nat)
    requires |us| == |Sources(table)| && forall j :: 0 <= j < |us| ==> |us[j]| == |b|
    requires |picks| == |b| && AllUnit(picks)
    requires k < |b|
    ensures (forall x :: x in Sources(table) ==> !Contains(b[k], x)) ==>
      ReplacementBatch(table, b, us, picks)[k] == b[k]
    ensures || ReplacementBatch(table, b, us, picks)[k] == b[k]
            || exists source, t :: && Entry(source, t) in table && Contains(b[k], source)
                                   && ReplacementBatch(table, b, us, picks)[k] == ReplaceFirst(b[k], source, t)
  {
    var draws := seq(|us|, j requires 0 <= j < |us| => us[j][k]);
    var r := ReplacementBatch(table, b, us, picks)[k];
    assert r == ReplaceRow(table, b[k], draws, picks[k]);
    if forall x :: x in Sources(table) ==> !Contains(b[k], x) {
      NoSourceUnchanged(table, b[k], draws, picks[k]);
    }
    var a := Assign(Sources(table), b[k], draws);
    if a.Some? {
      var source := Sources(table)[a.value];
      var t :| Entry(source, t) in table && r == ReplaceFirst(b[k], source, t);
      assert Entry(source, t) in table && Contains(b[k], source) && r == ReplaceFirst(b[k], source, t);
    }
  }

  /** A string that contains exactly one of the sources always has it
      replaced: its probability is 1 and every draw lies below it. */
  lemma SingleSourceAlwaysReplaced(table: seq<Entry>, s: string, us: seq<real>, pick: real, j: nat)
    requires |us| == |Sources(table)| && AllUnit(us) && IsUnit(pick)
    requires j < |Sources(table)| && Contains(s, Sources(table)[j])
    requires ContainedCount(Sources(table), s) == 1
    ensures Assign(Sources(table), s, us) == Some(j)
  {
    var sources := Sources(table);
    assert Reciprocal(1) == 1.0;
    assert Hits(sources, j, s, us[j]);
    var a := Assign(sources, s, us);
    if a.value != j {
      OnlyOneContained(sources, s, a.value, j);
    }
  }

  /** With a contained-source count of one, two different sources cannot
      both occur. */
  lemma {:induction false} OnlyOneContained(sources: seq<string>, s: string, i: nat, j: nat)
    requires i < |sources| && j < |sources| && i != j
    requires Contains(s, sources[i]) && Contains(s, sources[j])
    ensures ContainedCount(sources, s) >= 2
  {
    assert |sources| > 0;
    var tail := sources[1..];
    assert forall x :: 1 <= x < |sources| ==> sources[x] == tail[x - 1];
    if i == 0 {
      assert ContainedCount(tail, s) >= 1;
    } else if j == 0 {
      assert ContainedCount(tail, s) >= 1;
    } else {
      OnlyOneContained(tail, s, i - 1, j - 1);
    }
  }

  /** A source with a single target always yields that target. */
  lemma SingleTargetDeterministic(table: seq<Entry>, s: string, us: seq<real>, pick: real, t: string)
    requires |us| == |Sources(table)| && IsUnit(pick)
    requires Assign(Sources(table), s, us).Some?
    requires var source := Sources(table)[Assign(Sources(table), s, us).value];
      Targets(table, source) == [t]
    ensures var source := Sources(table)[Assign(Sources(table), s, us).value];
      ReplaceRow(table, s, us, pick) == ReplaceFirst(s, source, t)
  {
  }
}

=== FILE: rows.dfy ===
/** Row subsets.  The corruptors work on pandas series through boolean
    masks: `srs[mask]` selects the rows a mask marks, in row order, and
    `srs[mask] = values` / `srs.update(values)` writes a shorter series back
    into exactly those rows.  Row identity is the position in the batch; a
    mask is a label per row and a subset is every row carrying one label. */
module Rows {

  /** How many rows carry label `g`. */
  function Count<L(==)>(labels: seq<L>, g: L): (n: nat)
    ensures n <= |labels|
  {
    if |labels| == 0 then 0
    else (if labels[0] == g then 1 else 0) + Count(labels[1..], g)
  }

  lemma {:induction false} CountAppend<L>(a: seq<L>, b: seq<L>, g: L)
    ensures Count(a + b, g) == Count(a, g) + Count(b, g)
  {
    if |a| == 0 {
      assert a + b == b;
    } else {
      assert (a + b)[1..] == a[1..] + b;
      CountAppend(a[1..], b, g);
    }
  }

  /** Position of row `k` inside the subset of rows sharing its label. */
  function Rank<L(==)>(labels: seq<L>, k: nat): (j: nat)
    requires k < |labels|
    ensures j < Count(labels, labels[k])
  {
    assert labels == labels[..k] + labels[k..];
    CountAppend(labels[..k], labels[k..], labels[k]);
    Count(labels[..k], labels[k])
  }

  lemma RankSteps<L>(labels: seq<L>)
    requires |labels| > 0
    ensures Rank(labels, 0) == 0
    ensures forall k :: 0 < k < |labels| ==>
      Rank(labels, k) == (if labels[0] == labels[k] then 1 else 0) + Rank(labels[1..], k - 1)
  {
    forall k | 0 < k < |labels|
      ensures Rank(labels, k) == (if labels[0] == labels[k] then 1 else 0) + Rank(labels[1..], k - 1)
    {
      assert labels[..k][1..] == labels[1..][..k - 1];
    }
  }

  /** `xs[mask]`: the rows labelled `g`, in row order. */
  function Select<T, L(==)>(xs: seq<T>, labels: seq<L>, g: L): (r: seq<T>)
    requires |xs| == |labels|
    ensures |r| == Count(labels, g)
    ensures forall k :: 0 <= k < |xs| && labels[k] == g ==> r[Rank(labels, k)] == xs[k]
  {
    if |xs| == 0 then []
    else
      RankSteps(labels);
      var rest := Select(xs[1..], labels[1..], g);
      if labels[0] == g then [xs[0]] + rest else rest
  }

  /** Every element of a subset is the value of a row carrying the label,
      and that row's rank is the element's position. */
  lemma {:induction false} SelectOrigin<T, L>(xs: seq<T>, labels: seq<L>, g: L, j: nat)
    requires |xs| == |labels| && j < Count(labels, g)
    ensures exists k ::
      && 0 <= k < |xs|
      && labels[k] == g
      && Rank(labels, k) == j
      && xs[k] == Select(xs, labels, g)[j]
  {
    RankSteps(labels);
    var rest := Select(xs[1..], labels[1..], g);
    if labels[0] == g && j == 0 {
      assert labels[0] == g && Rank(labels, 0) == 0;
    } else {
      var j' := if labels[0] == g then j - 1 else j;
      SelectOrigin(xs[1..], labels[1..], g, j');
      var k' :| 0 <= k' < |xs| - 1 && labels[1..][k'] == g && Rank(labels[1..], k') == j'
        && xs[1..][k'] == rest[j'];
      assert labels[k' + 1] == g && Rank(labels, k' + 1) == j;
    }
  }

  /** Every element of the subset comes from a row carrying the label. */
  lemma SelectFrom<T, L>(xs: seq<T>, labels: seq<L>, g: L)
    requires |xs| == |labels|
    ensures forall x :: x in Select(xs, labels, g) ==>
      exists k :: 0 <= k < |xs| && labels[k] == g && xs[k] == x
  {
    var r := Select(xs, labels, g);
    forall x | x in r
      ensures exists k :: 0 <= k < |xs| && labels[k] == g && xs[k] == x
    {
      var j :| 0 <= j < |r| && r[j] == x;
      SelectOrigin(xs, labels, g, j);
    }
  }

  /** `xs[mask] = ys`: the rows labelled `g` receive the values of `ys` in
      order; every other row keeps its value. */
  function Scatter<T, L(==)>(xs: seq<T>, labels: seq<L>, g: L, ys: seq<T>): (r: seq<T>)
    requires |xs| == |labels| && |ys| == Count(labels, g)
    ensures |r| == |xs|
    ensures forall k :: 0 <= k < |xs| ==>
      r[k] == (if labels[k] == g then ys[Rank(labels, k)] else xs[k])
  {
    if |xs| == 0 then []
    else
      RankSteps(labels);
      if labels[0] == g then [ys[0]] + Scatter(xs[1..], labels[1..], g, ys[1..])
      else [xs[0]] + Scatter(xs[1..], labels[1..], g, ys)
  }

  /** Writing a subset back unchanged restores the batch. */
  lemma ScatterSelect<T, L>(xs: seq<T>, labels: seq<L>, g: L)
    requires |xs| == |labels|
    ensures Scatter(xs, labels, g, Select(xs, labels, g)) == xs
  {
  }

  /** Selecting the subset that was just written gives back what was
      written: every value of `ys` lands in some row. */
  lemma {:induction false} SelectScatter<T, L>(xs: seq<T>, labels: seq<L>, g: L, ys: seq<T>)
    requires |xs| == |labels| && |ys| == Count(labels, g)
    ensures Select(Scatter(xs, labels, g, ys), labels, g) == ys
  {
    if |xs| > 0 {
      var s := Scatter(xs, labels, g, ys);
      if labels[0] == g {
        SelectScatter(xs[1..], labels[1..], g, ys[1..]);
        assert s[1..] == Scatter(xs[1..], labels[1..], g, ys[1..]);
      } else {
        SelectScatter(xs[1..], labels[1..], g, ys);
        assert s[1..] == Scatter(xs[1..], labels[1..], g, ys);
      }
    }
  }

  /** Writing the rows of one label leaves the subset of every other label
      untouched. */
  lemma {:induction false} SelectScatterOther<T, L>(xs: seq<T>, labels: seq<L>, g: L, ys: seq<T>, h: L)
    requires |xs| == |labels| && |ys| == Count(labels, g) && h != g
    ensures Select(Scatter(xs, labels, g, ys), labels, h) == Select(xs, labels, h)
  {
    if |xs| > 0 {
      var s := Scatter(xs, labels, g, ys);
      if labels[0] == g {
        SelectScatterOther(xs[1..], labels[1..], g, ys[1..], h);
        assert s[1..] == Scatter(xs[1..], labels[1..], g, ys[1..]);
      } else {
        SelectScatterOther(xs[1..], labels[1..], g, ys, h);
        assert s[1..] == Scatter(xs[1..], labels[1..], g, ys);
      }
    }
  }

  /** When every row carries label `g`, the subset is the whole batch. */
  lemma {:induction false} SelectAll<T, L>(xs: seq<T>, labels: seq<L>, g: L)
    requires |xs| == |labels| && forall k :: 0 <= k < |labels| ==> labels[k] == g
    ensures Select(xs, labels, g) == xs
  {
    if |xs| > 0 {
      SelectAll(xs[1..], labels[1..], g);
    }
  }

  /** When every row carries label `g`, each row's rank is its position. */
  lemma {:induction false} RankAll<L>(labels: seq<L>, g: L)
    requires forall k :: 0 <= k < |labels| ==> labels[k] == g
    ensures forall k :: 0 <= k < |labels| ==> Rank(labels, k) == k
  {
    if |labels| > 0 {
      RankSteps(labels);
      RankAll(labels[1..], g);
    }
  }
}

=== FILE: sorting.dfy ===
/** Sequence helpers: the first components of a list of pairs,
    `pd.Series.unique()` (first-appearance order), `sorted()` of a set of
    characters, and the code-point order numpy uses when `np.setdiff1d`
    sorts strings. */
module Sorting {

  /** The first component of every pair, in order: the keys of an ordered
      dictionary, the weights of a weighted corruptor list. */
  function Firsts<A, B>(ps: seq<(A, B)>): (xs: seq<A>)
    ensures |xs| == |ps|
    ensures forall i :: 0 <= i < |ps| ==> xs[i] == ps[i].0
  {
    seq(|ps|, i requires 0 <= i < |ps| => ps[i].0)
  }

  predicate Distinct<T(==,!new)>(xs: seq<T>) {
    forall i, j :: 0 <= i < j < |xs| ==> xs[i] != xs[j]
  }

  function DedupInto<T(==,!new)>(seen: seq<T>, xs: seq<T>): (r: seq<T>)
    requires Distinct(seen)
    ensures Distinct(r)
    ensures |seen| <= |r| && r[..|seen|] == seen
    ensures forall x :: x in r <==> x in seen || x in xs
    decreases |xs|
  {
    if |xs| == 0 then seen
    else if xs[0] in seen then DedupInto(seen, xs[1..])
    else DedupInto(seen + [xs[0]], xs[1..])
  }

  /** Index of the first occurrence of `x` in `xs`. */
  function FirstIndex<T(==)>(xs: seq<T>, x: T): (i: nat)
    requires x in xs
    ensures i < |xs| && xs[i] == x
    ensures forall j :: 0 <= j < i ==> xs[j] != x
  {
    if xs[0] == x then 0 else 1 + FirstIndex(xs[1..], x)
  }

  /** The values of `r` appear in `r` in the order of their first
      occurrence in `xs`. */
  predicate InFirstAppearanceOrder<T(==)>(r: seq<T>, xs: seq<T>) {
    forall i, j :: 0 <= i < j < |r| ==> r[i] in xs && r[j] in xs && FirstIndex(xs, r[i]) < FirstIndex(xs, r[j])
  }

  /** First occurrences in a prefix are first occurrences in the whole. */
  lemma {:induction false} FirstIndexAppend<T>(xs: seq<T>, ys: seq<T>, x: T)
    requires x in xs
    ensures FirstIndex(xs + ys, x) == FirstIndex(xs, x)
  {
    if xs[0] != x {
      assert (xs + ys)[1..] == xs[1..] + ys;
      FirstIndexAppend(xs[1..], ys, x);
    }
  }

  /** A value not in `xs` first occurs in `xs + [x] + ys` right after `xs`. */
  lemma {:induction false} FirstIndexAfter<T>(xs: seq<T>, x: T, ys: seq<T>)
    requires x !in xs
    ensures FirstIndex(xs + [x] + ys, x) == |xs|
  {
    var zs := xs + [x] + ys;
    var i := FirstIndex(zs, x);
    assert zs[|xs|] == x;
    assert i >= |xs| by {
      if i < |xs| {
        assert false;
      }
    }
  }

  /** Deduplicating the rest of a sequence keeps the order of first
      appearance: `seen` holds the distinct values of the prefix `ps` in
      that order. */
  lemma {:induction false} DedupOrder<T(!new)>(ps: seq<T>, seen: seq<T>, xs: seq<T>)
    requires Distinct(seen)
    requires forall x :: x in seen <==> x in ps
    requires InFirstAppearanceOrder(seen, ps)
    ensures InFirstAppearanceOrder(DedupInto(seen, xs), ps + xs)
    decreases |xs|
  {
    if |xs| == 0 {
      assert ps + xs == ps;
    } else {
      var ps' := ps + [xs[0]];
      assert ps' + xs[1..] == ps + xs;
      forall x | x in ps
        ensures FirstIndex(ps', x) == FirstIndex(ps, x)
      {
        FirstIndexAppend(ps, [xs[0]], x);
      }
      if xs[0] in seen {
        DedupOrder(ps', seen, xs[1..]);
      } else {
        var seen' := seen + [xs[0]];
        FirstIndexAfter(ps, xs[0], []);
        assert ps + [xs[0]] + [] == ps';
        forall i, j | 0 <= i < j < |seen'|
          ensures seen'[i] in ps' && seen'[j] in ps' && FirstIndex(ps', seen'[i]) < FirstIndex(ps', seen'[j])
        {
          if j == |seen| {
            assert seen'[i] == seen[i] && seen[i] in ps;
          } else {
            assert seen'[i] == seen[i] && seen'[j] == seen[j];
          }
        }
        DedupOrder(ps', seen', xs[1..]);
      }
    }
  }

  /** `pd.Series(xs).unique()`: every value once, in order of first
      appearance. */
  function Unique<T(==,!new)>(xs: seq<T>): (r: seq<T>)
    ensures Distinct(r)
    ensures forall x :: x in r <==> x in xs
    ensures InFirstAppearanceOrder(r, xs)
  {
    DedupOrder([], [], xs);
    assert [] + xs == xs;
    DedupInto([], xs)
  }

  /** Strictly increasing characters. */
  predicate IncreasingChars(s: seq<char>) {
    forall i, j :: 0 <= i < j < |s| ==> s[i] < s[j]
  }

  lemma {:induction false} MinChar(s: set<char>) returns (m: char)
    requires s != {}
    ensures m in s && forall c :: c in s ==> m <= c
    decreases |s|
  {
    var x :| x in s;
    if s == {x} {
      m := x;
    } else {
      var m' := MinChar(s - {x});
      m := if x < m' then x else m';
      forall c | c in s
        ensures m <= c
      {
        if c != x {
          assert c in s - {x};
        }
      }
    }
  }

  lemma MinCharExists(s: set<char>)
    requires s != {}
    ensures exists m :: m in s && forall c :: c in s ==> m <= c
  {
    var m := MinChar(s);
  }

  /** `"".join(sorted(s))` for a set of characters. */
  function SortedChars(s: set<char>): (r: seq<char>)
    ensures IncreasingChars(r)
    ensures forall c :: c in r <==> c in s
    ensures |r| == |s|
    decreases |s|
  {
    if s == {} then []
    else
      MinCharExists(s);
      var m :| m in s && forall c :: c in s ==> m <= c;
      [m] + SortedChars(s - {m})
  }

  /** Code-point lexicographic order on strings (a proper prefix comes
      first), the order numpy sorts unicode arrays in. */
  predicate StrLess(a: string, b: string)
    decreases |a|
  {
    if |a| == 0 then |b| > 0
    else if |b| == 0 then false
    else if a[0] != b[0] then a[0] < b[0]
    else StrLess(a[1..], b[1..])
  }

  lemma {:induction false} StrLessTotal(a: string, b: string)
    requires a != b
    ensures StrLess(a, b) || StrLess(b, a)
    decreases |a|
  {
    if |a| > 0 && |b| > 0 && a[0] == b[0] {
      assert a == [a[0]] + a[1..] && b == [b[0]] + b[1..];
      StrLessTotal(a[1..], b[1..]);
    }
  }

  predicate SortedStrings(xs: seq<string>) {
    forall i :: 0 <= i < |xs| - 1 ==> StrLess(xs[i], xs[i + 1])
  }

  function InsertString(x: string, xs: seq<string>): (r: seq<string>)
    requires SortedStrings(xs)
    ensures SortedStrings(r)
    ensures forall y :: y in r <==> y == x || y in xs
    ensures |r| > 0 && (r[0] == x || (|xs| > 0 && r[0] == xs[0]))
    decreases |xs|
  {
    if |xs| == 0 then [x]
    else if x == xs[0] then xs
    else if StrLess(x, xs[0]) then [x] + xs
    else
      StrLessTotal(x, xs[0]);
      [xs[0]] + InsertString(x, xs[1..])
  }

  /** `np.unique(xs)`: the distinct values of `xs`, sorted. */
  function SortStrings(xs: seq<string>): (r: seq<string>)
    ensures SortedStrings(r)
    ensures forall y :: y in r <==> y in xs
  {
    if |xs| == 0 then [] else InsertString(xs[0], SortStrings(xs[1..]))
  }
}

=== FILE: text.dfy ===
/** String operations the corruptors rely on: Python's `str.find`,
    `startswith`, `endswith`, `in`, `replace(source, target, 1)`, `strip()` and
    `",".join`, plus the greedy interior match `^(.+)P(.+)$`.  Patterns are
    literal strings (no regular-expression metacharacters). */
module Text {
  import opened Wrappers

  /** `p` occurs in `s` starting at index `i`. */
  predicate OccursAt(s: string, p: string, i: nat) {
    i + |p| <= |s| && s[i..i + |p|] == p
  }

  predicate StartsWith(s: string, p: string) {
    |p| <= |s| && s[..|p|] == p
  }

  predicate EndsWith(s: string, p: string) {
    |p| <= |s| && s[|s| - |p|..] == p
  }

  predicate Contains(s: string, p: string) {
    exists i :: 0 <= i <= |s| && OccursAt(s, p, i)
  }

  function FindFrom(s: string, p: string, i: nat): (r: int)
    requires i <= |s|
    ensures r == -1 || (i <= r && OccursAt(s, p, r))
    ensures r == -1 ==> forall j: nat :: i <= j ==> !OccursAt(s, p, j)
    ensures r != -1 ==> forall j: nat :: i <= j < r ==> !OccursAt(s, p, j)
    decreases |s| - i
  {
    if OccursAt(s, p, i) then i
    else if i + |p| >= |s| then
      -1
    else FindFrom(s, p, i + 1)
  }

  /** Python's `s.find(p)`: the first index where `p` occurs, or -1. */
  function Find(s: string, p: string): (r: int)
    ensures -1 <= r
    ensures r == -1 <==> !Contains(s, p)
    ensures r >= 0 ==> OccursAt(s, p, r) && forall j: nat :: j < r ==> !OccursAt(s, p, j)
  {
    FindFrom(s, p, 0)
  }

  lemma StartsWithOccurs(s: string, p: string)
    ensures StartsWith(s, p) <==> OccursAt(s, p, 0)
  {
  }

  lemma EndsWithOccurs(s: string, p: string)
    ensures EndsWith(s, p) <==> |p| <= |s| && OccursAt(s, p, |s| - |p|)
  {
  }

  /** Python's `s.replace(source, target, 1)`: the first occurrence of `source` is
      replaced; a string without `source` is returned as is. */
  function ReplaceFirst(s: string, source: string, target: string): (r: string)
    ensures !Contains(s, source) ==> r == s
    ensures Contains(s, source) ==>
      exists i: nat ::
        && OccursAt(s, source, i)
        && (forall j: nat :: j < i ==> !OccursAt(s, source, j))
        && r == s[..i] + target + s[i + |source|..]
  {
    var i := Find(s, source);
    if i < 0 then s else s[..i] + target + s[i + |source|..]
  }

  /** An occurrence of `p` that leaves a non-empty prefix and a non-empty
      suffix. */
  predicate InteriorAt(s: string, p: string, j: nat) {
    1 <= j && j + |p| + 1 <= |s| && OccursAt(s, p, j)
  }

  function LastInteriorBelow(s: string, p: string, j: nat): (r: Option<nat>)
    ensures r.None? ==> forall k: nat :: k <= j ==> !InteriorAt(s, p, k)
    ensures r.Some? ==>
      && r.value <= j
      && InteriorAt(s, p, r.value)
      && forall k: nat :: r.value < k <= j ==> !InteriorAt(s, p, k)
    decreases j
  {
    if InteriorAt(s, p, j) then Some(j)
    else if j == 0 then None
    else LastInteriorBelow(s, p, j - 1)
  }

  /** The occurrence the greedy regular expression `^(.+)P(.+)$` matches:
      the last one with a non-empty prefix and a non-empty suffix. */
  function LastInterior(s: string, p: string): (r: Option<nat>)
    ensures r.None? ==> forall k: nat :: !InteriorAt(s, p, k)
    ensures r.Some? ==>
      && InteriorAt(s, p, r.value)
      && forall k: nat :: r.value < k ==> !InteriorAt(s, p, k)
  {
    LastInteriorBelow(s, p, |s|)
  }

  /** Characters Python's `str.strip()` removes (`str.isspace`). */
  predicate IsSpace(c: char) {
    || ('\U{9}' <= c <= '\U{D}')
    || ('\U{1C}' <= c <= '\U{20}')
    || c == '\U{85}' || c == '\U{A0}' || c == '\U{1680}'
    || ('\U{2000}' <= c <= '\U{200A}')
    || c == '\U{2028}' || c == '\U{2029}' || c == '\U{202F}' || c == '\U{205F}'
    || c == '\U{3000}'
  }

  function LStrip(s: string): (r: string)
    ensures |r| <= |s| && r == s[|s| - |r|..]
    ensures forall k :: 0 <= k < |s| - |r| ==> IsSpace(s[k])
    ensures |r| > 0 ==> !IsSpace(r[0])
  {
    if |s| > 0 && IsSpace(s[0]) then LStrip(s[1..]) else s
  }

  function RStrip(s: string): (r: string)
    ensures |r| <= |s| && r == s[..|r|]
    ensures forall k :: |r| <= k < |s| ==> IsSpace(s[k])
    ensures |r| > 0 ==> !IsSpace(r[|r| - 1])
  {
    if |s| > 0 && IsSpace(s[|s| - 1]) then RStrip(s[..|s| - 1]) else s
  }

  /** Python's `s.strip()`. */
  function Strip(s: string): string
  {
    RStrip(LStrip(s))
  }

  predicate AllSpace(s: string) {
    forall k :: 0 <= k < |s| ==> IsSpace(s[k])
  }

  /** `s.strip() == ""` holds exactly for strings made of whitespace only
      (including the empty string). */
  lemma StripEmptyIff(s: string)
    ensures Strip(s) == "" <==> AllSpace(s)
  {
  }

  /** Python's `sep.join(xs)`. */
  function Join(xs: seq<string>, sep: string): (r: string)
    ensures |xs| == 1 ==> r == xs[0]
  {
    if |xs| == 0 then ""
    else if |xs| == 1 then xs[0]
    else xs[0] + sep + Join(xs[1..], sep)
  }

  function DigitChar(d: nat): char
    requires d < 10
  {
    "0123456789"[d]
  }

  /** Decimal rendering of a natural number, as Python's `str(n)`. */
  function NatToString(n: nat): (r: string)
    ensures |r| >= 1
    ensures forall k :: 0 <= k < |r| ==> '0' <= r[k] <= '9'
    decreases n
  {
    if n < 10 then [DigitChar(n)] else NatToString(n / 10) + [DigitChar(n % 10)]
  }

  /** Decimal rendering of an integer, as Python's `str(i)` / f-string. */
  function IntToString(i: int): (r: string)
    ensures |r| >= 1
    ensures i < 0 <==> r[0] == '-'
  {
    if i < 0 then "-" + NatToString(-i) else NatToString(i)
  }
}

=== FILE: wrappers.dfy ===
/** Failure-compatible result type. The corruption engine signals every
    configuration problem by raising `ValueError` with a message; the model
    returns `Err(message)` instead. */
module Wrappers {

  datatype Option<+T> = None | Some(value: T)

  datatype Result<+T> = Ok(value: T) | Err(msg: string) {

    predicate IsFailure() {
      Err?
    }

    function PropagateFailure<U>(): Result<U>
      requires Err?
    {
      Err(msg)
    }

    function Extract(): T
      requires Ok?
    {
      value
    }
  }

  /** `Pass` or a failure carrying the error message, usable with `:-`. */
  datatype Outcome = Pass | Fail(msg: string) {

    predicate IsFailure() {
      Fail?
    }

    function PropagateFailure<U>(): Result<U>
      requires Fail?
    {
      Err(msg)
    }
  }

  function Need(condition: bool, msg: string): (o: Outcome)
  {
    if condition then Pass else Fail(msg)
  }
}
